=== FILE: README.md ===
# FeedWriter in Dafny

A model of the pure core of FeedWriter, the PHP library that builds RSS 1.0,
RSS 2.0 and ATOM feeds. The model covers three things and proves properties of
each.

- **Feed state** (`Feed.php`). This is the channel elements as PHP's ordered array,
  the namespace registry, the CDATA tag list, the encoding and the items. The
  model includes every setter and wrapper: `setChannelElement`, `setTitle`,
  `setLink`, `setDate`, `setAtomLink`, `setSelfLink`, `setPagination`,
  `addGenerator`, and the others.
- **Item state** (`Item.php`). This is the element array keyed by name, with
  repeated elements stored under `name-N` keys numbered by the `_cpt` counter.
  The model includes `addElement`, `addElementArray`, and every wrapper from
  `setDescription` to `setId`.
- **Serializer.** This covers:
  - `filterInvalidXMLChars`, `htmlspecialchars` and `sanitizeCDATA`;
  - `makeNode` with nested content arrays;
  - `getNamespacePrefixes` and `makeHeader`;
  - `makeChannels`, `makeItems`, `startItem`, `endItem` and `makeFooter`;
  - `generateFeed`;
  - the `uuid` layout used for ATOM ids.

`die()` and the thrown exceptions become the `Failure` case of a `Result`, and the
message is kept where the caller can see it. The model represents a PHP array
as a sequence of key/value pairs. A write to an existing key replaces the value
in place, and a write to a new key appends. A PHP `null` passed for an optional
string argument is the empty string. The source's loose `!= null` cannot tell
the two apart. `empty()` on a string is "empty or `"0"`". `PHP_EOL` is `"\n"`.

The replacement string of `filterInvalidXMLChars` is read the way `preg_replace`
reads one. `\n`, `$n` and `${n}`, with one or two digits, refer to a capture
group. A backslash before `\` or `$` makes that character literal. The filter's
pattern has no capture group, so group 0 stands for the matched run and every
other group for nothing.

These runtime functions are parameters of the model, fields of `Runtime.Env`:

- `md5` (32 lower-case hex digits);
- the fresh value `uniqid(rand())` returns;
- `date` with a format;
- `strtotime` (`None` for `false`).

Modules, in dependency order:

- `Wrappers`: `Option` and `Result`.
- `Text`: string helpers and PHP's `str_replace`, `explode`, `empty()`, the decimal cast and the regular expressions.
- `Lists`: `array_unique`, `array_diff`, and the flip/unset/flip removal.
- `XmlChars`, `Escaping`, `Cdata`: the three text filters.
- `Runtime`: the environment parameters.
- `Uuids`: `Feed::uuid`.
- `Assoc`: ordered PHP arrays.
- `Model`: formats and content trees.
- `XmlNode`: `makeNode`.
- `FeedItem`: `Item.php`.
- `FeedDocument`: the public part of `Feed.php`.
- `FeedRender`: the private rendering part of `Feed.php`.

## Model

| member | source | states |
|---|---|---|
| Text.Explode | Feed.php:639 | `explode` always yields at least one piece |
| Text.ExplodeImplode | Feed.php:639-642 | splitting at `:` loses nothing: the pieces glue back to the tag, there is one more piece than colons, and no piece holds a colon |
| Text.ImplodeOfExplode | Feed.php:639 | gluing the pieces of `explode` back together with the separator gives the original string |
| Text.ExplodeCount | Feed.php:639-641 | the number of pieces is the number of separators plus one, so `count == 2` means exactly one colon |
| Text.ExplodePiecesFree | Feed.php:639 | no piece contains the separator |
| Text.ColonPrefixShape | Feed.php:639-644 | a tag contributes a namespace prefix exactly when it has one colon, and the tag is then `prefix:local` with neither part holding a colon |
| Text.NatToString | Feed.php:491 | the `(string)` cast of a length is a non-empty run of decimal digits |
| Text.NatToStringRoundTrip | Feed.php:491 | the decimal text of a length reads back as the same number |
| Text.ReplaceAbsent | Feed.php:915-916 | `str_replace` with a needle that does not occur returns its subject unchanged |
| Lists.AppendNew | Feed.php:629-635 | collecting item keys "if not already in the list" keeps the earlier list as a prefix, adds exactly the new names, and keeps the list duplicate-free |
| Lists.Unique | Feed.php:647 | `array_unique` keeps exactly the values of its argument, each once |
| Lists.AppendNewDistinct | Feed.php:647 | a list that already has no duplicates passes through `array_unique` unchanged |
| Lists.Without | Feed.php:320 | `array_diff` keeps exactly the values not listed for removal and never lengthens the list |
| Lists.WithoutAbsent | Feed.php:320 | removing values that are not present changes nothing |
| Lists.RemoveValue | Feed.php:677-679 | the flip/unset/flip sequence deletes exactly one value and keeps a duplicate-free list duplicate-free |
| XmlChars.SkipInvalid | Feed.php:595 | a run of illegal code points is dropped from the front, leaving a suffix that starts with a legal one |
| XmlChars.InvalidRun | Feed.php:595 | the text one match of the pattern covers: empty exactly when the input starts with a legal code point, and illegal throughout |
| XmlChars.BackReference | Feed.php:595 | a back-reference in the replacement string is `\n`, `$n` or `${n}` with one or two digits, so the group number stays below 100, and a brace form ends with `}` |
| XmlChars.BackReferenceForms | Feed.php:595 | `$0`, `\0` and `${12}` are references, `$123` reads as group 12 followed by `3`, and `${1` and `$x` are no reference |
| XmlChars.Pieces | Feed.php:595 | the replacement string is read as literals and group references; no more pieces than characters, and every literal comes from the string |
| XmlChars.EscapedDollarIsLiteral | Feed.php:595 | a backslash makes the next `$` literal, so `\$0` stands for the text `$0` and never for the match |
| XmlChars.PlainReplacement | Feed.php:595 | a replacement string without `\` or `$` is inserted as it is |
| XmlChars.ExpandLegal | Feed.php:595 | with a legal replacement string, the text replacing a match is legal exactly when the match is, or when the replacement does not refer to group 0 |
| XmlChars.DefaultFilterLegal | Feed.php:593 | the default `_`, which makeNode always uses, is one literal, and the filter with it always yields legal XML |
| XmlChars.FilterInvalidXMLChars | Feed.php:593-606 | the result is empty only for an empty input, because an empty replace result is taken for a failure and the input is returned unfiltered |
| XmlChars.ReplaceKeepsLegalText | Feed.php:595 | the replace leaves text made only of XML `Char` code points unchanged |
| XmlChars.FilterKeepsLegalText | Feed.php:593-606 | text made only of XML `Char` code points is returned unchanged |
| XmlChars.ReplaceYieldsLegalText | Feed.php:595 | with a legal replacement string, the replace result is legal XML exactly when the input was, or when the replacement does not refer to the match (`$0`, `\0`, `${0}`) |
| XmlChars.ReplaceEmptyOnlyIf | Feed.php:595 | the replace result is empty exactly for an empty input, or for an input without a legal code point and a replacement string that stands for nothing (empty, or only references to groups the pattern lacks, such as `$1`) |
| XmlChars.FilterYieldsLegalText | Feed.php:593-606 | with a legal replacement string, the result is legal XML exactly when the input was or the replacement does not refer to the match; the exception is an input without a legal code point and a replacement that stands for nothing, which comes back unfiltered |
| XmlChars.FilterIdempotent | Feed.php:593-606 | with a legal replacement string that does not refer to the match, filtering twice is the same as filtering once |
| XmlChars.SkipInvalidKeepsLegal | Feed.php:595 | skipping an illegal run loses no legal code point |
| XmlChars.ReplaceWithEmptyReplacement | Feed.php:595 | with an empty replacement string, the replace yields exactly the legal code points of the input, in order |
| XmlChars.FilterWithEmptyReplacement | Feed.php:593-606 | with an empty replacement string, the filter yields the legal code points of the input, in order, or the input itself when it has none |
| XmlChars.ControlCharPassesThrough | Feed.php:603-604 | a lone control character with an empty replacement string comes back unfiltered |
| XmlChars.MatchReferenceKeepsRun | Feed.php:595 | with the legal replacement `$0` the match is put back, so a lone control character survives the filter |
| XmlChars.MissingGroupIsSilent | Feed.php:595-604 | `$1` refers to a group the pattern lacks, so it stands for nothing, the replace yields `""` and the input comes back unfiltered |
| XmlChars.MatchReferenceNotIdempotent | Feed.php:593-606 | with `x$0` each pass adds one more `x` before a control character, so the filter is not idempotent for every legal replacement |
| Escaping.HtmlSpecialChars | Feed.php:734 | escaped text contains no `<`, `>` or `"`, so it cannot end an attribute value or open or close a tag |
| Escaping.DecodeEntity | Feed.php:734 | each of the four entity references decodes to its character, whatever follows it |
| Escaping.DecodeEscapedChar | Feed.php:762 | decoding undoes the escape of any single character |
| Escaping.EscapeRoundTrip | Feed.php:734 | an XML parser's entity decoding gives back exactly the text before `htmlspecialchars` |
| Escaping.EscapePlainText | Feed.php:762 | text without `&`, `<`, `>` or `"` is written verbatim |
| Cdata.EscapeCloseFirstChar | Feed.php:915 | the first replacement pass never changes the first character |
| Cdata.EscapeCloseRemovesMarker | Feed.php:915 | after the first pass no `]]>` remains, not even one formed across a replacement |
| Cdata.EscapeOpenPrefix | Feed.php:916 | a `&`-free beginning of the second pass's output was already at the beginning of its input |
| Cdata.EscapeOpenKeepsCloseOut | Feed.php:916 | the second pass creates no `]]>` |
| Cdata.EscapeOpenRemovesMarker | Feed.php:916 | after the second pass no `<![CDATA[` remains |
| Cdata.SanitizeCDATAIsSafe | Feed.php:913-919 | sanitized text can neither close the CDATA section it is placed in nor open a nested one |
| Cdata.SanitizeCDATAKeepsCleanText | Feed.php:913-919 | text holding neither marker is placed into the section verbatim |
| Uuids.Layout | Feed.php:572-576 | the identifier is 36 characters long, with hyphens at exactly positions 8, 13, 18 and 23 and the digest characters in order everywhere else, so the digest can be read back out of it |
| Uuids.Uuid | Feed.php:568-579 | the result is the prefix followed by the 8-4-4-4-12 layout of the md5 of the key (or of a fresh value when the key is empty), and the digest is recoverable from it |
| Uuids.UuidDeterministic | Feed.php:570-571 | a non-empty key determines the identifier; the random fallback plays no part |
| Assoc.Keys | Feed.php:626 | `array_keys` lists each entry's key in position |
| Assoc.IndexOf | Item.php:90 | a key is found at its first position, and is missing exactly when no entry has it |
| Assoc.Get | Feed.php:684 | `isset($a[$k])`-style lookup finds a value exactly when the key is present |
| Assoc.Put | Feed.php:190-192 | `$a[$k] = $v` makes `$k` read `$v`, leaves every other key's value alone, keeps the key order for an existing key, appends a new key at the end, and keeps keys unique |
| Assoc.GetConcat | Feed.php:629-635 | reading from two arrays laid end to end finds the first one's entry when it has the key |
| XmlNode.Wrap | Feed.php:744-770 | every node starts with its opening text and ends with its closing text |
| XmlNode.MakeNode | Feed.php:726-773 | `makeNode` throws exactly when the content nests a value that is neither a string nor an array; otherwise the node starts with the start tag (and the CDATA opener for a listed tag) and ends with the closing text |
| XmlNode.MakeEntries | Feed.php:747-759 | a nested array is written when, and only when, every entry is well shaped |
| XmlNode.MakeEntry | Feed.php:748-758 | one entry is written when it is a string or a list of writable values, and throws otherwise |
| XmlNode.MakeList | Feed.php:750-753 | a list entry is written exactly when every member is well shaped; an empty list writes nothing, and a non-empty one starts with the first member's node under the entry's name |
| XmlNode.MakeListCons | Feed.php:750-753 | a non-empty list is its first member's node followed by the nodes of the rest |
| XmlNode.MakeListAppend | Feed.php:750-753 | one more member adds its node, named after the entry, after the nodes of the others |
| XmlNode.StartTagRules | Feed.php:731-744 | under RSS 1.0 nested content replaces every attribute by `rdf:parseType="Resource"`; a CDATA-listed tag in ATOM gains `type="html"`; otherwise the attributes are written in order |
| XmlNode.CdataTextNode | Feed.php:743-765 | text in a CDATA-listed tag sits in one CDATA section that it cannot break out of, and clean legal text appears in it verbatim |
| XmlNode.EscapedTextNode | Feed.php:761-762 | text in any other tag is escaped: the body holds no markup characters, decodes to legal XML, and decodes to the original when that was legal |
| XmlNode.EscapedBody | Feed.php:761-762 | the filtered and escaped body decodes to legal XML, and to the original text when it was legal |
| XmlNode.TextNodeLayout | Feed.php:744-772 | a text node is its opening, its body and its closing, in that order |
| XmlNode.MakeNodeWraps | Feed.php:726-773 | every node, text or nested, is its body wrapped in the opening and closing text, and it fails exactly when the body fails |
| XmlNode.OmitEndTagOnlyDropsEndTag | Feed.php:767-770 | `omitEndTag` changes nothing but the end: the full node is the short one with `</tag>` inserted before its final line break |
| FeedItem.NewItem | Item.php:57-60 | a new item has the given format and no elements, and satisfies the key invariant |
| FeedItem.AddElement | Item.php:84-102 | a new name is appended; an existing name is kept when neither flag is set, replaced in place with `overwrite`, and otherwise stored under the next numbered key with the counter advanced, appended after every existing element when that key is new; no other key changes, and keys stay unique and tied to their element name |
| FeedItem.DuplicateKeysDistinct | Item.php:90-95 | different counter values give different duplicate keys |
| FeedItem.RepeatedElementsBothKept | Item.php:90-99 | two repeated additions of an existing element are both kept, under consecutive numbered keys, and the original stays |
| FeedItem.AddPlainElement | Item.php:84-102 | a plain `addElement` adds a missing name and leaves every existing key's value as it was |
| FeedItem.AddElementArrayKeepsExisting | Item.php:112-122 | `addElementArray` never replaces an element that is already present |
| FeedItem.AddElementArrayKeys | Item.php:112-122 | afterwards the item has exactly its old keys and the given names |
| FeedItem.SetDescription | Item.php:155-160 | the text is added once, as `summary` in ATOM and `description` otherwise; an existing one is kept |
| FeedItem.SetContent | Item.php:170-176 | refused outside ATOM; otherwise `content` is added once with `type="html"` |
| FeedItem.SetTitle | Item.php:185-188 | the title is added once, and an existing title is kept |
| FeedItem.ItemTimestamp | Item.php:203-213 | a date is rejected exactly when it is a negative timestamp or an unparseable text; a `DateTime` gives its own timestamp |
| FeedItem.SetDate | Item.php:201-227 | the same refusals, an unparseable text with "The given date string was not parseable." and a negative timestamp with "The given date is not an UNIX timestamp."; otherwise the date is added once under `updated`, `pubDate` or `dc:date`, written in the format's date layout |
| FeedItem.SetLink | Item.php:236-246 | in RSS the link is added once as text; in ATOM an empty `link` with `href` and a `urn:uuid:` id derived from the link are each appended when missing, in that order, an existing `link` or `id` is kept, and the other keys, the format and the counter do not change |
| FeedItem.PlainAddsInOrder | Item.php:84-102 | two plain additions under different names append each missing name in call order and change nothing else |
| FeedItem.AddedKeepsOthers | Item.php:90-99 | adding without overwriting leaves the element present and every other key as it was |
| FeedItem.StoreEnclosure | Item.php:279-288 | the enclosure is stored as `enclosure` (RSS 2.0) or `atom:link` with `rel="enclosure"` (ATOM), appended when new; when one exists and multiples are on, stored under the next numbered key, appended after every existing element when that key is new, with every other key unchanged; ignored when one exists and multiples are off |
| FeedItem.AddEnclosure | Item.php:265-291 | refused in RSS 1.0, for a non-numeric or negative length, or for a type that is not `x/y`; otherwise stored as above |
| FeedItem.SetEnclosure | Item.php:306-309 | the same refusals; at most one enclosure is ever stored |
| FeedItem.AuthorText | Item.php:327-328 | with an e-mail the RSS 2.0 author reads `email (name)`: it starts with the e-mail, a space follows it, it ends with the name in parentheses and has no other characters; without an e-mail it is the name |
| FeedItem.AuthorEntries | Item.php:333-340 | the ATOM person holds `name` first, `email` exactly when it matches `.+@.+`, and `uri` exactly when given |
| FeedItem.SetAuthor | Item.php:321-347 | refused in RSS 1.0; otherwise the author is added once in the format's shape |
| FeedItem.SetId | Item.php:357-372 | refused in RSS 1.0 and for a non-boolean permaLink in RSS 2.0; RSS 2.0 adds a `guid` once with `isPermaLink`; ATOM overwrites `id` and nothing else |
| FeedItem.ExplicitIdWins | Item.php:357-372 | in ATOM an explicit id replaces the derived one when `setId` follows `setLink`, and the result is the same id when it comes first |
| FeedDocument.SetChannelElement | Feed.php:184-195 | a plain call replaces one key's value in place, or appends the key at the end when it is new; `multiple` appends to the key's list; nothing else in the feed changes and keys stay unique |
| FeedDocument.NewFeed | Feed.php:82-104 | a new feed has `utf-8`, no items, a `"<format> Feed"` title and the default link, the seven standard namespaces in order, and the three CDATA tags |
| FeedDocument.AddNamespace | Feed.php:167-172 | the prefix now maps to the URI; every other prefix and the rest of the feed are unchanged |
| FeedDocument.SetChannelElementsFromArray | Feed.php:205-212 | only the channel elements change |
| FeedDocument.PlainChannelElement | Feed.php:186-192 | a plain `setChannelElement` replaces one key and nothing else |
| FeedDocument.ChannelArrayKeepsOthers | Feed.php:205-212 | names not given keep their value |
| FeedDocument.ChannelArrayLastWins | Feed.php:205-212 | the last value given for a name is the one stored |
| FeedDocument.MimeType | Feed.php:220-233 | every format's media type has the `type/subtype` shape |
| FeedDocument.MimeTypesDistinct | Feed.php:222-230 | each format has its own media type |
| FeedDocument.AddCdataEncoding | Feed.php:292-297 | `array_merge` keeps the old list as a prefix and adds exactly the given tags |
| FeedDocument.RemoveCdataEncoding | Feed.php:317-321 | exactly the listed tags disappear from the CDATA list |
| FeedDocument.AddThenRemoveCdata | Feed.php:292-321 | removing tags that were added, and were not listed before, restores the feed |
| FeedDocument.AddItem | Feed.php:330-338 | an item of another format is refused with a message naming both formats; otherwise it is appended and nothing else changes |
| FeedDocument.CreateNewItem | Feed.php:278-283 | the new item is empty, has the feed's format, and is accepted by `addItem` |
| FeedDocument.SetEncoding | Feed.php:349-354 | only the encoding changes |
| FeedDocument.SetChannelAbout | Feed.php:549-554 | only the RSS 1.0 `about` value changes |
| FeedDocument.SetTitle | Feed.php:363-366 | `title` is replaced by the text; no other key and no other field changes |
| FeedDocument.SetDescription | Feed.php:413-421 | the text is stored under `subtitle` in ATOM and `description` otherwise; no other key and no other field changes |
| FeedDocument.SetLink | Feed.php:430-438 | in ATOM the link is an empty element with an `href`; otherwise it is text; no other key and no other field changes |
| FeedDocument.SetImage | Feed.php:537-540 | `image` holds the nested `title`, `link` and `url` entries; no other key and no other field changes |
| FeedDocument.ChannelTimestamp | Feed.php:389-396 | only a negative timestamp is refused; an unparseable text counts as the epoch |
| FeedDocument.SetDate | Feed.php:381-404 | refused in RSS 1.0 or for a negative timestamp; otherwise the date is stored under `updated` (ATOM) or `lastBuildDate` (RSS 2.0) in that format's layout; no other key and no other field changes |
| FeedDocument.AddGenerator | Feed.php:145-155 | refused in RSS 1.0; ATOM stores `atom:generator` with the project `uri`, RSS 2.0 stores `generator`; no other key and no other field changes |
| FeedDocument.AtomLinkError | Feed.php:459-492 | the argument checks run in order rel, type, hreflang, title, length, and the first failing one decides the message, down to a negative or non-numeric length; a zero length is skipped like an omitted one |
| FeedDocument.LengthText | Feed.php:487-491 | a length is written exactly when it is a positive integer |
| FeedDocument.LinkAttributes | Feed.php:459-491 | the stored link has `href` first, then each given argument under its own name, and only when it was given |
| FeedDocument.AtomLinkData | Feed.php:459-492 | the link data is refused exactly when an argument check fails, with that check's message, and is otherwise the attribute list above |
| FeedDocument.SetAtomLink | Feed.php:457-512 | refused when an argument check fails, or in ATOM when the duplicate-alternate test as written fires; otherwise the link is appended to `atom:link` |
| FeedDocument.RepeatedAlternateLinkAccepted | Feed.php:496-509 | as written, an ATOM feed whose links all came from `setAtomLink` accepts a second `alternate` link with the same type and hreflang and renders both |
| FeedDocument.StoredPairNotUnique | Feed.php:494-495 | two stored alternates with the same type and hreflang break the uniqueness rule of section 4.1.1 of RFC 4287 |
| FeedDocument.LinkAccepted | Feed.php:496-511 | a valid alternate link is appended to the stored links as written |
| FeedDocument.SetAtomLinkChecked | Feed.php:457-512 | with the intended test, a new `alternate` link is refused exactly when a rendered alternate with the same type and hreflang exists |
| FeedDocument.CheckedLinkKeepsAlternatesUnique | Feed.php:494-511 | with the intended test, every accepted link keeps an ATOM feed free of duplicate alternates |
| FeedDocument.AppendKeepsAlternatesUnique | Feed.php:494-511 | appending a link that the intended test lets through keeps a list of links free of duplicate alternates |
| FeedDocument.AppendKeepsClash | Feed.php:496-509 | appending a link keeps the format and never changes the outcome of the duplicate-alternate test as written |
| FeedDocument.SetSelfLink | Feed.php:523-526 | appends a `self` link typed with the feed's media type; refused exactly when an ATOM feed holds a plain `atom:link` entry that the as-written test takes for an alternate of that type without hreflang |
| FeedDocument.CheckedSelfLinkAccepted | Feed.php:523-526 | with the intended test a `self` link is always accepted |
| FeedDocument.SelfLinkAgreesWithoutSingle | Feed.php:523-526 | without a plain `atom:link` entry, `setSelfLink` always succeeds and adds what the intended test would add |
| FeedDocument.SetPagination | Feed.php:120-138 | refused when all four URLs are empty, or when an ATOM feed holds a plain `atom:link` entry that the as-written test takes for an alternate without type and hreflang; otherwise only `atom:link` changes |
| FeedDocument.PaginationLink | Feed.php:125-135 | an empty URL adds nothing; a non-empty one appends a link with its relation, or fails on the as-written test; the outcome of that test is kept for the next link |
| FeedDocument.CheckedPaginationAccepted | Feed.php:125-135 | with the intended test a pagination link is always accepted |
| FeedDocument.PaginationLinkAppends | Feed.php:125-135 | on links stored by `setAtomLink` alone, one pagination step succeeds and extends the stored links by the new link, or leaves them alone for an empty URL |
| FeedDocument.PaginationAddsLinks | Feed.php:120-138 | on links stored by `setAtomLink` alone, `setPagination` with some URL succeeds and adds one link per non-empty URL, in the order next, previous, first, last, after the links already stored |
| FeedRender.StripAtomPrefix | Feed.php:796-801 | in ATOM exactly the `atom:` namespace prefix is removed, and other names are unchanged |
| FeedRender.StripAgreesOutsideAtomWords | Feed.php:799-800 | the written strip and the intended one agree on every name that has the prefix and on every name that does not begin with `atom` |
| FeedRender.StripAtomAsWrittenMangles | Feed.php:799-800 | as written, any other name beginning with `atom` loses part of its local name: `atomic` becomes `c`, `atom` becomes empty |
| FeedRender.TagName | Feed.php:849-852 | outside ATOM a key is its own tag; in ATOM an `atom:` key loses exactly that prefix, a key not beginning with `atom` is unchanged, and any other key beginning with `atom` is shortened |
| FeedRender.ItemTags | Feed.php:629-635 | the collected tags are the channel keys plus every item's keys |
| FeedRender.PrefixesOf | Feed.php:638-645 | the prefixes are exactly those of the tags that hold one colon |
| FeedRender.NamespacePrefixes | Feed.php:621-648 | `getNamespacePrefixes` lists each prefix of a tag in use exactly once, and no other |
| FeedRender.NeededPrefixes | Feed.php:660-680 | the root declares the prefixes in use, plus `rdf` in RSS 1.0 and minus `atom` in ATOM |
| FeedRender.XmlnsKeyInjective | Feed.php:687 | different prefixes give different `xmlns:` attribute names |
| FeedRender.DeclareSucceedsIffDeclared | Feed.php:683-688 | the declaration loop completes exactly when every prefix has a registered namespace |
| FeedRender.DeclareStopsAtFirst | Feed.php:683-685 | the loop stops at the first prefix without a namespace |
| FeedRender.DeclareKeepsOthers | Feed.php:683-688 | attributes other than the declared ones are left as they were |
| FeedRender.DeclareBindsPrefix | Feed.php:687 | each prefix is declared with its registered namespace |
| FeedRender.DeclareBindsFirst | Feed.php:687 | the first prefix keeps its binding through the later turns |
| FeedRender.DeclareStep | Feed.php:684-687 | one turn of the loop declares its prefix and continues with the rest |
| FeedRender.RootAttributes | Feed.php:661-692 | the root attributes exist exactly when every needed prefix is registered; then each is bound to its namespace, `xmlns` holds the default namespace, and `version="2.0"` appears only in RSS 2.0 |
| FeedRender.DeclaredRoot | Feed.php:683-688 | the declaration loop binds every prefix to its namespace |
| FeedRender.NodeStartsWithTag | Feed.php:744 | every text node begins with `<` and its tag name |
| FeedRender.Header | Feed.php:656-697 | the header exists exactly when every needed prefix is registered; otherwise the `die` message names an undeclared one; a header starts with the XML declaration and the root tag |
| FeedRender.Footer | Feed.php:705-714 | the footer ends with the root end tag, and in RSS 2.0 it first closes `channel` |
| FeedRender.EntityNodes | Feed.php:806-808 | a list of channel entities is written exactly when every entity's content is well shaped |
| FeedRender.ChannelElements | Feed.php:796-812 | the channel loop succeeds exactly when every rendered entity is well shaped |
| FeedRender.RdfListingAppend | Feed.php:817-820 | a new item adds exactly its `rdf:li` line at the end of the RSS 1.0 listing |
| FeedRender.Channels | Feed.php:781-828 | `makeChannels` succeeds exactly when every channel entry can be written; in RSS its output starts with the channel start tag (with `rdf:about` in RSS 1.0), and it ends with the RSS 1.0 item listing or the ATOM feed id |
| FeedRender.AtomIdStable | Feed.php:824 | the ATOM feed id depends on the channel link alone, so rendering twice gives the same id |
| FeedRender.StartItem | Feed.php:869-886 | RSS 1.0 throws exactly when `about` is false in PHP: unset, `""`, `"0"` or an empty array; otherwise the item's start tag opens a line, and in RSS 1.0 carries `about` as `rdf:about` |
| FeedRender.EndItem | Feed.php:894-901 | the end tag closes exactly the element `startItem` opened |
| FeedRender.ElementNodes | Feed.php:846-855 | an item's elements are written exactly when every one is well shaped |
| FeedRender.RenderItem | Feed.php:841-856 | an item is written exactly when it is renderable, and is framed by its start and end tags |
| FeedRender.EmptyArrayLinkRefused | Feed.php:844-880 | an RSS 1.0 item whose `link` holds an empty array is refused with the `startItem` message, although the array reads as `Array` |
| FeedRender.JoinAllSucceedsIff | Feed.php:840-857 | a loop whose body may throw completes exactly when every step does |
| FeedRender.JoinAllAppend | Feed.php:840-857 | one more successful step appends its output |
| FeedRender.RenderItemsSucceedsIff | Feed.php:836-860 | `makeItems` succeeds exactly when every item can be written |
| FeedRender.RenderItemsAppend | Feed.php:836-860 | an added item is written after all earlier ones |
| FeedRender.EmptyArrayLinkStopsFeed | Feed.php:264-270 | such an item stops the whole RSS 1.0 document |
| FeedRender.GenerateFeed | Feed.php:264-270 | the document exists exactly when every needed prefix is registered, every channel entry and every item can be written; an undeclared prefix fails with the `die` message naming one such prefix; a document starts with the XML declaration and the root tag and ends with the root end tag |
| FeedRender.ItemsRenderIff | Feed.php:836-860 | the items phase of a feed succeeds exactly when each item is renderable in the feed's format |
| FeedRender.UndeclaredPrefixFails | Feed.php:683-685 | a tag prefix in use without a registered namespace stops the render (except `atom` in ATOM) |
| FeedRender.FreshFeedRenders | Feed.php:82-104 | a freshly constructed feed of any format renders |
| FeedRender.FreshFeedDeclared | Feed.php:665-688 | a fresh feed needs only `rdf` in RSS 1.0, and that is registered |
| FeedRender.FreshFeedNoPrefixes | Feed.php:621-648 | the default title and link use no prefix |
| FeedRender.FreshFeedChannels | Feed.php:90-91 | the default title and link are plain text and render |
| FeedRender.ChannelElementsSeeRenderedOnly | Feed.php:796-812 | the channel loop reads only the keys and the entities it writes |
| FeedRender.PutSameRendering | Feed.php:189-192 | replacing an entry by one that renders the same keeps every key and every rendered entity |
| FeedRender.HeaderSeesKeysOnly | Feed.php:656-697 | the header reads the channels only through their keys |
| FeedRender.ChannelsSeeRenderedOnly | Feed.php:781-828 | `makeChannels` reads only the keys, the rendered entities and the link |
| FeedRender.AppendedToSingleNotRendered | Feed.php:804-810 | an entity appended with `multiple` to an element set without it never reaches the document |
| FeedRender.GenerateFeedSeesPhases | Feed.php:264-270 | the document depends only on the four phases' output |

## Left out

- printFeed (Feed.php:246-256): the `Content-Type` header and `echo` are output, not logic. The media type it sends is `FeedDocument.MimeType`.
- `md5`, `uniqid(rand())`, `date` and `strtotime` are fields of `Runtime.Env`. Their algorithms and the time zone are not modelled. A `DateTime` argument is reduced to its timestamp (`DateObject(ts)`) and written with the same `formatDate` field as a timestamp, so `DateTime::format` and the object's own time zone are not modelled.
- The byte-oriented retry in filterInvalidXMLChars (Feed.php:597-600) is left out. It runs only after a malformed-UTF-8 error, and Dafny strings are always well-formed code points. The pass-through at Feed.php:603-604 is modelled: the loose `$result == NULL` also holds for an empty result, which happens only for a replacement string that stands for nothing, such as `''` or `$1`. makeNode always passes `_` (Feed.php:733, 761).
- Whether `htmlspecialchars` escapes `'` depends on the PHP release's default flags. It is not escaped here.
- PHP loose typing is reduced to a few explicit cases:
  - a number is `Integer` or `NotNumber`, so numeric strings and floats are not modelled;
  - a boolean argument is `Boolean` or `NotBoolean`;
  - a date is a `DateTime`, a timestamp or a text;
  - `null` is the empty string.
- The `is_string` checks in setAtomLink and addEnclosure have no counterpart, because every such argument is a string here.
- FeedTypes.php is left out: its subclasses only choose the format constant.
- getElements, getVersion and getCDATAEncoding are left out. They are the `elements`, `version` and `cdataTags` fields.
- When addElement refuses a duplicate key (Item.php:91-92) it returns `null` through a bare `return;`, not `$this`, so a fluent chain after it fails in PHP. `FeedItem.AddElement` returns the unchanged item and does not model that `null`.
- The private `cpt()` is the `counter` field, advanced by `FeedItem.AddElement`.
- The `!is_array` guard of addElementArray (Item.php:114-115) is left out, because the argument is always a list of pairs here.
- FeedItem.AddElementArray, FeedDocument.SetChannelElementsFromArray: these two folds carry no full contract of their own. Their effect is stated by `AddElementArrayKeepsExisting`, `AddElementArrayKeys`, `ChannelArrayKeepsOthers` and `ChannelArrayLastWins`.
- PHP notices and warnings are left out, e.g. reading `$this->channels['link']['content']` when it is unset. The read yields `null`, which is the empty string here.
- FeedDocument.SetAtomLink: for an `atom:link` entry stored by a plain `setChannelElement`, the loop at Feed.php:502 also visits that entry's content value. Only the entry's attribute map is compared here. A string content cannot equal `alternate` under PHP 7's string-offset read, and a nested content array used as `atom:link` is not considered.
- The channel setDate does not refuse an unparseable date text, although the item's setDate does. Its `date(format, strtotime(...))` writes the epoch (Feed.php:393-394), and the model does the same.
- removeCDATAEncoding does not collapse duplicates. It keeps any repetitions among the remaining tags, as `array_diff` does, and the model does the same.

## Findings

| source | as written | input that shows it | evidently intended | confidence | as-written member | corrected member |
|---|---|---|---|---|---|---|
| Feed.php:496-509 | the duplicate-alternate test reads `rel`, `type` and `hreflang` directly from each stored `atom:link` value. The links setAtomLink stores form a list, so the test never sees them. It also never looks at the new link's own `rel` | `setAtomLink('a', 'alternate', 'text/html', 'en')` twice on an ATOM feed: both are stored and both are rendered | refuse a new `alternate` link when a stored alternate has the same type and hreflang, as section 4.1.1 of RFC 4287 requires | not executed | FeedDocument.SetAtomLink, FeedDocument.RepeatedAlternateLinkAccepted | FeedDocument.SetAtomLinkChecked, FeedDocument.CheckedLinkKeepsAlternatesUnique |
| Feed.php:799-800, 851-852 | the ATOM prefix strip tests `strncmp($key, 'atom', 4) == 0` and then drops five characters, so it fires on any name that begins with `atom` | an ATOM channel element or item element named `atomic` is written as `<c>`, and one named `atom` is written as an empty tag `<>` | strip only the `atom:` namespace prefix | not executed | FeedRender.StripAtomAsWritten, FeedRender.StripAtomAsWrittenMangles | FeedRender.StripAtomPrefix, FeedRender.StripAgreesOutsideAtomWords |

The operations and the rendering follow the code as written: `FeedDocument.SetSelfLink`, `FeedDocument.SetPagination` and `FeedRender.TagName` use the as-written members. The corrected members are stated beside them, with their properties proved.

=== FILE: assoc.dfy ===
/** PHP's ordered associative arrays with string keys, as an
    insertion-ordered list of key/value pairs. Writing to an existing key
    replaces its value where it stands; writing to a new key appends. */
module Assoc {

  import opened Wrappers

  function Keys<V>(m: seq<(string, V)>): (ks: seq<string>)
    ensures |ks| == |m|
    ensures forall i :: 0 <= i < |m| ==> ks[i] == m[i].0
  {
    seq(|m|, i requires 0 <= i < |m| => m[i].0)
  }

  predicate HasKey<V>(m: seq<(string, V)>, k: string) {
    k in Keys(m)
  }

  /** Every key appears once, as in a PHP array. */
  predicate UniqueKeys<V>(m: seq<(string, V)>) {
    forall i, j :: 0 <= i < j < |m| ==> m[i].0 != m[j].0
  }

  /** Position of the first entry with key `k`. */
  function IndexOf<V>(m: seq<(string, V)>, k: string): (r: Option<nat>)
    ensures r.Some? ==> r.value < |m| && m[r.value].0 == k
    ensures r.Some? ==> forall j :: 0 <= j < r.value ==> m[j].0 != k
    ensures r.None? <==> !HasKey(m, k)
    decreases |m|
  {
    if m == [] then None
    else if m[0].0 == k then Some(0)
    else
      match IndexOf(m[1..], k)
      case None => None
      case Some(j) => Some(j + 1)
  }

  /** `$m[$k]`, with `None` for an unset key. */
  function Get<V>(m: seq<(string, V)>, k: string): (r: Option<V>)
    ensures r.Some? <==> HasKey(m, k)
  {
    match IndexOf(m, k)
    case None => None
    case Some(i) => Some(m[i].1)
  }

  /** Two arrays with the same key sequence find every key at the same place. */
  lemma {:induction false} IndexOfFollowsKeys<V>(a: seq<(string, V)>, b: seq<(string, V)>, k: string)
    requires Keys(a) == Keys(b)
    ensures IndexOf(a, k) == IndexOf(b, k)
    decreases |a|
  {
    assert |a| == |Keys(a)| == |b|;
    if a != [] {
      assert a[0].0 == Keys(a)[0] == b[0].0;
      if a[0].0 != k {
        var ka, kb := Keys(a[1..]), Keys(b[1..]);
        forall i | 0 <= i < |ka| ensures ka[i] == kb[i] {
          assert ka[i] == Keys(a)[i + 1] && kb[i] == Keys(b)[i + 1];
        }
        IndexOfFollowsKeys(a[1..], b[1..], k);
      }
    }
  }

  /** `$m[$k] = $v`. */
  function Put<V>(m: seq<(string, V)>, k: string, v: V): (r: seq<(string, V)>)
    ensures Get(r, k) == Some(v)
    ensures forall k' :: k' != k ==> Get(r, k') == Get(m, k')
    ensures HasKey(m, k) ==> Keys(r) == Keys(m)
    ensures HasKey(m, k) ==> forall j :: 0 <= j < |m| && m[j].0 != k ==> r[j] == m[j]
    ensures !HasKey(m, k) ==> r == m + [(k, v)]
    ensures UniqueKeys(m) ==> UniqueKeys(r)
  {
    match IndexOf(m, k)
    case Some(i) =>
      var r := m[i := (k, v)];
      assert Keys(r) == Keys(m);
      forall k' | k' != k
        ensures Get(r, k') == Get(m, k')
      {
        IndexOfFollowsKeys(r, m, k');
      }
      IndexOfFollowsKeys(r, m, k);
      r
    case None =>
      var r := m + [(k, v)];
      assert forall j :: 0 <= j < |m| ==> r[j] == m[j];
      assert Keys(r)[|m|] == k;
      assert IndexOf(r, k) == Some(|m|) by {
        forall j | 0 <= j < |m| ensures r[j].0 != k {
          assert r[j].0 == Keys(m)[j];
        }
      }
      forall k' | k' != k
        ensures Get(r, k') == Get(m, k')
      {
        PutAppendKeeps(m, k, v, k');
      }
      r
  }

  lemma {:induction false} PutAppendKeeps<V>(m: seq<(string, V)>, k: string, v: V, k': string)
    requires k' != k
    ensures IndexOf(m + [(k, v)], k') == IndexOf(m, k')
    decreases |m|
  {
    if m != [] {
      assert (m + [(k, v)])[1..] == m[1..] + [(k, v)];
      PutAppendKeeps(m[1..], k, v, k');
    }
  }

  lemma KeysConcat<V>(a: seq<(string, V)>, b: seq<(string, V)>)
    ensures Keys(a + b) == Keys(a) + Keys(b)
  {
    assert forall i :: |a| <= i < |a + b| ==> (a + b)[i] == b[i - |a|];
  }

  /** Reading a key from two arrays laid end to end finds the first one's
      entry when it has the key. */
  lemma {:induction false} GetConcat<V>(a: seq<(string, V)>, b: seq<(string, V)>, k: string)
    ensures Get(a + b, k) == (if HasKey(a, k) then Get(a, k) else Get(b, k))
    decreases |a|
  {
    if a == [] {
      assert a + b == b;
    } else {
      var m := a + b;
      assert m[0] == a[0] && m[1..] == a[1..] + b;
      assert Keys(a) == [a[0].0] + Keys(a[1..]);
      if a[0].0 != k {
        GetConcat(a[1..], b, k);
        GetTail(m, k);
        GetTail(a, k);
      }
    }
  }

  lemma GetTail<V>(m: seq<(string, V)>, k: string)
    requires m != [] && m[0].0 != k
    ensures Get(m, k) == Get(m[1..], k)
  {
  }
}

=== FILE: cdata.dfy ===
/** `Feed::sanitizeCDATA`: text placed inside a CDATA section has its
    section-closing `]]>` and section-opening `<![CDATA[` sequences turned
    into entity-escaped look-alikes, so the section cannot be closed early. */
module Cdata {

  import opened Text

  const OpenMarker: string := "<![CDATA["
  const CloseMarker: string := "]]>"

  /** First pass: `str_replace("]]>", "]]&gt;", text)`. */
  function EscapeClose(s: string): string {
    ReplaceAll(s, CloseMarker, "]]&gt;")
  }

  /** Second pass: `str_replace("<![CDATA[", "&lt;![CDATA[", text)`. */
  function EscapeOpen(s: string): string {
    ReplaceAll(s, OpenMarker, "&lt;![CDATA[")
  }

  function SanitizeCDATA(text: string): string {
    EscapeOpen(EscapeClose(text))
  }

  /** Peeling one character off the front of a search. */
  lemma ContainsCons(c: char, t: string, p: string)
    requires Contains([c] + t, p)
    ensures StartsWith([c] + t, p) || Contains(t, p)
  {
    assert ([c] + t)[1..] == t;
  }

  /** The first pass never changes the first character, because the
      replacement starts like the needle. */
  lemma EscapeCloseFirstChar(u: string)
    requires u != []
    ensures EscapeClose(u) != [] && EscapeClose(u)[0] == u[0]
  {
  }

  /** After the first pass no `]]>` is left, not even one formed across the
      boundary of a replacement. */
  lemma {:induction false} EscapeCloseRemovesMarker(s: string)
    ensures !Contains(EscapeClose(s), CloseMarker)
    decreases |s|
  {
    if |s| < 3 {
      if Contains(s, CloseMarker) {
        ContainsNeedsRoom(s, CloseMarker);
      }
    } else if s[..3] == CloseMarker {
      var rest := EscapeClose(s[3..]);
      EscapeCloseRemovesMarker(s[3..]);
      var out := "]]&gt;" + rest;
      assert EscapeClose(s) == out;
      if Contains(out, CloseMarker) {
        assert !StartsWith(out, CloseMarker) by { assert out[2] == '&'; }
        var out1 := out[1..];
        assert out1 == "]&gt;" + rest;
        assert Contains(out1, CloseMarker);
        assert !StartsWith(out1, CloseMarker) by { assert out1[1] == '&'; }
        assert out1[1..] == "&gt;" + rest;
        assert Contains("&gt;" + rest, CloseMarker);
        ContainsSkip("&gt;", rest, CloseMarker);
      }
    } else {
      var t := s[1..];
      EscapeCloseRemovesMarker(t);
      var out := [s[0]] + EscapeClose(t);
      assert EscapeClose(s) == out;
      if Contains(out, CloseMarker) {
        ContainsCons(s[0], EscapeClose(t), CloseMarker);
        assert out[..3] == CloseMarker;
        assert out[..3][0] == ']' && out[..3][1] == ']' && out[..3][2] == '>';
        assert s[0] == ']' && out[1] == ']' && out[2] == '>';
        if |t| >= 3 && t[..3] != CloseMarker {
          EscapeCloseFirstChar(t[1..]);
        }
      }
    }
  }

  /** If the second pass produces a text starting with `w`, and `w` holds no
      `&` (the first character of the replacement), the input started with
      `w` too. */
  lemma {:induction false} EscapeOpenPrefix(t: string, w: string)
    requires forall k :: 0 <= k < |w| ==> w[k] != '&'
    requires StartsWith(EscapeOpen(t), w)
    ensures StartsWith(t, w)
    decreases |w|
  {
    if |t| < 9 {
      assert EscapeOpen(t) == t;
    } else if w != [] {
      assert EscapeOpen(t)[0] == w[0];
      assert t[..9] != OpenMarker;
      assert EscapeOpen(t) == [t[0]] + EscapeOpen(t[1..]);
      assert EscapeOpen(t)[1..] == EscapeOpen(t[1..]);
      assert EscapeOpen(t[1..])[..|w| - 1] == w[1..];
      EscapeOpenPrefix(t[1..], w[1..]);
      assert t[..|w|] == [t[0]] + t[1..][..|w| - 1];
    }
  }

  /** The second pass creates no `]]>`: its replacement has no `]`, and every
      `>` it outputs came from the input. */
  lemma {:induction false} EscapeOpenKeepsCloseOut(u: string)
    requires !Contains(u, CloseMarker)
    ensures !Contains(EscapeOpen(u), CloseMarker)
    decreases |u|
  {
    if |u| < 9 {
      assert EscapeOpen(u) == u;
    } else if u[..9] == OpenMarker {
      if Contains(u[9..], CloseMarker) {
        ContainsInSuffix(u, 9, CloseMarker);
      }
      EscapeOpenKeepsCloseOut(u[9..]);
      var rest := EscapeOpen(u[9..]);
      assert EscapeOpen(u) == "&lt;![CDATA[" + rest;
      if Contains("&lt;![CDATA[" + rest, CloseMarker) {
        ContainsSkip("&lt;![CDATA[", rest, CloseMarker);
      }
    } else {
      EscapeOpenKeepsCloseOut(u[1..]);
      var rest := EscapeOpen(u[1..]);
      assert EscapeOpen(u) == [u[0]] + rest;
      if Contains([u[0]] + rest, CloseMarker) {
        ContainsCons(u[0], rest, CloseMarker);
        assert ([u[0]] + rest)[..3] == CloseMarker;
        assert rest[..2] == ([u[0]] + rest)[..3][1..];
        assert rest[..2] == "]>";
        EscapeOpenPrefix(u[1..], "]>");
      }
    }
  }

  /** The second pass leaves no `<![CDATA[` behind either. */
  lemma {:induction false} EscapeOpenRemovesMarker(u: string)
    ensures !Contains(EscapeOpen(u), OpenMarker)
    decreases |u|
  {
    if |u| < 9 {
      assert EscapeOpen(u) == u;
      if Contains(u, OpenMarker) {
        ContainsNeedsRoom(u, OpenMarker);
      }
    } else if u[..9] == OpenMarker {
      EscapeOpenRemovesMarker(u[9..]);
      var rest := EscapeOpen(u[9..]);
      assert EscapeOpen(u) == "&lt;![CDATA[" + rest;
      if Contains("&lt;![CDATA[" + rest, OpenMarker) {
        ContainsSkip("&lt;![CDATA[", rest, OpenMarker);
      }
    } else {
      EscapeOpenRemovesMarker(u[1..]);
      var rest := EscapeOpen(u[1..]);
      assert EscapeOpen(u) == [u[0]] + rest;
      if Contains([u[0]] + rest, OpenMarker) {
        ContainsCons(u[0], rest, OpenMarker);
        assert ([u[0]] + rest)[..9] == OpenMarker;
        assert rest[..8] == ([u[0]] + rest)[..9][1..];
        assert rest[..8] == "![CDATA[";
        EscapeOpenPrefix(u[1..], "![CDATA[");
      }
    }
  }

  /** Sanitized text cannot terminate the CDATA section it is placed in, nor
      open a nested one. */
  lemma SanitizeCDATAIsSafe(text: string)
    ensures !Contains(SanitizeCDATA(text), CloseMarker)
    ensures !Contains(SanitizeCDATA(text), OpenMarker)
  {
    EscapeCloseRemovesMarker(text);
    EscapeOpenKeepsCloseOut(EscapeClose(text));
    EscapeOpenRemovesMarker(EscapeClose(text));
  }

  /** Text holding neither marker is placed in the section verbatim. */
  lemma SanitizeCDATAKeepsCleanText(text: string)
    requires !Contains(text, CloseMarker) && !Contains(text, OpenMarker)
    ensures SanitizeCDATA(text) == text
  {
    ReplaceAbsent(text, CloseMarker, "]]&gt;");
    ReplaceAbsent(text, OpenMarker, "&lt;![CDATA[");
  }
}

=== FILE: escaping.dfy ===
/** PHP's `htmlspecialchars`, as applied to attribute values and to element
    text outside CDATA sections: `&`, `<`, `>` and `"` become entity
    references. (Whether `'` is escaped as well depends on the PHP release's
    default flags; this model leaves it alone.) */
module Escaping {

  import opened Text

  function EscapeChar(c: char): string {
    if c == '&' then "&amp;"
    else if c == '<' then "&lt;"
    else if c == '>' then "&gt;"
    else if c == '"' then "&quot;"
    else [c]
  }

  predicate IsMarkupChar(c: char) {
    c == '<' || c == '>' || c == '"'
  }

  /** `htmlspecialchars(s)`. The result holds no character that could end an
      attribute value or open or close a tag. */
  function HtmlSpecialChars(s: string): (r: string)
    ensures forall i :: 0 <= i < |r| ==> !IsMarkupChar(r[i])
    ensures |r| >= |s|
    decreases |s|
  {
    if s == [] then [] else EscapeChar(s[0]) + HtmlSpecialChars(s[1..])
  }

  /** The decoding an XML parser applies to the four entity references. */
  function DecodeEntities(s: string): string
    decreases |s|
  {
    if s == [] then []
    else if StartsWith(s, "&amp;") then "&" + DecodeEntities(s[5..])
    else if StartsWith(s, "&lt;") then "<" + DecodeEntities(s[4..])
    else if StartsWith(s, "&gt;") then ">" + DecodeEntities(s[4..])
    else if StartsWith(s, "&quot;") then "\"" + DecodeEntities(s[6..])
    else [s[0]] + DecodeEntities(s[1..])
  }

  /** Decoding an entity reference at the front of a text. */
  lemma DecodeEntity(e: string, c: char, rest: string)
    requires (e, c) in {("&amp;", '&'), ("&lt;", '<'), ("&gt;", '>'), ("&quot;", '"')}
    ensures DecodeEntities(e + rest) == [c] + DecodeEntities(rest)
  {
    var t := e + rest;
    assert t[|e|..] == rest;
    assert t[..|e|] == e;
    if c == '&' {
      assert StartsWith(t, "&amp;");
    } else if c == '<' {
      assert !StartsWith(t, "&amp;") by { assert t[1] == 'l'; }
      assert StartsWith(t, "&lt;");
    } else if c == '>' {
      assert !StartsWith(t, "&amp;") && !StartsWith(t, "&lt;") by { assert t[1] == 'g'; }
      assert StartsWith(t, "&gt;");
    } else {
      assert !StartsWith(t, "&amp;") && !StartsWith(t, "&lt;") && !StartsWith(t, "&gt;") by { assert t[1] == 'q'; }
      assert StartsWith(t, "&quot;");
    }
  }

  /** Decoding undoes the escape of one character, whatever follows it. */
  lemma DecodeEscapedChar(c: char, rest: string)
    ensures DecodeEntities(EscapeChar(c) + rest) == [c] + DecodeEntities(rest)
  {
    if c == '&' {
      DecodeEntity("&amp;", c, rest);
    } else if c == '<' {
      DecodeEntity("&lt;", c, rest);
    } else if c == '>' {
      DecodeEntity("&gt;", c, rest);
    } else if c == '"' {
      DecodeEntity("&quot;", c, rest);
    } else {
      var t := [c] + rest;
      assert t[0] == c && t[1..] == rest;
      assert !StartsWith(t, "&amp;") && !StartsWith(t, "&lt;") && !StartsWith(t, "&gt;") && !StartsWith(t, "&quot;");
      assert EscapeChar(c) == [c];
    }
  }

  /** Escaping loses nothing: decoding the entity references gives back the
      original text. */
  lemma {:induction false} EscapeRoundTrip(s: string)
    ensures DecodeEntities(HtmlSpecialChars(s)) == s
    decreases |s|
  {
    if s != [] {
      EscapeRoundTrip(s[1..]);
      DecodeEscapedChar(s[0], HtmlSpecialChars(s[1..]));
    }
  }

  /** Text without special characters is emitted verbatim. */
  lemma {:induction false} EscapePlainText(s: string)
    requires forall i :: 0 <= i < |s| ==> s[i] != '&' && !IsMarkupChar(s[i])
    ensures HtmlSpecialChars(s) == s
    decreases |s|
  {
    if s != [] {
      EscapePlainText(s[1..]);
      assert s == [s[0]] + s[1..];
    }
  }
}

=== FILE: feed.dfy ===
/** `Feed`: the channel-level state of a feed and the operations that build
    it up before rendering. */
module FeedDocument {

  import opened Wrappers
  import opened Text
  import opened Model
  import opened Assoc
  import opened Lists
  import opened Runtime
  import opened FeedItem

  /** A channel value with its attributes, as `setChannelElement` stores it. */
  datatype Entity = Entity(content: Content, attributes: Attrs)

  /** What a channel key holds. `Single` comes from a plain
      `setChannelElement`; entities later appended to it with `multiple`
      set land beside its `content`/`attributes` pair and are never
      rendered (`unrendered`). `Multi` is a list built only by appending. */
  datatype ChannelEntry = Single(entity: Entity, unrendered: seq<Entity>) | Multi(entities: seq<Entity>)

  /** The feed's state. `channelAbout` is `$data['ChannelAbout']`. */
  datatype Feed = Feed(
    version: Format,
    encoding: string,
    channels: seq<(string, ChannelEntry)>,
    items: seq<Item>,
    channelAbout: Option<string>,
    cdataTags: seq<string>,
    namespaces: seq<(string, string)>
  )

  const DefaultLink: string := "http://www.ajaxray.com/blog"

  /** The namespaces every feed knows, in declaration order. */
  const DefaultNamespaces: seq<(string, string)> := [
    ("content", "http://purl.org/rss/1.0/modules/content/"),
    ("wfw", "http://wellformedweb.org/CommentAPI/"),
    ("atom", "http://www.w3.org/2005/Atom"),
    ("rdf", "http://www.w3.org/1999/02/22-rdf-syntax-ns#"),
    ("rss1", "http://purl.org/rss/1.0/"),
    ("dc", "http://purl.org/dc/elements/1.1/"),
    ("sy", "http://purl.org/rss/1.0/modules/syndication/")
  ]

  const DefaultCdataTags: seq<string> := ["description", "content:encoded", "summary"]

  /** `setChannelElement(name, content, attributes, multiple)`. */
  function SetChannelElement(feed: Feed, name: string, content: Content, attrs: Attrs, multiple: bool): (r: Feed)
    ensures r == feed.(channels := r.channels)
    ensures forall k :: k != name ==> Get(r.channels, k) == Get(feed.channels, k)
    ensures HasKey(feed.channels, name) ==> Keys(r.channels) == Keys(feed.channels)
    ensures !multiple ==> Get(r.channels, name) == Some(Single(Entity(content, attrs), []))
    ensures !multiple && !HasKey(feed.channels, name) ==>
      r.channels == feed.channels + [(name, Single(Entity(content, attrs), []))]
    ensures multiple && !HasKey(feed.channels, name) ==>
      r.channels == feed.channels + [(name, Multi([Entity(content, attrs)]))]
    ensures multiple && HasKey(feed.channels, name) ==>
      match Get(feed.channels, name).value
      case Multi(es) => Get(r.channels, name) == Some(Multi(es + [Entity(content, attrs)]))
      case Single(e, hs) => Get(r.channels, name) == Some(Single(e, hs + [Entity(content, attrs)]))
    ensures UniqueKeys(feed.channels) ==> UniqueKeys(r.channels)
  {
    var e := Entity(content, attrs);
    var stored: Option<ChannelEntry> := Get(feed.channels, name);
    var entry: ChannelEntry :=
      if !multiple then Single(e, [])
      else match stored
        case None => Multi([e])
        case Some(Multi(es)) => Multi(es + [e])
        case Some(Single(e0, hs)) => Single(e0, hs + [e]);
    feed.(channels := Put(feed.channels, name, entry))
  }

  /** `new Feed($version)`: the default title and link, the standard
      namespaces and the CDATA-encoded tags. */
  function NewFeed(version: Format): (r: Feed)
    ensures r.version == version && r.encoding == "utf-8" && r.items == [] && r.channelAbout.None?
    ensures Keys(r.channels) == ["title", "link"]
    ensures Get(r.channels, "title") == Some(Single(Entity(Text(FormatName(version) + " Feed"), []), []))
    ensures Get(r.channels, "link") == Some(Single(Entity(Text(DefaultLink), []), []))
    ensures Keys(r.namespaces) == ["content", "wfw", "atom", "rdf", "rss1", "dc", "sy"]
    ensures r.cdataTags == DefaultCdataTags
  {
    var empty := Feed(version, "utf-8", [], [], None, [], []);
    var withTitle := SetChannelElement(empty, "title", Text(FormatName(version) + " Feed"), [], false);
    var withLink := SetChannelElement(withTitle, "link", Text(DefaultLink), [], false);
    assert Keys(withTitle.channels) == ["title"];
    assert Keys(withLink.channels) == ["title", "link"];
    DefaultNamespaceKeys();
    var r := AddCdataEncoding(withLink.(namespaces := DefaultNamespaces), DefaultCdataTags);
    assert r.channels == withLink.channels && r.namespaces == DefaultNamespaces;
    r
  }

  lemma DefaultNamespaceKeys()
    ensures Keys(DefaultNamespaces) == ["content", "wfw", "atom", "rdf", "rss1", "dc", "sy"]
  {
  }

  /** `addNamespace(prefix, uri)`. */
  function AddNamespace(feed: Feed, prefix: string, uri: string): (r: Feed)
    ensures r == feed.(namespaces := r.namespaces)
    ensures Get(r.namespaces, prefix) == Some(uri)
    ensures forall p :: p != prefix ==> Get(r.namespaces, p) == Get(feed.namespaces, p)
  {
    feed.(namespaces := Put(feed.namespaces, prefix, uri))
  }

  /** `setChannelElementsFromArray(array)`: plain `setChannelElement` for
      each pair, in order. */
  function SetChannelElementsFromArray(feed: Feed, pairs: seq<(string, Content)>): (r: Feed)
    ensures r == feed.(channels := r.channels)
    decreases |pairs|
  {
    if pairs == [] then feed
    else SetChannelElementsFromArray(SetChannelElement(feed, pairs[0].0, pairs[0].1, [], false), pairs[1..])
  }

  /** A plain `setChannelElement` replaces one key and nothing else. */
  lemma PlainChannelElement(feed: Feed, name: string, content: Content)
    ensures var r := SetChannelElement(feed, name, content, [], false);
      r == feed.(channels := r.channels)
      && Get(r.channels, name) == Some(Single(Entity(content, []), []))
      && forall k :: k != name ==> Get(r.channels, k) == Get(feed.channels, k)
  {
  }

  /** Names not given keep their value. */
  lemma {:induction false} ChannelArrayKeepsOthers(feed: Feed, pairs: seq<(string, Content)>, k: string)
    requires k !in Names(pairs)
    ensures Get(SetChannelElementsFromArray(feed, pairs).channels, k) == Get(feed.channels, k)
    decreases |pairs|
  {
    if pairs != [] {
      assert Names(pairs) == [pairs[0].0] + Names(pairs[1..]);
      var next := SetChannelElement(feed, pairs[0].0, pairs[0].1, [], false);
      PlainChannelElement(feed, pairs[0].0, pairs[0].1);
      ChannelArrayKeepsOthers(next, pairs[1..], k);
    }
  }

  /** The last value given for a name is the one stored. */
  lemma {:induction false} ChannelArrayLastWins(feed: Feed, pairs: seq<(string, Content)>, i: nat)
    requires i < |pairs| && pairs[i].0 !in Names(pairs[i + 1..])
    ensures Get(SetChannelElementsFromArray(feed, pairs).channels, pairs[i].0)
            == Some(Single(Entity(pairs[i].1, []), []))
    decreases |pairs|
  {
    var next := SetChannelElement(feed, pairs[0].0, pairs[0].1, [], false);
    PlainChannelElement(feed, pairs[0].0, pairs[0].1);
    if i > 0 {
      assert pairs[1..][i - 1] == pairs[i];
      assert pairs[1..][i - 1 + 1..] == pairs[i + 1..];
      ChannelArrayLastWins(next, pairs[1..], i - 1);
    } else {
      assert pairs[1..] == pairs[i + 1..];
      ChannelArrayKeepsOthers(next, pairs[1..], pairs[0].0);
    }
  }

  /** `getMIMEType()`. */
  function MimeType(f: Format): (r: string)
    ensures AroundSeparator(r, '/')
  {
    var r := match f
      case RSS2 => "application/rss+xml"
      case RSS1 => "application/rdf+xml"
      case ATOM => "application/atom+xml";
    assert 0 < 11 < |r| - 1 && r[11] == '/' && r[10] != '\n' && r[12] != '\n';
    r
  }

  /** Each format has its own media type. */
  lemma MimeTypesDistinct(f: Format, g: Format)
    requires f != g
    ensures MimeType(f) != MimeType(g)
  {
    assert MimeType(f)[13] != MimeType(g)[13];
  }

  /** `addCDATAEncoding(tags)`: `array_merge` of two lists. */
  function AddCdataEncoding(feed: Feed, tags: seq<string>): (r: Feed)
    ensures r == feed.(cdataTags := r.cdataTags)
    ensures |r.cdataTags| == |feed.cdataTags| + |tags| && r.cdataTags[..|feed.cdataTags|] == feed.cdataTags
    ensures forall t :: t in r.cdataTags <==> t in feed.cdataTags || t in tags
  {
    var merged := feed.cdataTags + tags;
    assert merged[..|feed.cdataTags|] == feed.cdataTags;
    feed.(cdataTags := merged)
  }

  /** `removeCDATAEncoding(tags)`: `array_values(array_diff(...))`. */
  function RemoveCdataEncoding(feed: Feed, tags: seq<string>): (r: Feed)
    ensures r == feed.(cdataTags := r.cdataTags)
    ensures forall t :: t in r.cdataTags <==> t in feed.cdataTags && t !in tags
  {
    feed.(cdataTags := Without(feed.cdataTags, tags))
  }

  /** Removing tags that were added, and not listed before, restores the
      original list. */
  lemma AddThenRemoveCdata(feed: Feed, tags: seq<string>)
    requires forall t :: t in feed.cdataTags ==> t !in tags
    ensures RemoveCdataEncoding(AddCdataEncoding(feed, tags), tags) == feed
  {
    WithoutAppend(feed.cdataTags, tags);
    WithoutAbsent(feed.cdataTags, tags);
  }

  lemma {:induction false} WithoutAppend(xs: seq<string>, ys: seq<string>)
    ensures Without(xs + ys, ys) == Without(xs, ys)
    decreases |xs|
  {
    if xs == [] {
      assert xs + ys == ys;
      WithoutSelf(ys, ys);
    } else {
      assert (xs + ys)[1..] == xs[1..] + ys;
      WithoutAppend(xs[1..], ys);
    }
  }

  lemma {:induction false} WithoutSelf(zs: seq<string>, ys: seq<string>)
    requires forall z :: z in zs ==> z in ys
    ensures Without(zs, ys) == []
    decreases |zs|
  {
    if zs != [] {
      assert zs[0] in zs;
      WithoutSelf(zs[1..], ys);
    }
  }

  /** The `die` message of `addItem` for an item of another format. */
  function MismatchError(feedFormat: Format, itemFormat: Format): string {
    "Feed type mismatch: This instance can handle " + FormatName(feedFormat)
    + " feeds only, but item with type " + FormatName(itemFormat) + " given."
  }

  /** `addItem(item)`: items of another format are refused. */
  function AddItem(feed: Feed, item: Item): (r: Result<Feed>)
    ensures r.Failure? <==> item.version != feed.version
    ensures r.Failure? ==> r.error == MismatchError(feed.version, item.version)
    ensures r.Success? ==> r.value == feed.(items := feed.items + [item])
  {
    if item.version != feed.version then Failure(MismatchError(feed.version, item.version))
    else Success(feed.(items := feed.items + [item]))
  }

  /** `createNewItem()`: an empty item of the feed's format. */
  function CreateNewItem(feed: Feed): (r: Item)
    ensures r.version == feed.version && r.elements == []
    ensures AddItem(feed, r).Success?
  {
    NewItem(feed.version)
  }

  function SetEncoding(feed: Feed, encoding: string): (r: Feed)
    ensures r == feed.(encoding := encoding)
  {
    feed.(encoding := encoding)
  }

  /** `setChannelAbout(url)`. */
  function SetChannelAbout(feed: Feed, url: string): (r: Feed)
    ensures r == feed.(channelAbout := Some(url))
  {
    feed.(channelAbout := Some(url))
  }

  function SetTitle(feed: Feed, title: string): (r: Feed)
    ensures r == feed.(channels := r.channels)
    ensures Get(r.channels, "title") == Some(Single(Entity(Text(title), []), []))
    ensures forall k :: k != "title" ==> Get(r.channels, k) == Get(feed.channels, k)
  {
    SetChannelElement(feed, "title", Text(title), [], false)
  }

  /** `setDescription(text)`: `subtitle` in ATOM, `description` otherwise. */
  function SetDescription(feed: Feed, text: string): (r: Feed)
    ensures r == feed.(channels := r.channels)
    ensures var tag := if feed.version == ATOM then "subtitle" else "description";
      Get(r.channels, tag) == Some(Single(Entity(Text(text), []), []))
      && forall k :: k != tag ==> Get(r.channels, k) == Get(feed.channels, k)
  {
    if feed.version != ATOM then SetChannelElement(feed, "description", Text(text), [], false)
    else SetChannelElement(feed, "subtitle", Text(text), [], false)
  }

  /** `setLink(link)`: an empty element with an `href` attribute in ATOM,
      a text element otherwise. */
  function SetLink(feed: Feed, link: string): (r: Feed)
    ensures r == feed.(channels := r.channels)
    ensures feed.version == ATOM ==> Get(r.channels, "link") == Some(Single(Entity(Text(""), [("href", link)]), []))
    ensures feed.version != ATOM ==> Get(r.channels, "link") == Some(Single(Entity(Text(link), []), []))
    ensures forall k :: k != "link" ==> Get(r.channels, k) == Get(feed.channels, k)
  {
    if feed.version == ATOM then SetChannelElement(feed, "link", Text(""), [("href", link)], false)
    else SetChannelElement(feed, "link", Text(link), [], false)
  }

  /** `setImage(title, link, url)`: one nested element. */
  function SetImage(feed: Feed, title: string, link: string, url: string): (r: Feed)
    ensures r == feed.(channels := r.channels)
    ensures Get(r.channels, "image") ==
      Some(Single(Entity(Children([Entry("title", Leaf(title)), Entry("link", Leaf(link)), Entry("url", Leaf(url))]), []), []))
    ensures forall k :: k != "image" ==> Get(r.channels, k) == Get(feed.channels, k)
  {
    SetChannelElement(feed, "image", Children([Entry("title", Leaf(title)), Entry("link", Leaf(link)), Entry("url", Leaf(url))]), [], false)
  }

  /** The channel-level date: RSS 1.0 has none; an unparseable text falls
      back to the epoch, a negative timestamp is refused. */
  function ChannelTimestamp(env: Env, date: DateArg): (r: Option<int>)
    ensures r.None? <==> date.Timestamp? && date.secs < 0
    ensures date.DateText? ==> r == Some(match env.strtotime(date.text) case None => 0 case Some(t) => t)
  {
    match date
    case DateObject(ts) => Some(ts)
    case Timestamp(n) => if n >= 0 then Some(n) else None
    case DateText(s) => Some(match env.strtotime(s) case None => 0 case Some(t) => t)
  }

  /** `setDate(date)`: `updated` in ATOM, `lastBuildDate` in RSS 2.0. */
  function SetDate(env: Env, feed: Feed, date: DateArg): (r: Result<Feed>)
    ensures r.Failure? <==> feed.version == RSS1 || (date.Timestamp? && date.secs < 0)
    ensures r.Success? ==> r.value == feed.(channels := r.value.channels)
    ensures r.Success? ==>
      var tag := if feed.version == ATOM then "updated" else "lastBuildDate";
      var fmt := if feed.version == ATOM then AtomDate else RssDate;
      Get(r.value.channels, tag) == Some(Single(Entity(Text(env.formatDate(fmt, ChannelTimestamp(env, date).value)), []), []))
      && forall k :: k != tag ==> Get(r.value.channels, k) == Get(feed.channels, k)
  {
    if feed.version == RSS1 then Failure("The publication date is not supported in RSS1 feeds.")
    else
      match ChannelTimestamp(env, date)
      case None => Failure("The given date was not an instance of DateTime, a UNIX timestamp or a date string.")
      case Some(ts) =>
        var fmt := if feed.version == ATOM then AtomDate else RssDate;
        var tag := if feed.version == ATOM then "updated" else "lastBuildDate";
        Success(SetChannelElement(feed, tag, Text(env.formatDate(fmt, ts)), [], false))
  }

  /** `addGenerator()`. */
  function AddGenerator(feed: Feed): (r: Result<Feed>)
    ensures r.Failure? <==> feed.version == RSS1
    ensures r.Success? && feed.version == ATOM ==>
      Get(r.value.channels, "atom:generator")
        == Some(Single(Entity(Text("FeedWriter"), [("uri", "https://github.com/mibe/FeedWriter")]), []))
    ensures r.Success? && feed.version == RSS2 ==>
      Get(r.value.channels, "generator") == Some(Single(Entity(Text("FeedWriter"), []), []))
    ensures r.Success? ==> r.value == feed.(channels := r.value.channels)
    ensures r.Success? ==>
      var tag := if feed.version == ATOM then "atom:generator" else "generator";
      forall k :: k != tag ==> Get(r.value.channels, k) == Get(feed.channels, k)
  {
    match feed.version
    case ATOM => Success(SetChannelElement(feed, "atom:generator", Text("FeedWriter"), [("uri", "https://github.com/mibe/FeedWriter")], false))
    case RSS2 => Success(SetChannelElement(feed, "generator", Text("FeedWriter"), [], false))
    case RSS1 => Failure("The generator element is not supported in RSS1 feeds.")
  }

  const RelError: string := "rel parameter must be a string and a valid relation identifier."
  const TypeError: string := "type parameter must be a string and a MIME type."
  const HreflangError: string := "hreflang parameter must be a string and a valid language code."
  const TitleError: string := "title parameter must be a string and not empty."
  const LengthError: string := "length parameter must be a positive integer."
  const AlternateError: string := "The feed must not contain more than one link element with a relation of \"alternate\" that has the same combination of type and hreflang attribute values."

  /** The first argument check of `setAtomLink` that fails, in the order
      rel, type, hreflang, title, length. An empty string stands for an
      omitted argument; a length of `Integer(0)` is loosely equal to null
      and is skipped like an omitted one. */
  function AtomLinkError(rel: string, mime: string, hreflang: string, title: string, length: Option<Number>): (r: Option<string>)
    ensures rel == "0" ==> r == Some(RelError)
    ensures rel != "0" && mime != "" && !AroundSeparator(mime, '/') ==> r == Some(TypeError)
    ensures (rel != "0" && (mime == "" || AroundSeparator(mime, '/')) && hreflang != "" && !HasAsciiLetter(hreflang)) ==>
      r == Some(HreflangError)
    ensures (rel != "0" && (mime == "" || AroundSeparator(mime, '/')) && (hreflang == "" || HasAsciiLetter(hreflang))
             && title == "0") ==> r == Some(TitleError)
    ensures (rel != "0" && (mime == "" || AroundSeparator(mime, '/')) && (hreflang == "" || HasAsciiLetter(hreflang))
             && title != "0" && length.Some? && (length.value.NotNumeric? || length.value.n < 0)) ==> r == Some(LengthError)
    ensures r.None? <==>
      !(rel == "0" || (mime != "" && !AroundSeparator(mime, '/')) || (hreflang != "" && !HasAsciiLetter(hreflang))
        || title == "0" || (length.Some? && (length.value.NotNumeric? || length.value.n < 0)))
  {
    if rel == "0" then Some(RelError)
    else if mime != "" && !AroundSeparator(mime, '/') then Some(TypeError)
    else if hreflang != "" && !HasAsciiLetter(hreflang) then Some(HreflangError)
    else if title == "0" then Some(TitleError)
    else if length.Some? && (length.value.NotNumeric? || length.value.n < 0) then Some(LengthError)
    else None
  }

  /** The text of a length argument; empty when it is loosely null. */
  function LengthText(length: Option<Number>): (r: string)
    ensures r == "" <==> !(length.Some? && length.value.Integer? && length.value.n > 0)
  {
    if length.Some? && length.value.Integer? && length.value.n > 0 then NatToString(length.value.n) else ""
  }

  /** `$data[key] = value` when the argument is given (loosely not null).
      Every key `setAtomLink` writes is new, so the write appends. */
  function Given(key: string, value: string): Attrs {
    if value != "" then [(key, value)] else []
  }

  /** The writes for a list of optional arguments, in order. */
  function GivenList(ps: Attrs): Attrs
    decreases |ps|
  {
    if ps == [] then [] else Given(ps[0].0, ps[0].1) + GivenList(ps[1..])
  }

  lemma {:induction false} GivenListKeys(ps: Attrs, k: string)
    requires k !in Keys(ps)
    ensures k !in Keys(GivenList(ps))
    decreases |ps|
  {
    if ps != [] {
      assert Keys(ps) == [ps[0].0] + Keys(ps[1..]);
      GivenListKeys(ps[1..], k);
      KeysConcat(Given(ps[0].0, ps[0].1), GivenList(ps[1..]));
    }
  }

  /** A key that no later entry uses can go in front of them. */
  lemma PrependUnique(k: string, v: string, rest: Attrs)
    requires UniqueKeys(rest) && k !in Keys(rest)
    ensures UniqueKeys([(k, v)] + rest)
  {
    var r := [(k, v)] + rest;
    forall i, j | 0 <= i < j < |r| ensures r[i].0 != r[j].0 {
      assert r[j] == rest[j - 1];
      if i == 0 {
        assert Keys(rest)[j - 1] == rest[j - 1].0;
      } else {
        assert r[i] == rest[i - 1];
      }
    }
  }

  lemma {:induction false} GivenListUnique(ps: Attrs)
    requires UniqueKeys(ps)
    ensures UniqueKeys(GivenList(ps))
    decreases |ps|
  {
    if ps != [] {
      var rest := GivenList(ps[1..]);
      assert UniqueKeys(ps[1..]) by {
        forall i, j | 0 <= i < j < |ps| - 1 ensures ps[1..][i].0 != ps[1..][j].0 {
          assert ps[1..][i] == ps[i + 1] && ps[1..][j] == ps[j + 1];
        }
      }
      GivenListUnique(ps[1..]);
      assert ps[0].0 !in Keys(ps[1..]) by {
        forall j | 0 <= j < |ps| - 1 ensures Keys(ps[1..])[j] != ps[0].0 {
          assert Keys(ps[1..])[j] == ps[j + 1].0;
        }
      }
      GivenListKeys(ps[1..], ps[0].0);
      if ps[0].1 != "" {
        PrependUnique(ps[0].0, ps[0].1, rest);
      } else {
        assert GivenList(ps) == rest;
      }
    }
  }

  /** Each argument is found under its own name, and only when given. */
  lemma {:induction false} GivenListLookup(ps: Attrs, i: nat)
    requires UniqueKeys(ps) && i < |ps|
    ensures Get(GivenList(ps), ps[i].0) == if ps[i].1 != "" then Some(ps[i].1) else None
    decreases |ps|
  {
    var k := ps[i].0;
    var g := Given(ps[0].0, ps[0].1);
    var rest := GivenList(ps[1..]);
    GetConcat(g, rest, k);
    assert UniqueKeys(ps[1..]) by {
      forall a, b | 0 <= a < b < |ps| - 1 ensures ps[1..][a].0 != ps[1..][b].0 {
        assert ps[1..][a] == ps[a + 1] && ps[1..][b] == ps[b + 1];
      }
    }
    if i == 0 {
      assert k !in Keys(ps[1..]) by {
        forall j | 0 <= j < |ps| - 1 ensures Keys(ps[1..])[j] != k {
          assert Keys(ps[1..])[j] == ps[j + 1].0;
        }
      }
      GivenListKeys(ps[1..], k);
      if ps[0].1 != "" {
        assert Keys(g) == [k];
      }
    } else {
      assert ps[1..][i - 1] == ps[i];
      assert Keys(g) == [] || Keys(g) == [ps[0].0];
      GivenListLookup(ps[1..], i - 1);
    }
  }

  /** The arguments `setAtomLink` may store besides `href`, in the order it
      writes them. */
  function LinkArguments(rel: string, mime: string, hreflang: string, title: string, len: string): Attrs {
    [("rel", rel), ("type", mime), ("hreflang", hreflang), ("title", title), ("length", len)]
  }

  /** The attributes of the new link: `href` first, then each given
      argument under its own name. */
  function LinkAttributes(href: string, rel: string, mime: string, hreflang: string, title: string, len: string): (r: Attrs)
    ensures |r| > 0 && r[0] == ("href", href) && UniqueKeys(r)
    ensures Get(r, "rel") == (if rel != "" then Some(rel) else None)
    ensures Get(r, "type") == (if mime != "" then Some(mime) else None)
    ensures Get(r, "hreflang") == (if hreflang != "" then Some(hreflang) else None)
    ensures Get(r, "title") == (if title != "" then Some(title) else None)
    ensures Get(r, "length") == (if len != "" then Some(len) else None)
  {
    var given := LinkArguments(rel, mime, hreflang, title, len);
    LinkArgumentsShape(rel, mime, hreflang, title, len);
    GivenListUnique(given);
    GivenListKeys(given, "href");
    PrependUnique("href", href, GivenList(given));
    LinkLookup(href, given, 0);
    LinkLookup(href, given, 1);
    LinkLookup(href, given, 2);
    LinkLookup(href, given, 3);
    LinkLookup(href, given, 4);
    [("href", href)] + GivenList(given)
  }

  lemma LinkArgumentsShape(rel: string, mime: string, hreflang: string, title: string, len: string)
    ensures var given := LinkArguments(rel, mime, hreflang, title, len);
      UniqueKeys(given) && "href" !in Keys(given)
  {
    var given := LinkArguments(rel, mime, hreflang, title, len);
    assert Keys(given) == ["rel", "type", "hreflang", "title", "length"];
  }

  lemma LinkLookup(href: string, given: Attrs, i: nat)
    requires UniqueKeys(given) && "href" !in Keys(given) && i < |given|
    ensures Get([("href", href)] + GivenList(given), given[i].0) == if given[i].1 != "" then Some(given[i].1) else None
  {
    var m := [("href", href)] + GivenList(given);
    assert given[i].0 == Keys(given)[i];
    assert m[1..] == GivenList(given);
    GetTail(m, given[i].0);
    GivenListLookup(given, i);
  }

  /** The attribute list `setAtomLink` stores, or the reason it stops. */
  function AtomLinkData(href: string, rel: string, mime: string, hreflang: string, title: string, length: Option<Number>): (r: Result<Attrs>)
    ensures r.Failure? <==> AtomLinkError(rel, mime, hreflang, title, length).Some?
    ensures r.Failure? ==> r.error == AtomLinkError(rel, mime, hreflang, title, length).value
    ensures r.Success? ==> r.value == LinkAttributes(href, rel, mime, hreflang, title, LengthText(length))
  {
    match AtomLinkError(rel, mime, hreflang, title, length)
    case Some(msg) => Failure(msg)
    case None => Success(LinkAttributes(href, rel, mime, hreflang, title, LengthText(length)))
  }

  /** What the channels hold under `atom:link`. */
  function LinkEntry(channels: seq<(string, ChannelEntry)>): Option<ChannelEntry> {
    Get(channels, "atom:link")
  }

  /** PHP's loose `==` between an attribute read with `@` (null when the key
      is missing) and an optional string argument. */
  predicate LooseMatch(stored: Option<string>, arg: string) {
    match stored
    case None => arg == ""
    case Some(v) => v == arg
  }

  /** The duplicate-alternate test of `setAtomLink` as written. It walks
      the values stored under `atom:link` and reads `rel`, `hreflang` and
      `type` directly off each. Entities stored with `multiple` set have
      only the keys `content` and `attributes`, so a list of them never
      matches; only an entry stored by a plain `setChannelElement` exposes
      its attribute map to the test. */
  predicate AlternateClash(channels: seq<(string, ChannelEntry)>, mime: string, hreflang: string) {
    match LinkEntry(channels)
    case None => false
    case Some(Multi(_)) => false
    case Some(Single(e, _)) =>
      LooseMatch(Get(e.attributes, "rel"), "alternate")
      && LooseMatch(Get(e.attributes, "hreflang"), hreflang)
      && LooseMatch(Get(e.attributes, "type"), mime)
  }

  /** What appending a link entity to `atom:link` does to the channels. */
  ghost predicate LinkAppended(before: Feed, after: Feed, data: Attrs) {
    var e := Entity(Text(""), data);
    after == before.(channels := after.channels)
    && (forall k :: k != "atom:link" ==> Get(after.channels, k) == Get(before.channels, k))
    && match LinkEntry(before.channels)
       case None =>
         after.channels == before.channels + [("atom:link", Multi([e]))] && LinkEntry(after.channels) == Some(Multi([e]))
       case Some(Multi(es)) => Get(after.channels, "atom:link") == Some(Multi(es + [e]))
       case Some(Single(e0, hs)) => Get(after.channels, "atom:link") == Some(Single(e0, hs + [e]))
  }

  /** `setAtomLink(href, rel, type, hreflang, title, length)` as written. */
  function SetAtomLink(feed: Feed, href: string, rel: string, mime: string, hreflang: string, title: string, length: Option<Number>): (r: Result<Feed>)
    ensures r.Failure? <==>
      AtomLinkData(href, rel, mime, hreflang, title, length).Failure?
      || (feed.version == ATOM && AlternateClash(feed.channels, mime, hreflang))
    ensures r.Success? ==> LinkAppended(feed, r.value, AtomLinkData(href, rel, mime, hreflang, title, length).value)
  {
    var data :- AtomLinkData(href, rel, mime, hreflang, title, length);
    if feed.version == ATOM && AlternateClash(feed.channels, mime, hreflang) then Failure(AlternateError)
    else Success(SetChannelElement(feed, "atom:link", Text(""), data, true))
  }

  /** The link entities of `atom:link` that the channel rendering emits. */
  function RenderedLinks(channels: seq<(string, ChannelEntry)>): seq<Entity> {
    match LinkEntry(channels)
    case None => []
    case Some(Multi(es)) => es
    case Some(Single(e, _)) => [e]
  }

  predicate IsAlternate(e: Entity) {
    LooseMatch(Get(e.attributes, "rel"), "alternate")
  }

  predicate IsAlternateWith(e: Entity, mime: string, hreflang: string) {
    IsAlternate(e)
    && LooseMatch(Get(e.attributes, "type"), mime)
    && LooseMatch(Get(e.attributes, "hreflang"), hreflang)
  }

  function OrEmpty(o: Option<string>): string {
    match o
    case None => ""
    case Some(v) => v
  }

  /** Section 4.1.1 of RFC 4287: no two alternate links with the same type
      and hreflang. */
  predicate AlternatesUnique(channels: seq<(string, ChannelEntry)>) {
    UniqueAlternates(RenderedLinks(channels))
  }

  predicate UniqueAlternates(links: seq<Entity>) {
    forall i, j :: 0 <= i < j < |links| && IsAlternate(links[i]) ==>
      !IsAlternateWith(links[j], OrEmpty(Get(links[i].attributes, "type")), OrEmpty(Get(links[i].attributes, "hreflang")))
  }

  /** The type and hreflang arguments pass `setAtomLink`'s validation. */
  predicate ValidTypeAndLang(mime: string, hreflang: string) {
    (mime == "" || AroundSeparator(mime, '/')) && (hreflang == "" || HasAsciiLetter(hreflang))
  }

  /** The entity `setAtomLink(href, "alternate", type, hreflang)` stores. */
  function AlternateEntity(href: string, mime: string, hreflang: string): Entity {
    Entity(Text(""), LinkAttributes(href, "alternate", mime, hreflang, "", ""))
  }

  /** An ATOM feed whose links all came from `setAtomLink` accepts a second
      alternate link with the same type and hreflang, and renders both. */
  lemma RepeatedAlternateLinkAccepted(feed: Feed, href1: string, href2: string, mime: string, hreflang: string)
    requires feed.version == ATOM && !HasKey(feed.channels, "atom:link")
    requires ValidTypeAndLang(mime, hreflang)
    ensures var r1 := SetAtomLink(feed, href1, "alternate", mime, hreflang, "", None);
      r1.Success?
      && var r2 := SetAtomLink(r1.value, href2, "alternate", mime, hreflang, "", None);
      r2.Success? && |RenderedLinks(r2.value.channels)| == 2 && !AlternatesUnique(r2.value.channels)
  {
    var e1 := AlternateEntity(href1, mime, hreflang);
    var r1 := LinkAccepted(feed, href1, mime, hreflang, []);
    assert [] + [e1] == [e1];
    var r2 := LinkAccepted(r1, href2, mime, hreflang, [e1]);
    StoredPairNotUnique(r2, href1, href2, mime, hreflang);
  }

  /** Two stored alternate links with the same type and hreflang are both
      rendered, against section 4.1.1 of RFC 4287. */
  lemma StoredPairNotUnique(f: Feed, href1: string, href2: string, mime: string, hreflang: string)
    requires LinkEntry(f.channels) == Some(Multi([AlternateEntity(href1, mime, hreflang)] + [AlternateEntity(href2, mime, hreflang)]))
    ensures |RenderedLinks(f.channels)| == 2 && !AlternatesUnique(f.channels)
  {
    var e1, e2 := AlternateEntity(href1, mime, hreflang), AlternateEntity(href2, mime, hreflang);
    assert RenderedLinks(f.channels) == [e1] + [e2];
    PairNotUnique(href1, href2, mime, hreflang);
  }

  /** Two alternate links with the same type and hreflang, side by side. */
  lemma PairNotUnique(href1: string, href2: string, mime: string, hreflang: string)
    ensures !UniqueAlternates([AlternateEntity(href1, mime, hreflang)] + [AlternateEntity(href2, mime, hreflang)])
  {
    AlternateLinkMatches(href1, mime, hreflang);
    AlternateLinkMatches(href2, mime, hreflang);
    MatchingPairNotUnique(AlternateEntity(href1, mime, hreflang), AlternateEntity(href2, mime, hreflang), mime, hreflang);
  }

  /** An alternate link followed by an alternate link of its type and
      hreflang. */
  lemma MatchingPairNotUnique(e1: Entity, e2: Entity, mime: string, hreflang: string)
    requires IsAlternate(e1) && OrEmpty(Get(e1.attributes, "type")) == mime && OrEmpty(Get(e1.attributes, "hreflang")) == hreflang
    requires IsAlternateWith(e2, mime, hreflang)
    ensures !UniqueAlternates([e1] + [e2])
  {
    var links := [e1] + [e2];
    assert links[0] == e1 && links[1] == e2;
    ClashBreaksUniqueness(links, 0, 1);
  }

  /** A link written by `setAtomLink` with rel `alternate` matches its own
      type and hreflang. */
  lemma AlternateLinkMatches(href: string, mime: string, hreflang: string)
    ensures var e := AlternateEntity(href, mime, hreflang);
      IsAlternate(e) && IsAlternateWith(e, mime, hreflang)
      && OrEmpty(Get(e.attributes, "type")) == mime && OrEmpty(Get(e.attributes, "hreflang")) == hreflang
  {
  }

  lemma ClashBreaksUniqueness(links: seq<Entity>, i: nat, j: nat)
    requires i < j < |links| && IsAlternate(links[i])
    requires IsAlternateWith(links[j], OrEmpty(Get(links[i].attributes, "type")), OrEmpty(Get(links[i].attributes, "hreflang")))
    ensures !UniqueAlternates(links)
  {
  }

  /** One step of the scenario above: an alternate link with valid
      arguments is appended to a list of stored links (or starts one). */
  lemma LinkAccepted(feed: Feed, href: string, mime: string, hreflang: string, es: seq<Entity>) returns (r: Feed)
    requires feed.version == ATOM && ValidTypeAndLang(mime, hreflang)
    requires if es == [] then !HasKey(feed.channels, "atom:link") else LinkEntry(feed.channels) == Some(Multi(es))
    ensures SetAtomLink(feed, href, "alternate", mime, hreflang, "", None) == Success(r)
    ensures r.version == ATOM && LinkEntry(r.channels) == Some(Multi(es + [AlternateEntity(href, mime, hreflang)]))
  {
    var data := LinkAttributes(href, "alternate", mime, hreflang, "", "");
    assert AtomLinkData(href, "alternate", mime, hreflang, "", None) == Success(data);
    assert !AlternateClash(feed.channels, mime, hreflang);
    r := SetAtomLink(feed, href, "alternate", mime, hreflang, "", None).value;
    assert LinkAppended(feed, r, data);
    AppendedEntry(feed, r, data, es);
  }

  /** The stored links after an append, when they were `es` before. */
  lemma AppendedEntry(before: Feed, after: Feed, data: Attrs, es: seq<Entity>)
    requires LinkAppended(before, after, data)
    requires if es == [] then !HasKey(before.channels, "atom:link") else LinkEntry(before.channels) == Some(Multi(es))
    ensures after.version == before.version
    ensures LinkEntry(after.channels) == Some(Multi(es + [Entity(Text(""), data)]))
  {
    if es == [] {
      assert LinkEntry(before.channels).None?;
      assert es + [Entity(Text(""), data)] == [Entity(Text(""), data)];
    }
  }

  /** The duplicate-alternate test as its comment intends it: a new
      alternate link clashes with a rendered alternate link of the same type
      and hreflang. */
  predicate AlternateTaken(channels: seq<(string, ChannelEntry)>, rel: string, mime: string, hreflang: string) {
    var links := RenderedLinks(channels);
    rel == "alternate" && exists i :: 0 <= i < |links| && IsAlternateWith(links[i], mime, hreflang)
  }

  /** `setAtomLink` with the intended duplicate-alternate test. */
  function SetAtomLinkChecked(feed: Feed, href: string, rel: string, mime: string, hreflang: string, title: string, length: Option<Number>): (r: Result<Feed>)
    ensures r.Failure? <==>
      AtomLinkData(href, rel, mime, hreflang, title, length).Failure?
      || (feed.version == ATOM && AlternateTaken(feed.channels, rel, mime, hreflang))
    ensures r.Success? ==> LinkAppended(feed, r.value, AtomLinkData(href, rel, mime, hreflang, title, length).value)
  {
    var data :- AtomLinkData(href, rel, mime, hreflang, title, length);
    if feed.version == ATOM && AlternateTaken(feed.channels, rel, mime, hreflang) then Failure(AlternateError)
    else Success(SetChannelElement(feed, "atom:link", Text(""), data, true))
  }

  /** With the intended test, every accepted link keeps the ATOM feed free
      of duplicate alternate links. */
  lemma CheckedLinkKeepsAlternatesUnique(feed: Feed, href: string, rel: string, mime: string, hreflang: string, title: string, length: Option<Number>)
    requires feed.version == ATOM && AlternatesUnique(feed.channels)
    requires SetAtomLinkChecked(feed, href, rel, mime, hreflang, title, length).Success?
    ensures AlternatesUnique(SetAtomLinkChecked(feed, href, rel, mime, hreflang, title, length).value.channels)
  {
    var data := AtomLinkData(href, rel, mime, hreflang, title, length).value;
    var r := SetAtomLinkChecked(feed, href, rel, mime, hreflang, title, length).value;
    var e := Entity(Text(""), data);
    var links := RenderedLinks(r.channels);
    assert !AlternateTaken(feed.channels, rel, mime, hreflang);
    RenderedAfterAppend(feed, r, data);
    if links == [e] {
      assert UniqueAlternates(links);
    } else if links != RenderedLinks(feed.channels) {
      AppendKeepsAlternatesUnique(RenderedLinks(feed.channels), e, rel, mime, hreflang);
    }
  }

  /** The rendered links after a link is appended: the new link alone, the
      old ones unchanged (behind a `Single` entry), or the old ones followed
      by the new link. */
  lemma RenderedAfterAppend(before: Feed, after: Feed, data: Attrs)
    requires LinkAppended(before, after, data)
    ensures var e := Entity(Text(""), data);
      var old_, new_ := RenderedLinks(before.channels), RenderedLinks(after.channels);
      new_ == [e] || new_ == old_ || new_ == old_ + [e]
  {
  }

  /** Appending a link that the intended test lets through keeps a list
      of links free of duplicate alternates. */
  lemma AppendKeepsAlternatesUnique(links: seq<Entity>, e: Entity, rel: string, mime: string, hreflang: string)
    requires UniqueAlternates(links)
    requires !(rel == "alternate" && exists i :: 0 <= i < |links| && IsAlternateWith(links[i], mime, hreflang))
    requires Get(e.attributes, "rel") == (if rel != "" then Some(rel) else None)
    requires Get(e.attributes, "type") == (if mime != "" then Some(mime) else None)
    requires Get(e.attributes, "hreflang") == (if hreflang != "" then Some(hreflang) else None)
    ensures UniqueAlternates(links + [e])
  {
    var all := links + [e];
    forall i, j | 0 <= i < j < |all| && IsAlternate(all[i])
      ensures !IsAlternateWith(all[j], OrEmpty(Get(all[i].attributes, "type")), OrEmpty(Get(all[i].attributes, "hreflang")))
    {
      assert all[i] == links[i];
      if j == |links| {
        if IsAlternateWith(e, OrEmpty(Get(links[i].attributes, "type")), OrEmpty(Get(links[i].attributes, "hreflang"))) {
          assert IsAlternateWith(links[i], mime, hreflang);
        }
      } else {
        assert all[j] == links[j];
      }
    }
  }

  /** Appending a link keeps the format and the first stored link entity,
      so it never changes the outcome of the duplicate-alternate test as
      written. */
  lemma AppendKeepsClash(before: Feed, after: Feed, data: Attrs, mime: string, hreflang: string)
    requires LinkAppended(before, after, data)
    ensures after.version == before.version
    ensures AlternateClash(after.channels, mime, hreflang) == AlternateClash(before.channels, mime, hreflang)
  {
    match LinkEntry(before.channels)
    case None =>
      assert LinkEntry(after.channels) == Some(Multi([Entity(Text(""), data)]));
    case Some(Multi(es)) =>
    case Some(Single(e0, hs)) =>
  }

  /** `setSelfLink(url)`: a `self` link typed with the feed's media type,
      added through `setAtomLink` as written. It always passes validation;
      it fails only when an ATOM feed holds a plain `atom:link` entry that
      the duplicate-alternate test mistakes for an alternate link of that
      type without hreflang. */
  function SetSelfLink(feed: Feed, url: string): (r: Result<Feed>)
    ensures r.Failure? <==> feed.version == ATOM && AlternateClash(feed.channels, MimeType(feed.version), "")
    ensures r.Failure? ==> r.error == AlternateError
    ensures r.Success? ==> LinkAppended(feed, r.value, LinkAttributes(url, "self", MimeType(feed.version), "", "", ""))
  {
    SetAtomLink(feed, url, "self", MimeType(feed.version), "", "", None)
  }

  /** With the intended duplicate test, which concerns alternate links only,
      a self link is always accepted. */
  lemma CheckedSelfLinkAccepted(feed: Feed, url: string)
    ensures var r := SetAtomLinkChecked(feed, url, "self", MimeType(feed.version), "", "", None);
      r.Success? && LinkAppended(feed, r.value, LinkAttributes(url, "self", MimeType(feed.version), "", "", ""))
  {
    assert !AlternateTaken(feed.channels, "self", MimeType(feed.version), "");
  }

  /** Without a plain `atom:link` entry the two tests agree, so the self
      link is added exactly as the intended test would add it. */
  lemma SelfLinkAgreesWithoutSingle(feed: Feed, url: string)
    requires !(LinkEntry(feed.channels).Some? && LinkEntry(feed.channels).value.Single?)
    ensures SetSelfLink(feed, url).Success?
    ensures SetSelfLink(feed, url) == SetAtomLinkChecked(feed, url, "self", MimeType(feed.version), "", "", None)
  {
    CheckedSelfLinkAccepted(feed, url);
  }

  const PaginationError: string := "At least one URL must be specified for pagination to work."

  /** `setPagination(next, previous, first, last)`: refused when every URL
      is empty; otherwise one link per given URL, in that order, each through
      `setAtomLink` as written. Since no append changes the outcome of the
      duplicate test, either every link is added or the first one fails. */
  function SetPagination(feed: Feed, next: string, previous: string, first: string, last: string): (r: Result<Feed>)
    ensures r.Failure? <==>
      (PhpEmpty(next) && PhpEmpty(previous) && PhpEmpty(first) && PhpEmpty(last))
      || (feed.version == ATOM && AlternateClash(feed.channels, "", ""))
    ensures r.Failure? ==>
      r.error == if PhpEmpty(next) && PhpEmpty(previous) && PhpEmpty(first) && PhpEmpty(last) then PaginationError else AlternateError
    ensures r.Success? ==>
      r.value == feed.(channels := r.value.channels)
      && forall k :: k != "atom:link" ==> Get(r.value.channels, k) == Get(feed.channels, k)
  {
    if PhpEmpty(next) && PhpEmpty(previous) && PhpEmpty(first) && PhpEmpty(last) then
      Failure(PaginationError)
    else
      var f1 :- PaginationLink(feed, next, "next");
      var f2 :- PaginationLink(f1, previous, "previous");
      var f3 :- PaginationLink(f2, first, "first");
      PaginationLink(f3, last, "last")
  }

  /** One pagination link, added only when its URL is not empty. */
  function PaginationLink(feed: Feed, url: string, rel: string): (r: Result<Feed>)
    requires rel in {"next", "previous", "first", "last"}
    ensures PhpEmpty(url) ==> r == Success(feed)
    ensures !PhpEmpty(url) ==> (r.Failure? <==> feed.version == ATOM && AlternateClash(feed.channels, "", ""))
    ensures r.Failure? ==> r.error == AlternateError
    ensures !PhpEmpty(url) && r.Success? ==> LinkAppended(feed, r.value, LinkAttributes(url, rel, "", "", "", ""))
    ensures r.Success? ==>
      r.value.version == feed.version && AlternateClash(r.value.channels, "", "") == AlternateClash(feed.channels, "", "")
    ensures r.Success? ==>
      r.value == feed.(channels := r.value.channels)
      && forall k :: k != "atom:link" ==> Get(r.value.channels, k) == Get(feed.channels, k)
  {
    if PhpEmpty(url) then Success(feed)
    else
      var r := SetAtomLink(feed, url, rel, "", "", "", None);
      if r.Success? then
        AppendKeepsClash(feed, r.value, LinkAttributes(url, rel, "", "", "", ""), "", "");
        r
      else r
  }

  /** With the intended duplicate test a pagination link is always
      accepted. */
  lemma CheckedPaginationAccepted(feed: Feed, url: string, rel: string)
    requires rel in {"next", "previous", "first", "last"}
    ensures var r := SetAtomLinkChecked(feed, url, rel, "", "", "", None);
      r.Success? && LinkAppended(feed, r.value, LinkAttributes(url, rel, "", "", "", ""))
  {
    assert !AlternateTaken(feed.channels, rel, "", "");
  }

  /** The `atom:link` entry holds exactly the links `es`, in order; an
      empty list means there is no entry at all. */
  predicate HoldsLinks(channels: seq<(string, ChannelEntry)>, es: seq<Entity>) {
    if es == [] then !HasKey(channels, "atom:link") else LinkEntry(channels) == Some(Multi(es))
  }

  /** The link a pagination URL contributes: none when the URL is empty. */
  function PaginationEntity(url: string, rel: string): seq<Entity> {
    if PhpEmpty(url) then [] else [Entity(Text(""), LinkAttributes(url, rel, "", "", "", ""))]
  }

  lemma PaginationLinkAppends(feed: Feed, url: string, rel: string, es: seq<Entity>)
    requires rel in {"next", "previous", "first", "last"}
    requires HoldsLinks(feed.channels, es)
    ensures PaginationLink(feed, url, rel).Success?
    ensures HoldsLinks(PaginationLink(feed, url, rel).value.channels, es + PaginationEntity(url, rel))
  {
    if PhpEmpty(url) {
      assert es + PaginationEntity(url, rel) == es;
    } else {
      assert !AlternateClash(feed.channels, "", "");
      AppendedEntry(feed, PaginationLink(feed, url, rel).value, LinkAttributes(url, rel, "", "", "", ""), es);
    }
  }

  /** On links stored by `setAtomLink` alone, `setPagination` succeeds
      whenever a URL is given, and adds one link per non-empty URL, in the
      order next, previous, first, last, behind the links already stored. */
  lemma PaginationAddsLinks(feed: Feed, next: string, previous: string, first: string, last: string, es: seq<Entity>)
    requires HoldsLinks(feed.channels, es)
    requires !(PhpEmpty(next) && PhpEmpty(previous) && PhpEmpty(first) && PhpEmpty(last))
    ensures SetPagination(feed, next, previous, first, last).Success?
    ensures HoldsLinks(SetPagination(feed, next, previous, first, last).value.channels,
                       es + PaginationEntity(next, "next") + PaginationEntity(previous, "previous")
                       + PaginationEntity(first, "first") + PaginationEntity(last, "last"))
  {
    PaginationLinkAppends(feed, next, "next", es);
    var f1 := PaginationLink(feed, next, "next").value;
    PaginationLinkAppends(f1, previous, "previous", es + PaginationEntity(next, "next"));
    var f2 := PaginationLink(f1, previous, "previous").value;
    PaginationLinkAppends(f2, first, "first", es + PaginationEntity(next, "next") + PaginationEntity(previous, "previous"));
    var f3 := PaginationLink(f2, first, "first").value;
    PaginationLinkAppends(f3, last, "last", es + PaginationEntity(next, "next") + PaginationEntity(previous, "previous")
                                            + PaginationEntity(first, "first"));
  }
}

=== FILE: item.dfy ===
/** `Item`: one feed entry, an ordered collection of named elements that
    the feed serializes between the item's start and end tags. */
module FeedItem {

  import opened Wrappers
  import opened Text
  import opened Model
  import opened Assoc
  import opened Runtime
  import opened Uuids

  /** The `name`, `content` and `attributes` triple stored per key. */
  datatype Element = Element(name: string, content: Content, attributes: Attrs)

  /** `elements` keeps PHP's key order; `counter` is the private `_cpt`
      counter that numbers repeated elements. */
  datatype Item = Item(version: Format, elements: seq<(string, Element)>, counter: nat)

  /** A PHP value that must be a boolean. */
  datatype BoolArg = BoolValue(b: bool) | NotBoolean

  /** A numeric argument: an integer, or a value PHP does not consider a
      number. */
  datatype Number = Integer(n: int) | NotNumeric

  /** The three ways a date can be given: a `DateTime` object (its
      timestamp), a UNIX timestamp, or a text for `strtotime`. */
  datatype DateArg = DateObject(ts: int) | Timestamp(secs: int) | DateText(text: string)

  /** The key a repeated element is stored under: `name-N`. */
  function DuplicateKey(name: string, n: nat): string {
    name + "-" + NatToString(n)
  }

  /** Every key is the element's own name or one of its numbered
      duplicate keys, and keys are unique. */
  ghost predicate Valid(item: Item) {
    UniqueKeys(item.elements)
    && forall i :: 0 <= i < |item.elements| ==> KeyFor(item.elements[i].0, item.elements[i].1.name)
  }

  ghost predicate KeyFor(key: string, name: string) {
    key == name || exists n: nat :: key == DuplicateKey(name, n)
  }

  /** `new Item($version)`. */
  function NewItem(version: Format): (r: Item)
    ensures r.version == version && r.elements == [] && Valid(r)
  {
    Item(version, [], 0)
  }

  /** `addElement(name, content, attributes, overwrite, allowMultiple)`. An
      existing element is kept unless `overwrite` is set; with
      `allowMultiple` the new one is stored beside it under a numbered key. */
  function AddElement(item: Item, name: string, content: Content, attrs: Attrs, overwrite: bool, allowMultiple: bool): (r: Item)
    ensures r.version == item.version
    ensures HasKey(item.elements, name) && !overwrite && !allowMultiple ==> r == item
    ensures !HasKey(item.elements, name) ==>
      r.elements == item.elements + [(name, Element(name, content, attrs))] && r.counter == item.counter
    ensures HasKey(item.elements, name) && overwrite ==>
      Get(r.elements, name) == Some(Element(name, content, attrs))
      && Keys(r.elements) == Keys(item.elements)
      && (forall k :: k != name ==> Get(r.elements, k) == Get(item.elements, k))
      && r.counter == item.counter
    ensures HasKey(item.elements, name) && !overwrite && allowMultiple ==>
      var key := DuplicateKey(name, item.counter);
      Get(r.elements, key) == Some(Element(name, content, attrs))
      && (forall k :: k != key ==> Get(r.elements, k) == Get(item.elements, k))
      && r.counter == item.counter + 1
    ensures HasKey(item.elements, name) && !overwrite && allowMultiple ==>
      var key := DuplicateKey(name, item.counter);
      (!HasKey(item.elements, key) ==> r.elements == item.elements + [(key, Element(name, content, attrs))])
      && (HasKey(item.elements, key) ==> Keys(r.elements) == Keys(item.elements))
    ensures Valid(item) ==> Valid(r)
  {
    if HasKey(item.elements, name) && !overwrite then
      if !allowMultiple then item
      else
        var key := DuplicateKey(name, item.counter);
        var r := Item(item.version, Put(item.elements, key, Element(name, content, attrs)), item.counter + 1);
        assert KeyFor(key, name);
        r
    else
      Item(item.version, Put(item.elements, name, Element(name, content, attrs)), item.counter)
  }

  /** Repeated elements get distinct numbered keys. */
  lemma DuplicateKeysDistinct(name: string, m: nat, n: nat)
    requires m != n
    ensures DuplicateKey(name, m) != DuplicateKey(name, n)
  {
    if DuplicateKey(name, m) == DuplicateKey(name, n) {
      var p := name + "-";
      assert DuplicateKey(name, m)[|p|..] == NatToString(m);
      assert DuplicateKey(name, n)[|p|..] == NatToString(n);
      NatToStringRoundTrip(m);
      NatToStringRoundTrip(n);
    }
  }

  /** Two repeated additions of an element that already exists are both
      kept, under consecutive numbered keys. */
  lemma RepeatedElementsBothKept(item: Item, name: string, c1: Content, a1: Attrs, c2: Content, a2: Attrs)
    requires HasKey(item.elements, name)
    ensures var r1 := AddElement(item, name, c1, a1, false, true);
      var r2 := AddElement(r1, name, c2, a2, false, true);
      Get(r2.elements, DuplicateKey(name, item.counter)) == Some(Element(name, c1, a1))
      && Get(r2.elements, DuplicateKey(name, item.counter + 1)) == Some(Element(name, c2, a2))
      && Get(r2.elements, name) == Get(item.elements, name)
  {
    var r1 := AddElement(item, name, c1, a1, false, true);
    assert HasKey(r1.elements, name) by {
      assert Get(r1.elements, name) == Get(item.elements, name) by {
        assert name != DuplicateKey(name, item.counter) by {
          assert |DuplicateKey(name, item.counter)| > |name|;
        }
      }
    }
    DuplicateKeysDistinct(name, item.counter, item.counter + 1);
    assert name != DuplicateKey(name, item.counter + 1) by {
      assert |DuplicateKey(name, item.counter + 1)| > |name|;
    }
  }

  /** `addElementArray(array)`: `addElement(name, content)` for each pair. */
  function AddElementArray(item: Item, pairs: seq<(string, Content)>): (r: Item)
    decreases |pairs|
  {
    if pairs == [] then item
    else AddElementArray(AddElement(item, pairs[0].0, pairs[0].1, [], false, false), pairs[1..])
  }

  function Names(pairs: seq<(string, Content)>): (ns: seq<string>)
    ensures |ns| == |pairs| && forall i :: 0 <= i < |pairs| ==> ns[i] == pairs[i].0
  {
    seq(|pairs|, i requires 0 <= i < |pairs| => pairs[i].0)
  }

  /** A plain `addElement(name, content)` adds a missing element and
      leaves every other key as it was. */
  lemma AddPlainElement(item: Item, name: string, content: Content)
    ensures var r := AddElement(item, name, content, [], false, false);
      r.version == item.version && r.counter == item.counter
      && (forall k :: HasKey(r.elements, k) <==> HasKey(item.elements, k) || k == name)
      && (forall k :: HasKey(item.elements, k) ==> Get(r.elements, k) == Get(item.elements, k))
  {
    var r := AddElement(item, name, content, [], false, false);
    if !HasKey(item.elements, name) {
      forall k ensures HasKey(r.elements, k) <==> HasKey(item.elements, k) || k == name {
        assert Get(r.elements, k).Some? <==> HasKey(r.elements, k);
        if k != name {
          assert Get(r.elements, k) == Get(item.elements, k) by {
            PutAppendKeeps(item.elements, name, Element(name, content, []), k);
          }
        }
      }
    }
  }

  /** The array form never replaces an element already present. */
  lemma {:induction false} AddElementArrayKeepsExisting(item: Item, pairs: seq<(string, Content)>)
    ensures var r := AddElementArray(item, pairs);
      r.version == item.version && r.counter == item.counter
      && forall k :: HasKey(item.elements, k) ==> Get(r.elements, k) == Get(item.elements, k)
    decreases |pairs|
  {
    if pairs != [] {
      AddPlainElement(item, pairs[0].0, pairs[0].1);
      AddElementArrayKeepsExisting(AddElement(item, pairs[0].0, pairs[0].1, [], false, false), pairs[1..]);
    }
  }

  /** Afterwards exactly the old keys and the given names are present. */
  lemma {:induction false} AddElementArrayKeys(item: Item, pairs: seq<(string, Content)>)
    ensures forall k :: HasKey(AddElementArray(item, pairs).elements, k) <==> HasKey(item.elements, k) || k in Names(pairs)
    decreases |pairs|
  {
    if pairs != [] {
      AddPlainElement(item, pairs[0].0, pairs[0].1);
      AddElementArrayKeys(AddElement(item, pairs[0].0, pairs[0].1, [], false, false), pairs[1..]);
      assert Names(pairs) == [pairs[0].0] + Names(pairs[1..]);
    }
  }

  /** The effect of a plain `addElement` in the wrappers below: the first
      value given for a key is kept, later ones are ignored. */
  predicate AddedOnce(before: Item, after: Item, key: string, el: Element) {
    after.version == before.version
    && (HasKey(before.elements, key) ==> after == before)
    && (!HasKey(before.elements, key) ==>
          after.elements == before.elements + [(key, el)] && after.counter == before.counter)
  }

  function DescriptionTag(f: Format): string {
    if f == ATOM then "summary" else "description"
  }

  /** `setDescription(text)`: `summary` in ATOM, `description` otherwise. */
  function SetDescription(item: Item, text: string): (r: Item)
    ensures AddedOnce(item, r, DescriptionTag(item.version), Element(DescriptionTag(item.version), Text(text), []))
  {
    AddElement(item, DescriptionTag(item.version), Text(text), [], false, false)
  }

  /** `setContent(html)`: ATOM only, marked as HTML. */
  function SetContent(item: Item, html: string): (r: Result<Item>)
    ensures r.Failure? <==> item.version != ATOM
    ensures r.Success? ==> AddedOnce(item, r.value, "content", Element("content", Text(html), [("type", "html")]))
  {
    if item.version != ATOM then Failure("The content element is supported in ATOM feeds only.")
    else Success(AddElement(item, "content", Text(html), [("type", "html")], false, false))
  }

  function SetTitle(item: Item, title: string): (r: Item)
    ensures AddedOnce(item, r, "title", Element("title", Text(title), []))
  {
    AddElement(item, "title", Text(title), [], false, false)
  }

  /** The element and date layout each format uses for an item's date. */
  function DateTag(f: Format): string {
    match f
    case ATOM => "updated"
    case RSS2 => "pubDate"
    case RSS1 => "dc:date"
  }

  function ItemDateFormat(f: Format): DateFormat {
    match f
    case ATOM => AtomDate
    case RSS2 => RssDate
    case RSS1 => DayDate
  }

  /** The UNIX timestamp a date argument denotes, if it is acceptable to an
      item: negative timestamps and unparseable texts are not. */
  function ItemTimestamp(env: Env, date: DateArg): (r: Option<int>)
    ensures r.None? <==> (date.Timestamp? && date.secs < 0) || (date.DateText? && env.strtotime(date.text).None?)
    ensures date.DateObject? ==> r == Some(date.ts)
    ensures r.Some? && !date.DateText? ==> r.value == (if date.DateObject? then date.ts else date.secs)
  {
    match date
    case DateObject(ts) => Some(ts)
    case Timestamp(n) => if n < 0 then None else Some(n)
    case DateText(s) => env.strtotime(s)
  }

  const UnparseableDate: string := "The given date string was not parseable."
  const NotTimestamp: string := "The given date is not an UNIX timestamp."

  /** `setDate(date)`. */
  function SetDate(env: Env, item: Item, date: DateArg): (r: Result<Item>)
    ensures r.Failure? <==> (date.Timestamp? && date.secs < 0) || (date.DateText? && env.strtotime(date.text).None?)
    ensures r.Failure? ==> r.error == if date.DateText? then UnparseableDate else NotTimestamp
    ensures r.Success? ==>
      var tag := DateTag(item.version);
      AddedOnce(item, r.value, tag,
                Element(tag, Text(env.formatDate(ItemDateFormat(item.version), ItemTimestamp(env, date).value)), []))
  {
    match ItemTimestamp(env, date)
    case None => Failure(if date.DateText? then UnparseableDate else NotTimestamp)
    case Some(ts) =>
      var tag := DateTag(item.version);
      Success(AddElement(item, tag, Text(env.formatDate(ItemDateFormat(item.version), ts)), [], false, false))
  }

  /** `setLink(link)`: a text element in RSS; in ATOM an empty `link` with
      an `href` attribute plus an `id` derived from the link. */
  function SetLink(env: Env, item: Item, link: string): (r: Item)
    ensures r.version == item.version && r.counter == item.counter
    ensures item.version != ATOM ==> AddedOnce(item, r, "link", Element("link", Text(link), []))
    ensures item.version == ATOM ==> HasKey(r.elements, "link") && HasKey(r.elements, "id")
    ensures item.version == ATOM ==>
      r.elements == item.elements
        + (if HasKey(item.elements, "link") then [] else [("link", Element("link", Text(""), [("href", link)]))])
        + (if HasKey(item.elements, "id") then [] else [("id", Element("id", Text(Uuid(env, link, "urn:uuid:")), []))])
    ensures item.version == ATOM && HasKey(item.elements, "id") ==> Get(r.elements, "id") == Get(item.elements, "id")
    ensures item.version == ATOM && HasKey(item.elements, "link") ==> Get(r.elements, "link") == Get(item.elements, "link")
    ensures item.version == ATOM ==>
      forall k :: k != "link" && k != "id" ==> Get(r.elements, k) == Get(item.elements, k)
  {
    if item.version != ATOM then AddElement(item, "link", Text(link), [], false, false)
    else
      var linkEl := Element("link", Text(""), [("href", link)]);
      var idEl := Element("id", Text(Uuid(env, link, "urn:uuid:")), []);
      var withLink := AddElement(item, "link", linkEl.content, linkEl.attributes, false, false);
      var r := AddElement(withLink, "id", idEl.content, idEl.attributes, false, false);
      AddedKeepsOthers(item, "link", linkEl.content, linkEl.attributes);
      AddedKeepsOthers(withLink, "id", idEl.content, idEl.attributes);
      PlainAddsInOrder(item, withLink, r, "link", linkEl, "id", idEl);
      r
  }

  /** Two plain additions under different names: each name is appended
      when it was missing, in call order, and nothing else changes. */
  lemma PlainAddsInOrder(item: Item, w: Item, r: Item, n1: string, e1: Element, n2: string, e2: Element)
    requires n1 != n2
    requires AddedOnce(item, w, n1, e1) && AddedOnce(w, r, n2, e2)
    ensures r.version == item.version && r.counter == item.counter
    ensures r.elements == item.elements
      + (if HasKey(item.elements, n1) then [] else [(n1, e1)])
      + (if HasKey(item.elements, n2) then [] else [(n2, e2)])
    ensures HasKey(item.elements, n1) ==> Get(r.elements, n1) == Get(item.elements, n1)
    ensures HasKey(item.elements, n2) ==> Get(r.elements, n2) == Get(item.elements, n2)
    ensures forall k :: k != n1 && k != n2 ==> Get(r.elements, k) == Get(item.elements, k)
  {
    var tail1: seq<(string, Element)> := if HasKey(item.elements, n1) then [] else [(n1, e1)];
    assert w.elements == item.elements + tail1;
    KeysConcat(item.elements, tail1);
    assert HasKey(w.elements, n2) == HasKey(item.elements, n2);
    var tail2: seq<(string, Element)> := if HasKey(item.elements, n2) then [] else [(n2, e2)];
    assert r.elements == w.elements + tail2;
    forall k | k != n1 && k != n2
      ensures Get(r.elements, k) == Get(item.elements, k)
    {
      GetConcat(item.elements, tail1, k);
      GetConcat(w.elements, tail2, k);
      assert !HasKey(tail1, k) && !HasKey(tail2, k);
    }
    if HasKey(item.elements, n1) {
      GetConcat(w.elements, tail2, n1);
    }
    if HasKey(item.elements, n2) {
      GetConcat(item.elements, tail1, n2);
    }
    assert r.version == w.version == item.version;
  }

  /** Adding an element without overwriting leaves it present and every
      other key as it was. */
  lemma AddedKeepsOthers(item: Item, name: string, content: Content, attrs: Attrs)
    ensures var r := AddElement(item, name, content, attrs, false, false);
      HasKey(r.elements, name) && forall k :: k != name ==> Get(r.elements, k) == Get(item.elements, k)
  {
    var r := AddElement(item, name, content, attrs, false, false);
    if !HasKey(item.elements, name) {
      assert Get(r.elements, name).Some?;
      forall k | k != name ensures Get(r.elements, k) == Get(item.elements, k) {
        PutAppendKeeps(item.elements, name, Element(name, content, attrs), k);
      }
    }
  }

  function EnclosureTag(f: Format): string {
    if f == RSS2 then "enclosure" else "atom:link"
  }

  /** Attribute order: length, type, then the URL (`url` in RSS 2.0;
      `href` and `rel="enclosure"` in ATOM). */
  function EnclosureAttrs(f: Format, url: string, length: nat, mime: string): Attrs {
    [("length", NatToString(length)), ("type", mime)]
    + (if f == RSS2 then [("url", url)] else [("href", url), ("rel", "enclosure")])
  }

  /** How `addElement` stores an enclosure element `el` under `tag`. */
  ghost predicate EnclosureStored(before: Item, after: Item, tag: string, el: Element, multiple: bool) {
    after.version == before.version
    && (!HasKey(before.elements, tag) ==> after.elements == before.elements + [(tag, el)] && after.counter == before.counter)
    && (HasKey(before.elements, tag) && multiple ==>
          var key := DuplicateKey(tag, before.counter);
          Get(after.elements, key) == Some(el)
          && Get(after.elements, tag) == Get(before.elements, tag)
          && (forall k :: k != key ==> Get(after.elements, k) == Get(before.elements, k))
          && (!HasKey(before.elements, key) ==> after.elements == before.elements + [(key, el)])
          && after.counter == before.counter + 1)
    && (HasKey(before.elements, tag) && !multiple ==> after == before)
  }

  function EnclosureElement(f: Format, url: string, length: nat, mime: string): Element {
    Element(EnclosureTag(f), Text(""), EnclosureAttrs(f, url, length, mime))
  }

  /** The element-adding step of `addEnclosure`, once the arguments passed. */
  function StoreEnclosure(item: Item, url: string, length: nat, mime: string, multiple: bool): (r: Item)
    ensures EnclosureStored(item, r, EnclosureTag(item.version), EnclosureElement(item.version, url, length, mime), multiple)
  {
    var tag := EnclosureTag(item.version);
    assert tag != DuplicateKey(tag, item.counter) by {
      assert |DuplicateKey(tag, item.counter)| > |tag|;
    }
    AddElement(item, tag, Text(""), EnclosureAttrs(item.version, url, length, mime), false, multiple)
  }

  /** `addEnclosure(url, length, type, multiple)`. */
  function AddEnclosure(item: Item, url: string, length: Number, mime: string, multiple: bool): (r: Result<Item>)
    ensures r.Failure? <==>
      item.version == RSS1 || !(length.Integer? && length.n >= 0) || !AroundSeparator(mime, '/')
    ensures r.Success? ==>
      EnclosureStored(item, r.value, EnclosureTag(item.version),
                      EnclosureElement(item.version, url, length.n, mime), multiple)
  {
    if item.version == RSS1 then Failure("Media attachment is not supported in RSS1 feeds.")
    else if !(length.Integer? && length.n >= 0) then
      Failure("The length parameter must be an integer and greater or equals to zero.")
    else if !AroundSeparator(mime, '/') then Failure("type parameter must be a string and a MIME type.")
    else Success(StoreEnclosure(item, url, length.n, mime, multiple))
  }

  /** `setEnclosure(url, length, type)`: at most one enclosure per item. */
  function SetEnclosure(item: Item, url: string, length: Number, mime: string): (r: Result<Item>)
    ensures r.Failure? <==>
      item.version == RSS1 || !(length.Integer? && length.n >= 0) || !AroundSeparator(mime, '/')
    ensures r.Success? ==>
      AddedOnce(item, r.value, EnclosureTag(item.version), EnclosureElement(item.version, url, length.n, mime))
  {
    AddEnclosure(item, url, length, mime, false)
  }

  /** The RSS 2.0 author text: `email (name)` when an e-mail is given. */
  function AuthorText(name: string, email: string): (r: string)
    ensures email == "" ==> r == name
    ensures email != "" ==> StartsWith(r, email) && EndsWith(r, "(" + name + ")")
    ensures email != "" ==> |r| == |email| + |name| + 3 && r[|email|] == ' '
  {
    if email != "" then
      var r := email + " (" + name + ")";
      assert r == email + (" (" + name + ")");
      assert r[..|email|] == email;
      r
    else name
  }

  /** The ATOM person construct: `name`, then `email` if it looks like an
      address, then `uri` if given. */
  function AuthorEntries(name: string, email: string, uri: string): (r: seq<Entry>)
    ensures |r| >= 1 && r[0] == Entry("name", Leaf(name))
    ensures Entry("email", Leaf(email)) in r <==> email != "" && AroundSeparator(email, '@')
    ensures Entry("uri", Leaf(uri)) in r <==> uri != ""
    ensures forall i :: 0 <= i < |r| ==> r[i].value.Leaf?
  {
    [Entry("name", Leaf(name))]
    + (if email != "" && AroundSeparator(email, '@') then [Entry("email", Leaf(email))] else [])
    + (if uri != "" then [Entry("uri", Leaf(uri))] else [])
  }

  /** `setAuthor(name, email, uri)`. */
  function SetAuthor(item: Item, name: string, email: string, uri: string): (r: Result<Item>)
    ensures r.Failure? <==> item.version == RSS1
    ensures r.Success? && item.version == RSS2 ==>
      AddedOnce(item, r.value, "author", Element("author", Text(AuthorText(name, email)), []))
    ensures r.Success? && item.version == ATOM ==>
      AddedOnce(item, r.value, "author", Element("author", Children(AuthorEntries(name, email, uri)), []))
  {
    match item.version
    case RSS1 => Failure("The author element is not supported in RSS1 feeds.")
    case RSS2 => Success(AddElement(item, "author", Text(AuthorText(name, email)), [], false, false))
    case ATOM => Success(AddElement(item, "author", Children(AuthorEntries(name, email, uri)), [], false, false))
  }

  /** `setId(id, permaLink)`: a `guid` in RSS 2.0; in ATOM an `id` that
      replaces any earlier one. */
  function SetId(item: Item, id: string, permaLink: BoolArg): (r: Result<Item>)
    ensures r.Failure? <==> item.version == RSS1 || (item.version == RSS2 && permaLink.NotBoolean?)
    ensures r.Success? && item.version == RSS2 ==>
      AddedOnce(item, r.value, "guid",
                Element("guid", Text(id), [("isPermaLink", if permaLink.b then "true" else "false")]))
    ensures r.Success? && item.version == ATOM ==>
      Get(r.value.elements, "id") == Some(Element("id", Text(id), []))
      && (forall k :: k != "id" ==> Get(r.value.elements, k) == Get(item.elements, k))
  {
    match item.version
    case RSS2 =>
      if permaLink.NotBoolean? then Failure("The permaLink parameter must be boolean.")
      else Success(AddElement(item, "guid", Text(id), [("isPermaLink", if permaLink.b then "true" else "false")], false, false))
    case ATOM => Success(AddElement(item, "id", Text(id), [], true, false))
    case RSS1 => Failure("A unique ID is not supported in RSS1 feeds.")
  }

  /** In ATOM an explicit id wins over the one `setLink` derives, whichever
      of the two calls comes first. */
  lemma ExplicitIdWins(env: Env, item: Item, link: string, id: string, permaLink: BoolArg)
    requires item.version == ATOM
    ensures var r := SetId(SetLink(env, item, link), id, permaLink);
      r.Success? && Get(r.value.elements, "id") == Some(Element("id", Text(id), []))
    ensures var r := SetId(item, id, permaLink);
      r.Success? && Get(SetLink(env, r.value, link).elements, "id") == Some(Element("id", Text(id), []))
  {
  }
}

=== FILE: lists.dfy ===
/** The list operations PHP's array functions perform on the feed writer's
    plain (integer-indexed) arrays of strings. */
module Lists {

  predicate NoDuplicates(xs: seq<string>) {
    forall i, j :: 0 <= i < j < |xs| ==> xs[i] != xs[j]
  }

  /** Appends, in order, the elements of `xs` not already collected — the
      `if (!in_array($x, $acc)) $acc[] = $x;` loop, and `array_unique`
      (which keeps the first occurrence of every value) when `acc` is empty. */
  function AppendNew(acc: seq<string>, xs: seq<string>): (r: seq<string>)
    ensures NoDuplicates(acc) ==> NoDuplicates(r)
    ensures forall x :: x in r <==> x in acc || x in xs
    ensures |acc| <= |r| && r[..|acc|] == acc
    decreases |xs|
  {
    if xs == [] then acc
    else if xs[0] in acc then AppendNew(acc, xs[1..])
    else AppendNew(acc + [xs[0]], xs[1..])
  }

  /** PHP's `array_values(array_unique(xs))`. */
  function Unique(xs: seq<string>): (r: seq<string>)
    ensures NoDuplicates(r)
    ensures forall x :: x in r <==> x in xs
  {
    AppendNew([], xs)
  }

  /** A list that already has no duplicates passes through `Unique` intact. */
  lemma {:induction false} AppendNewDistinct(acc: seq<string>, xs: seq<string>)
    requires NoDuplicates(acc + xs)
    ensures AppendNew(acc, xs) == acc + xs
    decreases |xs|
  {
    if xs != [] {
      assert xs[0] == (acc + xs)[|acc|];
      assert xs[0] !in acc by {
        forall i | 0 <= i < |acc| ensures acc[i] != xs[0] {
          assert acc[i] == (acc + xs)[i];
        }
      }
      assert acc + xs == (acc + [xs[0]]) + xs[1..];
      AppendNewDistinct(acc + [xs[0]], xs[1..]);
    }
  }

  /** PHP's `array_values(array_diff(xs, ys))`: drops every element of `xs`
      that occurs in `ys`, keeping the order and any repetitions of the rest. */
  function Without(xs: seq<string>, ys: seq<string>): (r: seq<string>)
    ensures forall x :: x in r <==> x in xs && x !in ys
    ensures |r| <= |xs|
    decreases |xs|
  {
    if xs == [] then []
    else if xs[0] in ys then Without(xs[1..], ys)
    else [xs[0]] + Without(xs[1..], ys)
  }

  /** Removing values that are not there changes nothing. */
  lemma {:induction false} WithoutAbsent(xs: seq<string>, ys: seq<string>)
    requires forall x :: x in xs ==> x !in ys
    ensures Without(xs, ys) == xs
    decreases |xs|
  {
    if xs != [] {
      assert xs[0] in xs;
      WithoutAbsent(xs[1..], ys);
      assert xs == [xs[0]] + xs[1..];
    }
  }

  /** Deletes one value from a duplicate-free list, keeping the order of the
      rest: the `array_flip` / `unset` / `array_flip` sequence. */
  function RemoveValue(xs: seq<string>, v: string): (r: seq<string>)
    ensures forall x :: x in r <==> x in xs && x != v
    ensures NoDuplicates(xs) ==> NoDuplicates(r)
    decreases |xs|
  {
    if xs == [] then []
    else if xs[0] == v then RemoveValue(xs[1..], v)
    else
      var rest := RemoveValue(xs[1..], v);
      assert NoDuplicates(xs) ==> xs[0] !in xs[1..] && NoDuplicates(xs[1..]);
      assert forall k :: 1 <= k < |[xs[0]] + rest| ==> ([xs[0]] + rest)[k] == rest[k - 1];
      [xs[0]] + rest
  }
}

=== FILE: model.dfy ===
/** The feed writer's data: the feed format, the content tree a tag may
    hold, and attribute lists. */
module Model {

  /** `Feed::RSS1`, `Feed::RSS2` and `Feed::ATOM`. */
  datatype Format = RSS1 | RSS2 | ATOM

  /** The format constant's string value, used in the default feed title. */
  function FormatName(f: Format): string {
    match f
    case RSS1 => "RSS 1.0"
    case RSS2 => "RSS 2.0"
    case ATOM => "ATOM"
  }

  /** The value of a tag: scalar text, or a PHP array of named children. */
  datatype Content = Text(text: string) | Children(entries: seq<Entry>)

  /** One `key => value` pair of a nested content array. */
  datatype Entry = Entry(name: string, value: Child)

  /** A nested value: a string, a list whose members each repeat the
      entry's tag, or a scalar that is not a PHP string (an int, a bool,
      null), which the serializer refuses. */
  datatype Child = Leaf(text: string) | List(values: seq<Content>) | NonString

  /** `'attrName' => 'attrValue'` pairs; PHP's null and the empty array both
      stand for "no attributes" and are the empty list here. */
  type Attrs = seq<(string, string)>

  /** Content the serializer accepts: no `NonString` value anywhere. */
  predicate WellShaped(c: Content)
    decreases c
  {
    match c
    case Text(_) => true
    case Children(es) => EntriesWellShaped(es)
  }

  predicate EntriesWellShaped(es: seq<Entry>)
    decreases es
  {
    es == [] || (ChildWellShaped(es[0]) && EntriesWellShaped(es[1..]))
  }

  predicate ChildWellShaped(e: Entry)
    decreases e
  {
    match e.value
    case Leaf(_) => true
    case NonString => false
    case List(vs) => ListWellShaped(vs)
  }

  predicate ListWellShaped(vs: seq<Content>)
    decreases vs
  {
    vs == [] || (WellShaped(vs[0]) && ListWellShaped(vs[1..]))
  }
}

=== FILE: render.dfy ===
/** `Feed::generateFeed` and its private helpers: the XML declaration and
    root element with its namespace declarations, the channel metadata, the
    items, and the closing tags, concatenated in that order. */
module FeedRender {

  import opened Wrappers
  import opened Text
  import opened Model
  import opened Assoc
  import opened Lists
  import opened Runtime
  import opened Uuids
  import opened XmlNode
  import opened Cdata
  import opened FeedItem
  import opened FeedDocument

  function FeedDialect(feed: Feed): Dialect {
    Dialect(feed.version, feed.cdataTags)
  }

  // ---------------------------------------------------------------- tag names

  /** The ATOM prefix strip as written: `strncmp($key, 'atom', 4) == 0`
      followed by `substr($key, 5)`. It tests four characters but removes
      five, so it also fires on names that merely begin with `atom`. */
  function StripAtomAsWritten(key: string): string {
    if StartsWith(key, "atom") then (if |key| >= 5 then key[5..] else "") else key
  }

  /** The strip the comments describe: only the `atom:` namespace prefix
      is removed, since the ATOM namespace is the document's default. */
  function StripAtomPrefix(key: string): (r: string)
    ensures StartsWith(key, "atom:") ==> key == "atom:" + r
    ensures !StartsWith(key, "atom:") ==> r == key
  {
    if StartsWith(key, "atom:") then
      assert key == key[..5] + key[5..];
      key[5..]
    else key
  }

  /** The two agree on every name that carries the prefix and on every
      name that does not begin with `atom` at all. */
  lemma StripAgreesOutsideAtomWords(key: string)
    requires StartsWith(key, "atom:") || !StartsWith(key, "atom")
    ensures StripAtomAsWritten(key) == StripAtomPrefix(key)
  {
    if StartsWith(key, "atom:") {
      assert key[..4] == key[..5][..4];
    }
  }

  /** On every other name beginning with `atom` the written strip cuts into
      the local name: `atomic` is emitted as `c`, `atom` as an empty tag. */
  lemma StripAtomAsWrittenMangles(key: string)
    requires StartsWith(key, "atom") && !StartsWith(key, "atom:")
    ensures |StripAtomAsWritten(key)| < |key|
    ensures StripAtomPrefix(key) == key
    ensures StripAtomAsWritten("atomic") == "c" && StripAtomAsWritten("atom") == ""
  {
    assert "atomic"[..4] == "atom";
    assert "atomic"[5..] == "c";
  }

  /** The tag a channel or item element is written under: in an ATOM feed
      the strip as written, which drops the `atom:` prefix and mangles the
      other names beginning with `atom`. */
  function TagName(f: Format, key: string): (r: string)
    ensures f != ATOM ==> r == key
    ensures f == ATOM && StartsWith(key, "atom:") ==> key == "atom:" + r
    ensures f == ATOM && !StartsWith(key, "atom") ==> r == key
    ensures f == ATOM && StartsWith(key, "atom") && !StartsWith(key, "atom:") ==> |r| < |key|
  {
    if f == ATOM then
      if StartsWith(key, "atom") && !StartsWith(key, "atom:") then
        StripAtomAsWrittenMangles(key);
        StripAtomAsWritten(key)
      else
        StripAgreesOutsideAtomWords(key);
        StripAtomAsWritten(key)
    else key
  }

  // ------------------------------------------------------ namespace prefixes

  /** The keys of every item, each appended to `acc` when it is new. */
  function ItemTags(acc: seq<string>, items: seq<Item>): (r: seq<string>)
    ensures forall t :: t in r <==> t in acc || exists i :: 0 <= i < |items| && t in Keys(items[i].elements)
    decreases |items|
  {
    if items == [] then acc
    else
      var r := ItemTags(AppendNew(acc, Keys(items[0].elements)), items[1..]);
      assert forall i :: 0 <= i < |items| - 1 ==> items[1..][i] == items[i + 1];
      r
  }

  /** Every tag name the feed uses: the channel keys, then the item keys
      not seen before. */
  function Tags(feed: Feed): seq<string> {
    ItemTags(Keys(feed.channels), feed.items)
  }

  /** The prefix of each tag that has one, in order. */
  function PrefixesOf(tags: seq<string>): (r: seq<string>)
    ensures forall p :: p in r <==> exists i :: 0 <= i < |tags| && ColonPrefix(tags[i]) == Some(p)
    decreases |tags|
  {
    if tags == [] then []
    else
      var rest := PrefixesOf(tags[1..]);
      assert forall i :: 0 <= i < |tags| - 1 ==> tags[1..][i] == tags[i + 1];
      match ColonPrefix(tags[0])
      case Some(p) => [p] + rest
      case None => rest
  }

  /** A tag the feed uses: a channel key or the key of an item element. */
  predicate UsesTag(feed: Feed, t: string) {
    HasKey(feed.channels, t) || exists i :: 0 <= i < |feed.items| && HasKey(feed.items[i].elements, t)
  }

  /** `getNamespacePrefixes()`: the distinct prefixes of the tags in use. */
  function NamespacePrefixes(feed: Feed): (r: seq<string>)
    ensures NoDuplicates(r)
    ensures forall p :: p in r <==> exists t :: ColonPrefix(t) == Some(p) && UsesTag(feed, t)
  {
    var tags := Tags(feed);
    var r := Unique(PrefixesOf(tags));
    forall p ensures p in r <==> exists t :: ColonPrefix(t) == Some(p) && UsesTag(feed, t) {
      if p in r {
        var i :| 0 <= i < |tags| && ColonPrefix(tags[i]) == Some(p);
        assert UsesTag(feed, tags[i]);
      }
      if exists t :: ColonPrefix(t) == Some(p) && UsesTag(feed, t) {
        var t :| ColonPrefix(t) == Some(p) && UsesTag(feed, t);
        assert t in tags;
        var i :| 0 <= i < |tags| && tags[i] == t;
      }
    }
    r
  }

  /** The prefixes the root element must declare: RSS 1.0 adds `rdf`,
      which its fixed tags use; ATOM drops `atom`, its default namespace. */
  function NeededPrefixes(feed: Feed): (r: seq<string>)
    ensures forall p :: p in r <==>
      (p in NamespacePrefixes(feed) && !(feed.version == ATOM && p == "atom"))
      || (feed.version == RSS1 && p == "rdf")
  {
    var ps := NamespacePrefixes(feed);
    match feed.version
    case RSS2 => ps
    case RSS1 => ps + ["rdf"]
    case ATOM => RemoveValue(ps, "atom")
  }

  /** Every prefix in `ps` has a registered namespace. */
  predicate Declared(namespaces: seq<(string, string)>, ps: seq<string>) {
    forall i :: 0 <= i < |ps| ==> HasKey(namespaces, ps[i])
  }

  function UnknownPrefix(p: string): string {
    "Unknown XML namespace prefix: '" + p + "'. Use the addNamespace method to add support for this prefix."
  }

  function XmlnsKey(p: string): string {
    "xmlns:" + p
  }

  /** Different prefixes give different attribute names. */
  lemma XmlnsKeyInjective(a: string, b: string)
    requires XmlnsKey(a) == XmlnsKey(b)
    ensures a == b
  {
    assert a == XmlnsKey(a)[6..] && b == XmlnsKey(b)[6..];
  }

  /** The declaration loop of `makeHeader`: `xmlns:p` for each prefix, or
      a stop at the first prefix without a registered namespace. */
  function DeclareNamespaces(attrs: Attrs, ps: seq<string>, namespaces: seq<(string, string)>): Result<Attrs>
    decreases |ps|
  {
    if ps == [] then Success(attrs)
    else if !HasKey(namespaces, ps[0]) then Failure(UnknownPrefix(ps[0]))
    else DeclareNamespaces(Put(attrs, XmlnsKey(ps[0]), Get(namespaces, ps[0]).value), ps[1..], namespaces)
  }

  /** The loop completes exactly when every prefix is registered. */
  lemma {:induction false} DeclareSucceedsIffDeclared(attrs: Attrs, ps: seq<string>, namespaces: seq<(string, string)>)
    ensures DeclareNamespaces(attrs, ps, namespaces).Success? <==> Declared(namespaces, ps)
    decreases |ps|
  {
    if ps != [] {
      DeclaredTail(namespaces, ps);
      if HasKey(namespaces, ps[0]) {
        var next := Put(attrs, XmlnsKey(ps[0]), Get(namespaces, ps[0]).value);
        assert DeclareNamespaces(attrs, ps, namespaces) == DeclareNamespaces(next, ps[1..], namespaces);
        DeclareSucceedsIffDeclared(next, ps[1..], namespaces);
      }
    }
  }

  lemma DeclaredTail(namespaces: seq<(string, string)>, ps: seq<string>)
    requires ps != []
    ensures Declared(namespaces, ps) <==> HasKey(namespaces, ps[0]) && Declared(namespaces, ps[1..])
  {
    assert forall i :: 0 <= i < |ps| - 1 ==> ps[1..][i] == ps[i + 1];
    if HasKey(namespaces, ps[0]) && Declared(namespaces, ps[1..]) {
      forall i | 0 <= i < |ps| ensures HasKey(namespaces, ps[i]) {
        if i > 0 { assert ps[i] == ps[1..][i - 1]; }
      }
    }
  }

  /** The loop stops at the first undeclared prefix and reports it. */
  lemma {:induction false} DeclareStopsAtFirst(attrs: Attrs, ps: seq<string>, namespaces: seq<(string, string)>)
    requires DeclareNamespaces(attrs, ps, namespaces).Failure?
    ensures exists i :: 0 <= i < |ps| && !HasKey(namespaces, ps[i]) && Declared(namespaces, ps[..i])
                        && DeclareNamespaces(attrs, ps, namespaces).error == UnknownPrefix(ps[i])
    decreases |ps|
  {
    var r := DeclareNamespaces(attrs, ps, namespaces);
    if !HasKey(namespaces, ps[0]) {
      assert Declared(namespaces, ps[..0]);
      assert r.error == UnknownPrefix(ps[0]);
    } else {
      var next := Put(attrs, XmlnsKey(ps[0]), Get(namespaces, ps[0]).value);
      var rest := ps[1..];
      assert r == DeclareNamespaces(next, rest, namespaces);
      DeclareStopsAtFirst(next, rest, namespaces);
      var i :| 0 <= i < |rest| && !HasKey(namespaces, rest[i]) && Declared(namespaces, rest[..i])
               && r.error == UnknownPrefix(rest[i]);
      DeclaredCons(namespaces, ps, i);
      assert ps[i + 1] == rest[i];
      assert 0 <= i + 1 < |ps| && !HasKey(namespaces, ps[i + 1]) && Declared(namespaces, ps[..i + 1])
             && r.error == UnknownPrefix(ps[i + 1]);
    }
  }

  lemma DeclaredCons(namespaces: seq<(string, string)>, ps: seq<string>, i: nat)
    requires i < |ps| - 1 && HasKey(namespaces, ps[0]) && Declared(namespaces, ps[1..][..i])
    ensures Declared(namespaces, ps[..i + 1])
  {
    var pre := ps[..i + 1];
    forall j | 0 <= j < |pre| ensures HasKey(namespaces, pre[j]) {
      if j > 0 { assert pre[j] == ps[1..][..i][j - 1]; }
    }
  }

  /** Attributes other than the declared ones are left as they were. */
  lemma {:induction false} DeclareKeepsOthers(attrs: Attrs, ps: seq<string>, namespaces: seq<(string, string)>, k: string)
    requires DeclareNamespaces(attrs, ps, namespaces).Success?
    requires forall i :: 0 <= i < |ps| ==> k != XmlnsKey(ps[i])
    ensures Get(DeclareNamespaces(attrs, ps, namespaces).value, k) == Get(attrs, k)
    decreases |ps|
  {
    if ps != [] {
      var next := Put(attrs, XmlnsKey(ps[0]), Get(namespaces, ps[0]).value);
      assert forall i :: 0 <= i < |ps| - 1 ==> ps[1..][i] == ps[i + 1];
      DeclareKeepsOthers(next, ps[1..], namespaces, k);
    }
  }

  /** Each prefix is declared with its registered namespace. */
  lemma {:induction false} DeclareBindsPrefix(attrs: Attrs, ps: seq<string>, namespaces: seq<(string, string)>, i: nat)
    requires DeclareNamespaces(attrs, ps, namespaces).Success? && i < |ps|
    ensures Get(DeclareNamespaces(attrs, ps, namespaces).value, XmlnsKey(ps[i])) == Get(namespaces, ps[i])
    decreases |ps|, 1
  {
    var next := DeclareStep(attrs, ps, namespaces);
    var rest := ps[1..];
    if i > 0 {
      assert ps[i] == rest[i - 1];
      DeclareBindsPrefix(next, rest, namespaces, i - 1);
    } else {
      DeclareBindsFirst(attrs, ps, namespaces);
    }
  }

  /** The first prefix keeps its binding: either it is declared again later
      with the same namespace, or no later turn touches its attribute. */
  lemma {:induction false} DeclareBindsFirst(attrs: Attrs, ps: seq<string>, namespaces: seq<(string, string)>)
    requires DeclareNamespaces(attrs, ps, namespaces).Success? && ps != []
    ensures Get(DeclareNamespaces(attrs, ps, namespaces).value, XmlnsKey(ps[0])) == Get(namespaces, ps[0])
    decreases |ps|, 0
  {
    var next := DeclareStep(attrs, ps, namespaces);
    var rest := ps[1..];
    if ps[0] in rest {
      var j :| 0 <= j < |rest| && rest[j] == ps[0];
      DeclareBindsPrefix(next, rest, namespaces, j);
    } else {
      var key := XmlnsKey(ps[0]);
      forall j | 0 <= j < |rest| ensures key != XmlnsKey(rest[j]) {
        if key == XmlnsKey(rest[j]) {
          XmlnsKeyInjective(ps[0], rest[j]);
        }
      }
      DeclareKeepsOthers(next, rest, namespaces, key);
    }
  }

  /** One turn of the declaration loop, for a declared first prefix. */
  function DeclareStep(attrs: Attrs, ps: seq<string>, namespaces: seq<(string, string)>): (next: Attrs)
    requires DeclareNamespaces(attrs, ps, namespaces).Success? && ps != []
    ensures HasKey(namespaces, ps[0])
    ensures Get(next, XmlnsKey(ps[0])) == Get(namespaces, ps[0])
    ensures DeclareNamespaces(attrs, ps, namespaces) == DeclareNamespaces(next, ps[1..], namespaces)
  {
    Put(attrs, XmlnsKey(ps[0]), Get(namespaces, ps[0]).value)
  }

  // ------------------------------------------------------------------ header

  function RootTag(f: Format): string {
    match f
    case RSS2 => "rss"
    case RSS1 => "rdf:RDF"
    case ATOM => "feed"
  }

  /** The attributes the root element has before the declarations. */
  function RootBase(f: Format): Attrs {
    if f == RSS2 then [("version", "2.0")] else []
  }

  /** `$defaultNamespace`: the registered `rss1` namespace for RSS 1.0, the
      `atom` one for ATOM, nothing for RSS 2.0; an unset key reads as null. */
  function DefaultNamespace(feed: Feed): string {
    match feed.version
    case RSS2 => ""
    case RSS1 => OrEmpty(Get(feed.namespaces, "rss1"))
    case ATOM => OrEmpty(Get(feed.namespaces, "atom"))
  }

  /** The root element's attributes, or the `die` message of the first
      undeclared prefix. */
  function RootAttributes(feed: Feed): (r: Result<Attrs>)
    ensures r.Success? <==> Declared(feed.namespaces, NeededPrefixes(feed))
    ensures var ps := NeededPrefixes(feed);
      r.Failure? ==> exists i :: 0 <= i < |ps| && !HasKey(feed.namespaces, ps[i]) && r.error == UnknownPrefix(ps[i])
    ensures var ps := NeededPrefixes(feed);
      r.Success? ==> forall i :: 0 <= i < |ps| ==> Get(r.value, XmlnsKey(ps[i])) == Get(feed.namespaces, ps[i])
    ensures r.Success? ==>
      Get(r.value, "xmlns") == (if PhpEmpty(DefaultNamespace(feed)) then None else Some(DefaultNamespace(feed)))
    ensures r.Success? ==> Get(r.value, "version") == (if feed.version == RSS2 then Some("2.0") else None)
  {
    var ps := NeededPrefixes(feed);
    var base := RootBase(feed.version);
    var attempt := DeclareNamespaces(base, ps, feed.namespaces);
    DeclareSucceedsIffDeclared(base, ps, feed.namespaces);
    if attempt.Failure? then
      DeclareStopsAtFirst(base, ps, feed.namespaces);
      Failure(attempt.error)
    else
      var declared := attempt.value;
      var dns := DefaultNamespace(feed);
      DeclaredRoot(base, ps, feed.namespaces);
      assert Get(base, "xmlns") == None;
      assert Get(base, "version") == (if feed.version == RSS2 then Some("2.0") else None);
      Success(if PhpEmpty(dns) then declared else Put(declared, "xmlns", dns))
  }

  /** The facts `RootAttributes` needs about the declaration loop. */
  lemma DeclaredRoot(base: Attrs, ps: seq<string>, namespaces: seq<(string, string)>)
    requires DeclareNamespaces(base, ps, namespaces).Success?
    ensures var declared := DeclareNamespaces(base, ps, namespaces).value;
      (forall i :: 0 <= i < |ps| ==> Get(declared, XmlnsKey(ps[i])) == Get(namespaces, ps[i]))
      && Get(declared, "xmlns") == Get(base, "xmlns")
      && Get(declared, "version") == Get(base, "version")
  {
    forall i | 0 <= i < |ps|
      ensures Get(DeclareNamespaces(base, ps, namespaces).value, XmlnsKey(ps[i])) == Get(namespaces, ps[i])
    {
      DeclareBindsPrefix(base, ps, namespaces, i);
    }
    forall i | 0 <= i < |ps| ensures "xmlns" != XmlnsKey(ps[i]) && "version" != XmlnsKey(ps[i]) {
      assert |XmlnsKey(ps[i])| >= 6 && XmlnsKey(ps[i])[5] == ':';
    }
    DeclareKeepsOthers(base, ps, namespaces, "xmlns");
    DeclareKeepsOthers(base, ps, namespaces, "version");
  }

  function XmlDeclaration(encoding: string): string {
    "<?xml version=\"1.0\" encoding=\"" + encoding + "\" ?>" + EOL
  }

  /** Every node begins with its opening tag's name. */
  lemma NodeStartsWithTag(d: Dialect, tag: string, s: string, attrs: Attrs, omitEnd: bool)
    ensures StartsWith(TextNode(d, tag, s, attrs, omitEnd), "<" + tag)
  {
    var node := TextNode(d, tag, s, attrs, omitEnd);
    var open := Open(d, tag, Text(s), attrs);
    var start := StartTag(d, tag, Text(s), attrs);
    ConcatEnds("<" + tag, OpeningAttributes(d, tag, Text(s), attrs), ">");
    ConcatEnds(start, if IsCdataTag(d, tag) then OpenMarker else "", "");
    assert open == start + (if IsCdataTag(d, tag) then OpenMarker else "") + "";
    StartsWithTrans(open, start, "<" + tag);
    StartsWithTrans(node, open, "<" + tag);
  }

  /** `makeHeader()`: the XML declaration and the root start tag, written by
      `makeNode(root, '', attributes, true)`; `die` for an undeclared
      prefix. */
  function Header(feed: Feed): (r: Result<string>)
    ensures r.Success? <==> Declared(feed.namespaces, NeededPrefixes(feed))
    ensures var ps := NeededPrefixes(feed);
      r.Failure? ==> exists i :: 0 <= i < |ps| && !HasKey(feed.namespaces, ps[i]) && r.error == UnknownPrefix(ps[i])
    ensures r.Success? ==> StartsWith(r.value, XmlDeclaration(feed.encoding) + ("<" + RootTag(feed.version)))
  {
    var attrs :- RootAttributes(feed);
    var root := TextNode(FeedDialect(feed), RootTag(feed.version), "", attrs, true);
    NodeStartsWithTag(FeedDialect(feed), RootTag(feed.version), "", attrs, true);
    StartsWithAppend(XmlDeclaration(feed.encoding), root, "<" + RootTag(feed.version));
    Success(XmlDeclaration(feed.encoding) + root)
  }

  /** The root element's end tag. */
  function RootEnd(f: Format): string {
    "</" + RootTag(f) + ">"
  }

  /** `makeFooter()`: closes what the header and channels left open; for
      every format it ends with the root element's end tag, and RSS 2.0
      first closes its `channel`. */
  function Footer(f: Format): (r: string)
    ensures EndsWith(r, RootEnd(f))
    ensures f == RSS2 ==> StartsWith(r, "</channel>" + EOL)
  {
    var channelEnd := if f == RSS2 then "</channel>" + EOL else "";
    ConcatEnds(channelEnd, "", RootEnd(f));
    assert channelEnd + "" + RootEnd(f) == channelEnd + RootEnd(f);
    channelEnd + RootEnd(f)
  }

  // ---------------------------------------------------------------- channels

  /** A tag value read as a PHP string: an array reads as `Array`. */
  function ContentString(c: Content): string {
    match c
    case Text(s) => s
    case Children(_) => "Array"
  }

  /** The `rdf:about` of the RSS 1.0 channel: the value given to
      `setChannelAbout`, else `$this->channels['link']['content']`, which is
      null (empty) when the key is unset or holds a list of entities. */
  function ChannelAbout(feed: Feed): string {
    if feed.channelAbout.Some? then feed.channelAbout.value
    else
      var link: Option<ChannelEntry> := Get(feed.channels, "link");
      match link
      case Some(Single(e, _)) => ContentString(e.content)
      case _ => ""
  }

  /** `$this->channels['link']['attributes']['href']`, empty when unset. */
  function ChannelHref(feed: Feed): string {
    var link: Option<ChannelEntry> := Get(feed.channels, "link");
    match link
    case Some(Single(e, _)) => OrEmpty(Get(e.attributes, "href"))
    case _ => ""
  }

  /** The entities of a channel entry that `makeChannels` writes out: an
      entry holding a `content` key is one element, whatever was appended
      to it later; a list is written element by element. */
  function Rendered(entry: ChannelEntry): seq<Entity> {
    match entry
    case Single(e, _) => [e]
    case Multi(es) => es
  }

  predicate EntryRenderable(entry: ChannelEntry) {
    forall j :: 0 <= j < |Rendered(entry)| ==> WellShaped(Rendered(entry)[j].content)
  }

  predicate ChannelsRenderable(channels: seq<(string, ChannelEntry)>) {
    forall i :: 0 <= i < |channels| ==> EntryRenderable(channels[i].1)
  }

  /** One `makeNode(key, content, attributes)` per entity, in order. */
  function EntityNodes(d: Dialect, tag: string, es: seq<Entity>): (r: Result<string>)
    ensures r.Success? <==> forall j :: 0 <= j < |es| ==> WellShaped(es[j].content)
    decreases |es|
  {
    if es == [] then Success("")
    else
      assert forall j :: 0 <= j < |es| - 1 ==> es[1..][j] == es[j + 1];
      var first :- MakeNode(d, tag, es[0].content, es[0].attributes, false);
      var rest :- EntityNodes(d, tag, es[1..]);
      Success(first + rest)
  }

  /** The channel loop of `makeChannels`. */
  function ChannelElements(d: Dialect, channels: seq<(string, ChannelEntry)>): (r: Result<string>)
    ensures r.Success? <==> ChannelsRenderable(channels)
    decreases |channels|
  {
    if channels == [] then Success("")
    else
      assert forall i :: 0 <= i < |channels| - 1 ==> channels[1..][i] == channels[i + 1];
      var first :- EntityNodes(d, TagName(d.format, channels[0].0), Rendered(channels[0].1));
      var rest :- ChannelElements(d, channels[1..]);
      Success(first + rest)
  }

  /** The part of `makeChannels` before the channel loop. */
  function ChannelOpening(feed: Feed): string {
    match feed.version
    case RSS2 => "<channel>" + EOL
    case RSS1 => "<channel rdf:about=\"" + ChannelAbout(feed) + "\">"
    case ATOM => ""
  }

  /** `$thisItems['link']['content']` of an item, `None` when unset. */
  function ItemAbout(item: Item): Option<Content> {
    var link: Option<Element> := Get(item.elements, "link");
    match link
    case Some(el) => Some(el.content)
    case None => None
  }

  /** PHP truthiness of a tag value: an unset value, `""`, `"0"` and an
      empty array are false. */
  predicate Truthy(about: Option<Content>) {
    match about
    case None => false
    case Some(Text(s)) => !PhpEmpty(s)
    case Some(Children(es)) => es != []
  }

  /** A tag value interpolated into a string: empty when unset. */
  function AboutText(about: Option<Content>): string {
    match about
    case None => ""
    case Some(c) => ContentString(c)
  }

  /** `$thisItems['link']['content']` of an item as a string. */
  function ItemLink(item: Item): string {
    AboutText(ItemAbout(item))
  }

  /** The `rdf:li` line of one item. */
  function ListingLine(item: Item): string {
    "<rdf:li resource=\"" + ItemLink(item) + "\"/>" + EOL
  }

  /** The `rdf:Seq` entries: one line per item, in item order. */
  function RdfListing(items: seq<Item>): string
    decreases |items|
  {
    if items == [] then "" else ListingLine(items[0]) + RdfListing(items[1..])
  }

  /** Adding an item adds exactly its line at the end of the listing. */
  lemma {:induction false} RdfListingAppend(items: seq<Item>, item: Item)
    ensures RdfListing(items + [item]) == RdfListing(items) + ListingLine(item)
    decreases |items|
  {
    if items == [] {
      assert [] + [item] == [item];
    } else {
      assert (items + [item])[1..] == items[1..] + [item];
      RdfListingAppend(items[1..], item);
    }
  }

  /** The part of `makeChannels` after the channel loop: the RSS 1.0 item
      listing and channel end tag, or the ATOM feed id derived from the
      channel link's `href`. */
  function ChannelClosing(env: Env, feed: Feed): string {
    match feed.version
    case RSS2 => ""
    case RSS1 =>
      "<items>" + EOL + "<rdf:Seq>" + EOL + RdfListing(feed.items)
      + "</rdf:Seq>" + EOL + "</items>" + EOL + "</channel>" + EOL
    case ATOM => TextNode(FeedDialect(feed), "id", Uuid(env, ChannelHref(feed), "urn:uuid:"), [], false)
  }

  /** `makeChannels()`. */
  function Channels(env: Env, feed: Feed): (r: Result<string>)
    ensures r.Success? <==> ChannelsRenderable(feed.channels)
    ensures r.Success? ==> StartsWith(r.value, ChannelOpening(feed)) && EndsWith(r.value, ChannelClosing(env, feed))
  {
    var body :- ChannelElements(FeedDialect(feed), feed.channels);
    ConcatEnds(ChannelOpening(feed), body, ChannelClosing(env, feed));
    Success(ChannelOpening(feed) + body + ChannelClosing(env, feed))
  }

  /** The ATOM feed id depends on the channel link alone when the link has
      an `href`: rendering twice gives the same id. */
  lemma AtomIdStable(env1: Env, env2: Env, feed: Feed)
    requires feed.version == ATOM && ChannelHref(feed) != ""
    requires env1.md5 == env2.md5
    ensures Channels(env1, feed) == Channels(env2, feed)
  {
    UuidDeterministic(env1, env2, ChannelHref(feed), "urn:uuid:");
  }

  // ------------------------------------------------------------------- items

  const AboutError: string :=
    "link element is not set - It's required for RSS 1.0 to be used as the about attribute of the item tag."

  function ItemTag(f: Format): string {
    if f == ATOM then "entry" else "item"
  }

  /** The RSS 1.0 item start tag opens `item` and carries the `rdf:about`
      attribute. */
  lemma AboutTag(text: string)
    ensures var out := "<item rdf:about=\"" + text + "\">" + EOL;
      StartsWith(out, "<item") && EndsWith(out, ">" + EOL) && Contains(out, "rdf:about=\"" + text + "\"")
  {
    var out := "<item rdf:about=\"" + text + "\">" + EOL;
    var attr := "rdf:about=\"" + text + "\"";
    ConcatEnds("<item", " " + attr, ">" + EOL);
    assert out == "<item" + (" " + attr) + (">" + EOL);
    assert out[6..] == attr + (">" + EOL);
    assert StartsWith(out[6..], attr);
    ContainsInSuffix(out, 6, attr);
  }

  /** `startItem(about)`: RSS 1.0 needs a truthy `about`, which it writes
      as the item's `rdf:about`. */
  function StartItem(f: Format, about: Option<Content>): (r: Result<string>)
    ensures r.Failure? <==> f == RSS1 && !Truthy(about)
    ensures r.Failure? ==> r.error == AboutError
    ensures r.Success? ==> StartsWith(r.value, "<" + ItemTag(f)) && EndsWith(r.value, ">" + EOL)
    ensures r.Success? && f == RSS1 ==> Contains(r.value, "rdf:about=\"" + AboutText(about) + "\"")
  {
    match f
    case RSS2 =>
      assert StartsWith("<item>" + EOL, "<item");
      Success("<item>" + EOL)
    case RSS1 =>
      if !Truthy(about) then Failure(AboutError)
      else
        var text := AboutText(about);
        var out := "<item rdf:about=\"" + text + "\">" + EOL;
        AboutTag(text);
        Success(out)
    case ATOM =>
      assert StartsWith("<entry>" + EOL, "<entry");
      Success("<entry>" + EOL)
  }

  /** `endItem()`: closes the element `startItem` opened. */
  function EndItem(f: Format): (r: string)
    ensures r == "</" + ItemTag(f) + ">" + EOL
  {
    if f == ATOM then "</entry>" + EOL else "</item>" + EOL
  }

  /** The element loop of `makeItems`, written by each element's name. */
  function ElementNodes(d: Dialect, elements: seq<(string, Element)>): (r: Result<string>)
    ensures r.Success? <==> forall i :: 0 <= i < |elements| ==> WellShaped(elements[i].1.content)
    decreases |elements|
  {
    if elements == [] then Success("")
    else
      assert forall i :: 0 <= i < |elements| - 1 ==> elements[1..][i] == elements[i + 1];
      var el := elements[0].1;
      var first :- MakeNode(d, TagName(d.format, el.name), el.content, el.attributes, false);
      var rest :- ElementNodes(d, elements[1..]);
      Success(first + rest)
  }

  predicate ItemRenderable(f: Format, item: Item) {
    !(f == RSS1 && !Truthy(ItemAbout(item)))
    && forall i :: 0 <= i < |item.elements| ==> WellShaped(item.elements[i].1.content)
  }

  /** One item: start tag, elements, end tag. */
  function RenderItem(d: Dialect, item: Item): (r: Result<string>)
    ensures r.Success? <==> ItemRenderable(d.format, item)
    ensures r.Success? ==> StartsWith(r.value, "<" + ItemTag(d.format)) && EndsWith(r.value, EndItem(d.format))
  {
    var start :- StartItem(d.format, ItemAbout(item));
    var body :- ElementNodes(d, item.elements);
    ConcatEnds(start, body, EndItem(d.format));
    StartsWithTrans(start + body + EndItem(d.format), start, "<" + ItemTag(d.format));
    Success(start + body + EndItem(d.format))
  }

  /** An RSS 1.0 item whose `link` holds an empty array has a false
      `about`: `startItem` throws, although the array would read as
      `Array`. */
  lemma EmptyArrayLinkRefused(d: Dialect, item: Item)
    requires d.format == RSS1
    requires Get(item.elements, "link").Some? && Get(item.elements, "link").value.content == Children([])
    ensures ItemLink(item) == "Array" && !ItemRenderable(RSS1, item)
    ensures RenderItem(d, item) == Failure(AboutError)
  {
    assert !Truthy(ItemAbout(item));
  }

  /** The output of a loop whose body may throw: the pieces concatenated in
      order, or the first failure. */
  function JoinAll(rs: seq<Result<string>>): Result<string>
    decreases |rs|
  {
    if rs == [] then Success("")
    else
      var first :- rs[0];
      var rest :- JoinAll(rs[1..]);
      Success(first + rest)
  }

  lemma {:induction false} JoinAllSucceedsIff(rs: seq<Result<string>>)
    ensures JoinAll(rs).Success? <==> forall i :: 0 <= i < |rs| ==> rs[i].Success?
    decreases |rs|
  {
    if rs != [] {
      JoinAllSucceedsIff(rs[1..]);
      assert forall i :: 1 <= i < |rs| ==> rs[i] == rs[1..][i - 1];
    }
  }

  lemma {:induction false} JoinAllAppend(rs: seq<Result<string>>, r: Result<string>)
    requires JoinAll(rs).Success? && r.Success?
    ensures JoinAll(rs + [r]) == Success(JoinAll(rs).value + r.value)
    decreases |rs|
  {
    var xs := rs + [r];
    if rs == [] {
      assert xs[1..] == [];
      assert r.value + "" == "" + r.value;
    } else {
      assert xs[0] == rs[0] && xs[1..] == rs[1..] + [r];
      JoinAllAppend(rs[1..], r);
      var first, mid := rs[0].value, JoinAll(rs[1..]).value;
      assert first + (mid + r.value) == (first + mid) + r.value;
    }
  }

  function ItemResults(d: Dialect, items: seq<Item>): seq<Result<string>> {
    seq(|items|, i requires 0 <= i < |items| => RenderItem(d, items[i]))
  }

  /** `makeItems()`: the items in the order they were added; an exception
      from one item ends the render. */
  function RenderItems(d: Dialect, items: seq<Item>): Result<string> {
    JoinAll(ItemResults(d, items))
  }

  /** The items phase fails exactly when one of the items cannot be
      written. */
  lemma RenderItemsSucceedsIff(d: Dialect, items: seq<Item>)
    ensures RenderItems(d, items).Success? <==> forall i :: 0 <= i < |items| ==> RenderItem(d, items[i]).Success?
  {
    var rs := ItemResults(d, items);
    JoinAllSucceedsIff(rs);
    assert |rs| == |items|;
    forall i | 0 <= i < |items| ensures rs[i].Success? == RenderItem(d, items[i]).Success? {
      assert rs[i] == RenderItem(d, items[i]);
    }
  }

  /** An added item is written after all earlier ones. */
  lemma RenderItemsAppend(d: Dialect, items: seq<Item>, item: Item)
    requires RenderItems(d, items).Success? && RenderItem(d, item).Success?
    ensures RenderItems(d, items + [item]) == Success(RenderItems(d, items).value + RenderItem(d, item).value)
  {
    assert ItemResults(d, items + [item]) == ItemResults(d, items) + [RenderItem(d, item)];
    JoinAllAppend(ItemResults(d, items), RenderItem(d, item));
  }

  // ---------------------------------------------------------- the whole feed

  /** Everything `generateFeed` needs to produce a document. */
  predicate Renderable(feed: Feed) {
    Declared(feed.namespaces, NeededPrefixes(feed))
    && ChannelsRenderable(feed.channels)
    && forall i :: 0 <= i < |feed.items| ==> ItemRenderable(feed.version, feed.items[i])
  }

  /** `generateFeed()`: header, channels, items and footer. The first
      failing phase decides the outcome: `die` for an undeclared prefix,
      an exception for a non-string value or, in RSS 1.0, an item without
      a link. */
  function GenerateFeed(env: Env, feed: Feed): (r: Result<string>)
    ensures r.Success? <==> Renderable(feed)
    ensures var ps := NeededPrefixes(feed);
      !Declared(feed.namespaces, ps) ==>
        exists i :: 0 <= i < |ps| && !HasKey(feed.namespaces, ps[i]) && r == Failure(UnknownPrefix(ps[i]))
    ensures r.Success? ==>
      StartsWith(r.value, XmlDeclaration(feed.encoding) + ("<" + RootTag(feed.version)))
      && EndsWith(r.value, RootEnd(feed.version))
  {
    ItemsRenderIff(feed);
    var header :- Header(feed);
    var channels :- Channels(env, feed);
    var items :- RenderItems(FeedDialect(feed), feed.items);
    var out := header + (channels + items) + Footer(feed.version);
    ConcatEnds(header, channels + items, Footer(feed.version));
    StartsWithTrans(out, header, XmlDeclaration(feed.encoding) + ("<" + RootTag(feed.version)));
    EndsWithTrans(out, Footer(feed.version), RootEnd(feed.version));
    Success(out)
  }

  /** Such an item stops the whole RSS 1.0 document. */
  lemma EmptyArrayLinkStopsFeed(env: Env, feed: Feed, i: nat)
    requires feed.version == RSS1 && i < |feed.items|
    requires Get(feed.items[i].elements, "link").Some? && Get(feed.items[i].elements, "link").value.content == Children([])
    ensures GenerateFeed(env, feed).Failure?
  {
    EmptyArrayLinkRefused(FeedDialect(feed), feed.items[i]);
  }

  lemma ItemsRenderIff(feed: Feed)
    ensures RenderItems(FeedDialect(feed), feed.items).Success?
      <==> forall i :: 0 <= i < |feed.items| ==> ItemRenderable(feed.version, feed.items[i])
  {
    var d := FeedDialect(feed);
    RenderItemsSucceedsIff(d, feed.items);
    assert forall i :: 0 <= i < |feed.items| ==>
      (RenderItem(d, feed.items[i]).Success? <==> ItemRenderable(feed.version, feed.items[i]));
  }

  /** A prefix in use without a registered namespace stops the render
      (unless it is the ATOM default prefix in an ATOM feed). */
  lemma UndeclaredPrefixFails(env: Env, feed: Feed, t: string, p: string)
    requires UsesTag(feed, t) && ColonPrefix(t) == Some(p)
    requires !HasKey(feed.namespaces, p)
    requires !(feed.version == ATOM && p == "atom")
    ensures GenerateFeed(env, feed).Failure?
  {
    assert p in NamespacePrefixes(feed);
    var ps := NeededPrefixes(feed);
    assert p in ps;
    var i :| 0 <= i < |ps| && ps[i] == p;
  }

  /** A freshly constructed feed of any format renders. */
  lemma FreshFeedRenders(env: Env, v: Format)
    ensures GenerateFeed(env, NewFeed(v)).Success?
  {
    var feed := NewFeed(v);
    FreshFeedDeclared(feed);
    FreshFeedChannels(feed.channels, FormatName(v) + " Feed", DefaultLink);
    assert Renderable(feed);
  }

  /** A fresh feed uses no prefixed tag, so only RSS 1.0's `rdf` needs a
      namespace, and that one is registered. */
  lemma FreshFeedDeclared(feed: Feed)
    requires Keys(feed.channels) == ["title", "link"] && feed.items == []
    requires Keys(feed.namespaces) == ["content", "wfw", "atom", "rdf", "rss1", "dc", "sy"]
    ensures Declared(feed.namespaces, NeededPrefixes(feed))
  {
    FreshFeedNoPrefixes(feed);
    var ps := NeededPrefixes(feed);
    match feed.version
    case RSS2 =>
      assert ps == [];
    case RSS1 =>
      assert ps == [] + ["rdf"];
      assert Keys(feed.namespaces)[3] == "rdf";
    case ATOM =>
      assert ps == RemoveValue([], "atom");
  }

  lemma FreshFeedNoPrefixes(feed: Feed)
    requires Keys(feed.channels) == ["title", "link"] && feed.items == []
    ensures NamespacePrefixes(feed) == []
  {
    assert CountChar("title", ':') == 0 && CountChar("link", ':') == 0;
    ColonPrefixShape("title");
    ColonPrefixShape("link");
    forall t | UsesTag(feed, t) ensures ColonPrefix(t).None? {
      assert t in Keys(feed.channels);
    }
  }

  /** The default title and link are plain text. */
  lemma FreshFeedChannels(c: seq<(string, ChannelEntry)>, title: string, link: string)
    requires Keys(c) == ["title", "link"]
    requires Get(c, "title") == Some(Single(Entity(Text(title), []), []))
    requires Get(c, "link") == Some(Single(Entity(Text(link), []), []))
    ensures ChannelsRenderable(c)
  {
    assert c[0].0 == Keys(c)[0] && c[1].0 == Keys(c)[1];
    assert IndexOf(c, "title") == Some(0);
    assert IndexOf(c, "link") == Some(1);
    assert EntryRenderable(c[0].1) && EntryRenderable(c[1].1);
  }

  /** The channel loop reads only the keys and the rendered entities. */
  lemma {:induction false} ChannelElementsSeeRenderedOnly(d: Dialect, c1: seq<(string, ChannelEntry)>, c2: seq<(string, ChannelEntry)>)
    requires |c1| == |c2|
    requires forall j :: 0 <= j < |c1| ==> c1[j].0 == c2[j].0 && Rendered(c1[j].1) == Rendered(c2[j].1)
    ensures ChannelElements(d, c1) == ChannelElements(d, c2)
    decreases |c1|
  {
    if c1 != [] {
      ChannelElementsSeeRenderedOnly(d, c1[1..], c2[1..]);
    }
  }

  /** Replacing an entry by one that renders the same keeps every
      position's key and rendered entities. */
  lemma PutSameRendering(c: seq<(string, ChannelEntry)>, name: string, entry: ChannelEntry)
    requires Get(c, name).Some? && Rendered(Get(c, name).value) == Rendered(entry)
    ensures var c2 := Put(c, name, entry);
      |c2| == |c| && forall j :: 0 <= j < |c| ==> c2[j].0 == c[j].0 && Rendered(c2[j].1) == Rendered(c[j].1)
  {
    var i := IndexOf(c, name).value;
    assert Put(c, name, entry) == c[i := (name, entry)];
  }

  /** The header reads the channels only through their keys. */
  lemma HeaderSeesKeysOnly(f1: Feed, f2: Feed)
    requires f1 == f2.(channels := f1.channels) && Keys(f1.channels) == Keys(f2.channels)
    ensures Header(f1) == Header(f2)
  {
    assert Tags(f1) == Tags(f2);
    assert NamespacePrefixes(f1) == NamespacePrefixes(f2);
    assert NeededPrefixes(f1) == NeededPrefixes(f2);
    assert DefaultNamespace(f1) == DefaultNamespace(f2);
    assert RootAttributes(f1) == RootAttributes(f2);
  }

  /** `makeChannels` reads the keys, the rendered entities and the link. */
  lemma ChannelsSeeRenderedOnly(env: Env, f1: Feed, f2: Feed)
    requires f1 == f2.(channels := f1.channels)
    requires |f1.channels| == |f2.channels|
    requires forall j :: 0 <= j < |f1.channels| ==>
      f1.channels[j].0 == f2.channels[j].0 && Rendered(f1.channels[j].1) == Rendered(f2.channels[j].1)
    requires ChannelAbout(f1) == ChannelAbout(f2) && ChannelHref(f1) == ChannelHref(f2)
    ensures Channels(env, f1) == Channels(env, f2)
  {
    ChannelElementsSeeRenderedOnly(FeedDialect(f1), f1.channels, f2.channels);
    assert ChannelOpening(f1) == ChannelOpening(f2);
    assert ChannelClosing(env, f1) == ChannelClosing(env, f2);
  }

  /** An entity appended to a channel element that was set without
      `multiple` is stored but never written: the rendered feed does not
      change. */
  lemma AppendedToSingleNotRendered(env: Env, feed: Feed, name: string, content: Content, attrs: Attrs)
    requires Get(feed.channels, name).Some? && Get(feed.channels, name).value.Single?
    ensures GenerateFeed(env, SetChannelElement(feed, name, content, attrs, true)) == GenerateFeed(env, feed)
  {
    var old_ := Get(feed.channels, name).value;
    var entry := Single(old_.entity, old_.unrendered + [Entity(content, attrs)]);
    var after := feed.(channels := Put(feed.channels, name, entry));
    AppendToSingleIsPut(feed, name, content, attrs);
    PutSameRendering(feed.channels, name, entry);
    HeaderSeesKeysOnly(after, feed);
    LinkReadsSame(after, feed, name, entry);
    ChannelsSeeRenderedOnly(env, after, feed);
    GenerateFeedSeesPhases(env, after, feed);
  }

  lemma AppendToSingleIsPut(feed: Feed, name: string, content: Content, attrs: Attrs)
    requires Get(feed.channels, name).Some? && Get(feed.channels, name).value.Single?
    ensures var old_ := Get(feed.channels, name).value;
      SetChannelElement(feed, name, content, attrs, true)
        == feed.(channels := Put(feed.channels, name, Single(old_.entity, old_.unrendered + [Entity(content, attrs)])))
  {
  }

  /** The document is the four phases' output; nothing else is read. */
  lemma GenerateFeedSeesPhases(env: Env, f1: Feed, f2: Feed)
    requires Header(f1) == Header(f2) && Channels(env, f1) == Channels(env, f2)
    requires f1.version == f2.version && f1.items == f2.items && f1.cdataTags == f2.cdataTags
    ensures GenerateFeed(env, f1) == GenerateFeed(env, f2)
  {
    assert FeedDialect(f1) == FeedDialect(f2);
  }

  /** The `link` channel entry is read the same after the append. */
  lemma LinkReadsSame(after: Feed, feed: Feed, name: string, entry: ChannelEntry)
    requires Get(feed.channels, name).Some? && Get(feed.channels, name).value.Single?
    requires entry.Single? && entry.entity == Get(feed.channels, name).value.entity
    requires after == feed.(channels := Put(feed.channels, name, entry))
    ensures ChannelAbout(after) == ChannelAbout(feed) && ChannelHref(after) == ChannelHref(feed)
  {
  }
}

=== FILE: runtime.dfy ===
/** The PHP library calls the feed writer relies on but whose internals the
    model does not describe. Each becomes a field of `Env`, a value the
    caller of the model supplies: the MD5 digest, the fresh value
    `uniqid(rand())` draws, date formatting and `strtotime` parsing. */
module Runtime {

  import opened Wrappers

  predicate IsLowerHex(c: char) {
    ('0' <= c <= '9') || ('a' <= c <= 'f')
  }

  /** What `md5()` returns: 32 lower-case hexadecimal digits. */
  predicate IsHexDigest(s: string) {
    |s| == 32 && forall i :: 0 <= i < |s| ==> IsLowerHex(s[i])
  }

  type Digest = s: string | IsHexDigest(s) witness "00000000000000000000000000000000"

  /** `DATE_ATOM`, `DATE_RSS` and `"Y-m-d"`. */
  datatype DateFormat = AtomDate | RssDate | DayDate

  datatype Env = Env(
    md5: string -> Digest,
    uniqueId: string,                        // the value `uniqid(rand())` would produce
    formatDate: (DateFormat, int) -> string, // `date(format, timestamp)`
    strtotime: string -> Option<int>         // `None` where PHP returns false
  )
}

=== FILE: text.dfy ===
/** String helpers shared by the serializer and the feed state: substring
    search, PHP's `str_replace`, `explode`, `empty()`, the decimal rendering
    of integers and the unanchored regular expressions the feed writer uses
    for argument validation. Strings are sequences of Unicode code points. */
module Text {

  import opened Wrappers

  /** PHP_EOL on the platforms the feed writer targets. */
  const EOL: string := "\n"

  predicate StartsWith(s: string, p: string) {
    |p| <= |s| && s[..|p|] == p
  }

  predicate EndsWith(s: string, p: string) {
    |p| <= |s| && s[|s| - |p|..] == p
  }

  /** `p` occurs somewhere in `s`. */
  predicate Contains(s: string, p: string)
    decreases |s|
  {
    StartsWith(s, p) || (|s| > 0 && Contains(s[1..], p))
  }

  lemma {:induction false} ContainsNeedsRoom(s: string, p: string)
    requires Contains(s, p)
    ensures |p| <= |s|
    decreases |s|
  {
    if !StartsWith(s, p) {
      ContainsNeedsRoom(s[1..], p);
    }
  }

  /** An occurrence in a suffix is an occurrence in the whole string. */
  lemma {:induction false} ContainsInSuffix(s: string, k: nat, p: string)
    requires k <= |s|
    requires Contains(s[k..], p)
    ensures Contains(s, p)
    decreases k
  {
    if k > 0 {
      assert s[1..][k - 1..] == s[k..];
      ContainsInSuffix(s[1..], k - 1, p);
    }
  }

  /** A prefix none of whose characters can start `p` contributes no
      occurrence of `p`, not even one that straddles into `b`. */
  lemma {:induction false} ContainsSkip(a: string, b: string, p: string)
    requires |p| > 0
    requires forall k :: 0 <= k < |a| ==> a[k] != p[0]
    requires Contains(a + b, p)
    ensures Contains(b, p)
    decreases |a|
  {
    if a != [] {
      assert (a + b)[0] == a[0];
      assert !StartsWith(a + b, p);
      assert (a + b)[1..] == a[1..] + b;
      ContainsSkip(a[1..], b, p);
    } else {
      assert a + b == b;
    }
  }

  /** PHP's `str_replace(pat, rep, s)` for a single non-empty needle: a
      left-to-right scan that replaces non-overlapping occurrences. */
  function ReplaceAll(s: string, pat: string, rep: string): string
    requires |pat| > 0
    decreases |s|
  {
    if |s| < |pat| then s
    else if s[..|pat|] == pat then rep + ReplaceAll(s[|pat|..], pat, rep)
    else [s[0]] + ReplaceAll(s[1..], pat, rep)
  }

  /** Replacing a needle that does not occur leaves the text unchanged. */
  lemma {:induction false} ReplaceAbsent(s: string, pat: string, rep: string)
    requires |pat| > 0
    requires !Contains(s, pat)
    ensures ReplaceAll(s, pat, rep) == s
    decreases |s|
  {
    if |s| >= |pat| {
      assert !StartsWith(s, pat);
      ReplaceAbsent(s[1..], pat, rep);
    }
  }

  /** PHP's `empty()` applied to a string. */
  predicate PhpEmpty(s: string) {
    s == "" || s == "0"
  }

  /** PHP's `explode(sep, s)` for a one-character separator. */
  function Explode(s: string, sep: char): (parts: seq<string>)
    ensures |parts| >= 1
    decreases |s|
  {
    if s == [] then [[]]
    else
      var rest := Explode(s[1..], sep);
      if s[0] == sep then [[]] + rest
      else [[s[0]] + rest[0]] + rest[1..]
  }

  /** PHP's `implode(sep, parts)`. */
  function Implode(parts: seq<string>, sep: char): string
    requires |parts| >= 1
    decreases |parts|
  {
    if |parts| == 1 then parts[0] else parts[0] + [sep] + Implode(parts[1..], sep)
  }

  function CountChar(s: string, c: char): nat
    decreases |s|
  {
    if s == [] then 0 else (if s[0] == c then 1 else 0) + CountChar(s[1..], c)
  }

  /** `explode` splits at every separator: the pieces are separator-free,
      there is one more piece than separators, and gluing them back together
      gives the original string. */
  lemma ExplodeImplode(s: string, sep: char)
    ensures Implode(Explode(s, sep), sep) == s
    ensures |Explode(s, sep)| == CountChar(s, sep) + 1
    ensures forall i, k :: 0 <= i < |Explode(s, sep)| && 0 <= k < |Explode(s, sep)[i]| ==> Explode(s, sep)[i][k] != sep
  {
    ImplodeOfExplode(s, sep);
    ExplodeCount(s, sep);
    ExplodePiecesFree(s, sep);
  }

  lemma {:induction false} ImplodeOfExplode(s: string, sep: char)
    ensures Implode(Explode(s, sep), sep) == s
    decreases |s|
  {
    if s != [] {
      var rest := Explode(s[1..], sep);
      ImplodeOfExplode(s[1..], sep);
      var parts := Explode(s, sep);
      if s[0] == sep {
        assert parts == [[]] + rest;
        assert parts[1..] == rest;
        assert s == [] + [sep] + s[1..];
      } else {
        assert parts == [[s[0]] + rest[0]] + rest[1..];
        if |rest| == 1 {
          assert Implode(parts, sep) == [s[0]] + rest[0];
        } else {
          assert parts[1..] == rest[1..];
          assert Implode(rest, sep) == rest[0] + [sep] + Implode(rest[1..], sep);
          assert Implode(parts, sep) == [s[0]] + rest[0] + [sep] + Implode(rest[1..], sep);
        }
      }
    }
  }

  lemma {:induction false} ExplodeCount(s: string, sep: char)
    ensures |Explode(s, sep)| == CountChar(s, sep) + 1
    decreases |s|
  {
    if s != [] {
      ExplodeCount(s[1..], sep);
    }
  }

  lemma {:induction false} ExplodePiecesFree(s: string, sep: char)
    ensures forall i, k :: 0 <= i < |Explode(s, sep)| && 0 <= k < |Explode(s, sep)[i]| ==> Explode(s, sep)[i][k] != sep
    decreases |s|
  {
    if s != [] {
      var rest := Explode(s[1..], sep);
      ExplodePiecesFree(s[1..], sep);
      var parts := Explode(s, sep);
      if s[0] == sep {
        assert parts == [[]] + rest;
        forall i, k | 0 <= i < |parts| && 0 <= k < |parts[i]|
          ensures parts[i][k] != sep
        {
          assert parts[i] == rest[i - 1];
        }
      } else {
        assert parts == [[s[0]] + rest[0]] + rest[1..];
        forall i, k | 0 <= i < |parts| && 0 <= k < |parts[i]|
          ensures parts[i][k] != sep
        {
          if i == 0 && k > 0 {
            assert parts[0][k] == rest[0][k - 1];
          } else if i > 0 {
            assert parts[i] == rest[i];
          }
        }
      }
    }
  }

  /** The namespace prefix the feed writer reads off a tag name:
      `explode(':', tag)` must yield exactly two pieces, and the prefix is
      the first one. */
  function ColonPrefix(tag: string): (r: Option<string>)
  {
    var parts := Explode(tag, ':');
    if |parts| == 2 then Some(parts[0]) else None
  }

  /** A tag yields a prefix exactly when it has one colon, and the prefix is
      the colon-free text before it. */
  lemma ColonPrefixShape(tag: string)
    ensures ColonPrefix(tag).Some? <==> CountChar(tag, ':') == 1
    ensures ColonPrefix(tag).Some? ==>
      exists local :: tag == ColonPrefix(tag).value + ":" + local
                      && ':' !in ColonPrefix(tag).value && ':' !in local
  {
    ExplodeImplode(tag, ':');
    var parts := Explode(tag, ':');
    if |parts| == 2 {
      assert Implode(parts, ':') == parts[0] + [':'] + parts[1];
      assert forall k :: 0 <= k < |parts[0]| ==> parts[0][k] != ':';
      assert forall k :: 0 <= k < |parts[1]| ==> parts[1][k] != ':';
      assert tag == parts[0] + ":" + parts[1];
    }
  }

  /** The unanchored pattern `.+X.+`: some occurrence of `sep` has a
      non-newline character on each side (PCRE's `.` excludes only the
      newline). Used for `.+/.+` (MIME types) and `.+@.+` (e-mail). */
  predicate AroundSeparator(s: string, sep: char) {
    exists i :: 0 < i < |s| - 1 && s[i] == sep && s[i - 1] != '\n' && s[i + 1] != '\n'
  }

  predicate IsAsciiLetter(c: char) {
    ('A' <= c <= 'Z') || ('a' <= c <= 'z')
  }

  /** The unanchored pattern `[A-Za-z]{1,8}(-[A-Za-z0-9]{1,8})*` matches
      as soon as the text holds a single ASCII letter. */
  predicate HasAsciiLetter(s: string) {
    exists i :: 0 <= i < |s| && IsAsciiLetter(s[i])
  }

  function DigitChar(d: nat): char
    requires d < 10
  {
    ('0' as int + d) as char
  }

  /** Decimal rendering of a non-negative integer, as PHP's string cast. */
  function NatToString(n: nat): (r: string)
    ensures |r| >= 1
    ensures forall i :: 0 <= i < |r| ==> '0' <= r[i] <= '9'
    decreases n
  {
    if n < 10 then [DigitChar(n)] else NatToString(n / 10) + [DigitChar(n % 10)]
  }

  function ParseNat(s: string): nat
    requires forall i :: 0 <= i < |s| ==> '0' <= s[i] <= '9'
    decreases |s|
  {
    if s == [] then 0 else 10 * ParseNat(s[..|s| - 1]) + ((s[|s| - 1] as int - '0' as int) as nat)
  }

  /** The decimal text of a length attribute reads back as the same number. */
  lemma {:induction false} NatToStringRoundTrip(n: nat)
    ensures ParseNat(NatToString(n)) == n
    decreases n
  {
    var s := NatToString(n);
    if n >= 10 {
      NatToStringRoundTrip(n / 10);
      assert s == NatToString(n / 10) + [DigitChar(n % 10)];
      assert s[..|s| - 1] == NatToString(n / 10);
      assert s[|s| - 1] as int - '0' as int == n % 10;
    } else {
      assert s == [DigitChar(n)];
    }
  }

  /** A three-part concatenation starts with its first part and ends with
      its last. */
  lemma ConcatEnds(a: string, b: string, c: string)
    ensures StartsWith(a + b + c, a)
    ensures EndsWith(a + b + c, c)
  {
    assert (a + b + c)[..|a|] == a;
    assert (a + b + c)[|a + b|..] == c;
  }

  /** Text inserted before the final line break of `pre + (c + EOL)`. */
  lemma InsertBeforeLastLine(pre: string, c: string, none: string, e: string)
    requires none == ""
    ensures var w := pre + (c + none + EOL); pre + (c + e + EOL) == w[..|w| - 1] + e + EOL
  {
    var w := pre + (c + none + EOL);
    assert w == (pre + c) + EOL;
    assert w[..|w| - 1] == pre + c;
  }

  /** A known beginning of `b` stays known behind a common prefix. */
  lemma StartsWithAppend(a: string, b: string, c: string)
    requires StartsWith(b, c)
    ensures StartsWith(a + b, a + c)
  {
    assert (a + b)[..|a + c|] == a + b[..|c|];
  }

  lemma StartsWithTrans(s: string, p: string, q: string)
    requires StartsWith(s, p) && StartsWith(p, q)
    ensures StartsWith(s, q)
  {
    assert s[..|q|] == s[..|p|][..|q|];
  }

  lemma EndsWithTrans(s: string, p: string, q: string)
    requires EndsWith(s, p) && EndsWith(p, q)
    ensures EndsWith(s, q)
  {
    assert s[|s| - |q|..] == s[|s| - |p|..][|p| - |q|..];
  }
}

=== FILE: uuid.dfy ===
/** `Feed::uuid`: an MD5 digest laid out in the 8-4-4-4-12 textual form of
    section 3 of RFC 4122, behind a caller-chosen prefix. */
module Uuids {

  import opened Runtime

  /** The string that is hashed: the key, or a fresh unique value when the
      key is loosely equal to PHP's null (that is, empty). */
  function UuidSeed(env: Env, key: string): string {
    if key == "" then env.uniqueId else key
  }

  /** Number of hyphens the layout inserts before digest position `k`. */
  function HyphensBefore(k: nat): nat {
    (if k >= 8 then 1 else 0) + (if k >= 12 then 1 else 0)
    + (if k >= 16 then 1 else 0) + (if k >= 20 then 1 else 0)
  }

  /** Reads the 32 digest characters back out of an 8-4-4-4-12 layout. */
  function DigestOf(u: string): string
    requires |u| == 36
  {
    u[0..8] + u[9..13] + u[14..18] + u[19..23] + u[24..36]
  }

  /** The 8-4-4-4-12 layout of a digest: hyphens at positions 8, 13, 18
      and 23, the digest characters in order everywhere else. */
  function Layout(chars: Digest): (u: string)
    ensures |u| == 36
    ensures forall i :: 0 <= i < 36 ==> (u[i] == '-' <==> i in {8, 13, 18, 23})
    ensures forall k :: 0 <= k < 32 ==> u[k + HyphensBefore(k)] == chars[k]
    ensures DigestOf(u) == chars
  {
    var u := chars[0..8] + "-" + chars[8..12] + "-" + chars[12..16] + "-"
             + chars[16..20] + "-" + chars[20..32];
    LayoutPositions(chars, u);
    LayoutDigest(chars, u);
    u
  }

  lemma LayoutPositions(chars: Digest, u: string)
    requires u == chars[0..8] + "-" + chars[8..12] + "-" + chars[12..16] + "-"
                  + chars[16..20] + "-" + chars[20..32]
    ensures |u| == 36
    ensures forall k :: 0 <= k < 32 ==> u[k + HyphensBefore(k)] == chars[k]
    ensures forall i :: 0 <= i < 36 ==> (u[i] == '-' <==> i in {8, 13, 18, 23})
  {
    forall k | 0 <= k < 32 ensures u[k + HyphensBefore(k)] == chars[k] {
      if k < 8 { assert u[k] == chars[0..8][k]; }
      else if k < 12 { assert u[k + 1] == chars[8..12][k - 8]; }
      else if k < 16 { assert u[k + 2] == chars[12..16][k - 12]; }
      else if k < 20 { assert u[k + 3] == chars[16..20][k - 16]; }
      else { assert u[k + 4] == chars[20..32][k - 20]; }
    }
    forall i | 0 <= i < 36 ensures u[i] == '-' <==> i in {8, 13, 18, 23} {
      if i !in {8, 13, 18, 23} {
        var k := if i < 8 then i else if i < 13 then i - 1 else if i < 18 then i - 2 else if i < 23 then i - 3 else i - 4;
        assert k + HyphensBefore(k) == i;
        assert IsLowerHex(chars[k]);
      }
    }
  }

  lemma LayoutDigest(chars: Digest, u: string)
    requires |u| == 36
    requires forall k :: 0 <= k < 32 ==> u[k + HyphensBefore(k)] == chars[k]
    ensures DigestOf(u) == chars
  {
    var d := DigestOf(u);
    forall k | 0 <= k < 32 ensures d[k] == chars[k] {
      assert u[k + HyphensBefore(k)] == chars[k];
      if k < 8 { assert d[k] == u[k]; }
      else if k < 12 { assert d[k] == u[k + 1]; }
      else if k < 16 { assert d[k] == u[k + 2]; }
      else if k < 20 { assert d[k] == u[k + 3]; }
      else { assert d[k] == u[k + 4]; }
    }
  }

  function Uuid(env: Env, key: string, prefix: string): (r: string)
    ensures |r| == |prefix| + 36
    ensures r[..|prefix|] == prefix
    ensures forall i :: |prefix| <= i < |r| ==>
              (r[i] == '-' <==> i - |prefix| in {8, 13, 18, 23})
    ensures forall k :: 0 <= k < 32 ==>
              r[|prefix| + k + HyphensBefore(k)] == env.md5(UuidSeed(env, key))[k]
    ensures DigestOf(r[|prefix|..]) == env.md5(UuidSeed(env, key))
  {
    var u := Layout(env.md5(UuidSeed(env, key)));
    var r := prefix + u;
    assert r[|prefix|..] == u;
    assert forall i :: |prefix| <= i < |r| ==> r[i] == u[i - |prefix|];
    r
  }

  /** A non-empty key determines the identifier: the random fallback value
      plays no part, so repeated renders give the same id. */
  lemma UuidDeterministic(env1: Env, env2: Env, key: string, prefix: string)
    requires key != ""
    requires env1.md5 == env2.md5
    ensures Uuid(env1, key, prefix) == Uuid(env2, key, prefix)
  {
  }
}

=== FILE: wrappers.dfy ===
/** Failure-compatible result types used in place of PHP's `die(...)` and
    `throw`: every fatal branch of the feed writer becomes a `Failure`
    carrying the message the PHP code would have printed or thrown. */
module Wrappers {

  datatype Option<+T> = None | Some(value: T)

  datatype Result<+T> = Success(value: T) | Failure(error: string) {

    predicate IsFailure() {
      Failure?
    }

    function PropagateFailure<U>(): Result<U>
      requires Failure?
    {
      Failure(error)
    }

    function Extract(): T
      requires Success?
    {
      value
    }
  }
}

=== FILE: xmlchars.dfy ===
/** `Feed::filterInvalidXMLChars`: every maximal run of code points outside
    the `Char` production of section 2.2 of XML 1.0 is replaced by one copy
    of a replacement string, read as `preg_replace` reads it (with its
    back-references expanded), and an empty result gives back the input
    unfiltered. Dafny's `char` is a Unicode scalar value, so the
    model works on code points; the byte-oriented retry for malformed UTF-8
    is not part of this model. */
module XmlChars {

  import opened Wrappers

  /** The `Char` production of section 2.2 of XML 1.0. */
  predicate IsXmlChar(c: char) {
    var n := c as int;
    n == 0x9 || n == 0xA || n == 0xD
    || (0x20 <= n <= 0xD7FF)
    || (0xE000 <= n <= 0xFFFD)
    || (0x10000 <= n <= 0x10FFFF)
  }

  predicate AllXmlChars(s: string) {
    forall i :: 0 <= i < |s| ==> IsXmlChar(s[i])
  }

  /** Drops the run of illegal code points at the front of `s`. */
  function SkipInvalid(s: string): (r: string)
    ensures |r| <= |s|
    ensures r == s[|s| - |r|..]
    ensures r == [] || IsXmlChar(r[0])
    decreases |s|
  {
    if s == [] || IsXmlChar(s[0]) then s else SkipInvalid(s[1..])
  }

  /** The run of illegal code points at the front of `s`: the text one
      match of the pattern covers. */
  function InvalidRun(s: string): (r: string)
    ensures |r| <= |s|
    ensures r == [] <==> s == [] || IsXmlChar(s[0])
    ensures forall i :: 0 <= i < |r| ==> !IsXmlChar(r[i])
    decreases |s|
  {
    if s == [] || IsXmlChar(s[0]) then [] else [s[0]] + InvalidRun(s[1..])
  }

  /** One part of a `preg_replace` replacement string once its
      back-references are recognised: a literal code point, or a reference
      to a capture group (group 0 is the whole match). */
  datatype Piece = Literal(c: char) | Group(n: nat)

  /** The code point at `i`, or NUL past the end: PHP's scan of the
      replacement string reads the string's terminating NUL byte. */
  function CharAt(s: string, i: nat): char {
    if i < |s| then s[i] else '\0'
  }

  predicate IsDigit(c: char) {
    '0' <= c <= '9'
  }

  function DigitValue(c: char): nat
    requires IsDigit(c)
  {
    c as int - '0' as int
  }

  /** A back-reference at the front of `rep` -- `\n`, `$n` or `${n}` with
      one or two decimal digits -- as its group number and its length. */
  function BackReference(rep: string): (r: Option<(nat, nat)>)
    requires rep != [] && (rep[0] == '\\' || rep[0] == '$')
    ensures r.Some? ==> r.value.0 < 100 && 2 <= r.value.1 <= |rep|
    ensures r.Some? ==> IsDigit(rep[1]) || (rep[0] == '$' && rep[1] == '{' && rep[r.value.1 - 1] == '}')
  {
    var brace := rep[0] == '$' && CharAt(rep, 1) == '{';
    var j := if brace then 2 else 1;
    if !IsDigit(CharAt(rep, j)) then None
    else
      var two := IsDigit(CharAt(rep, j + 1));
      var n := if two then 10 * DigitValue(CharAt(rep, j)) + DigitValue(CharAt(rep, j + 1))
               else DigitValue(CharAt(rep, j));
      var k := if two then j + 2 else j + 1;
      if !brace then Some((n, k))
      else if CharAt(rep, k) == '}' then Some((n, k + 1))
      else None
  }

  /** How `preg_replace` reads a replacement string: a back-reference
      becomes a group reference, a backslash before `\` or `$` makes that
      character literal, and everything else is literal. */
  function Pieces(rep: string): (ps: seq<Piece>)
    ensures |ps| <= |rep|
    ensures forall i :: 0 <= i < |ps| && ps[i].Literal? ==> ps[i].c in rep
    decreases |rep|
  {
    if rep == [] then []
    else if rep[0] == '\\' || rep[0] == '$' then
      match BackReference(rep)
      case Some((n, k)) => [Group(n)] + Pieces(rep[k..])
      case None =>
        if rep[0] == '\\' && |rep| > 1 && (rep[1] == '\\' || rep[1] == '$') then
          [Literal(rep[1])] + Pieces(rep[2..])
        else
          [Literal(rep[0])] + Pieces(rep[1..])
    else [Literal(rep[0])] + Pieces(rep[1..])
  }

  /** The text one piece stands for when the pattern matched `run`. The
      filter's pattern has no capture group, so a reference to any group
      but 0 stands for nothing. */
  function PieceText(p: Piece, run: string): string {
    match p
    case Literal(c) => [c]
    case Group(n) => if n == 0 then run else []
  }

  function Instantiate(ps: seq<Piece>, run: string): string
    decreases |ps|
  {
    if ps == [] then [] else PieceText(ps[0], run) + Instantiate(ps[1..], run)
  }

  /** The text that replaces the match `run`. */
  function Expand(replacement: string, run: string): string {
    Instantiate(Pieces(replacement), run)
  }

  /** The replacement string refers to the whole match. */
  predicate MentionsMatch(replacement: string) {
    Group(0) in Pieces(replacement)
  }

  /** The replacement string stands for no text at all: it is empty, or it
      refers only to capture groups the pattern does not have. */
  predicate Silent(replacement: string) {
    forall i :: 0 <= i < |Pieces(replacement)| ==>
      Pieces(replacement)[i].Group? && Pieces(replacement)[i].n != 0
  }

  /** The code-point path of the replacement in `filterInvalidXMLChars`:
      `preg_replace('/[^...]+/u', replacement, s)`. */
  function ReplaceInvalidRuns(s: string, replacement: string): string
    decreases |s|
  {
    if s == [] then []
    else if IsXmlChar(s[0]) then [s[0]] + ReplaceInvalidRuns(s[1..], replacement)
    else Expand(replacement, InvalidRun(s)) + ReplaceInvalidRuns(SkipInvalid(s[1..]), replacement)
  }

  /** `filterInvalidXMLChars(s, replacement)`. The test `$result == NULL`
      is loose, so an empty replacement result counts as a failed replace
      and the input is returned unfiltered. */
  function FilterInvalidXMLChars(s: string, replacement: string): (r: string)
    ensures r == [] ==> s == []
  {
    var result := ReplaceInvalidRuns(s, replacement);
    if result == [] then s else result
  }

  /** The replacement PHP uses when none is given. */
  const DefaultReplacement: string := "_"

  lemma AppendLegal(a: string, b: string)
    ensures AllXmlChars(a + b) <==> AllXmlChars(a) && AllXmlChars(b)
  {
    if AllXmlChars(a) && AllXmlChars(b) {
      forall i | 0 <= i < |a + b|
        ensures IsXmlChar((a + b)[i])
      {
        if i >= |a| {
          assert (a + b)[i] == b[i - |a|];
        }
      }
    }
    if AllXmlChars(a + b) {
      forall i | 0 <= i < |a|
        ensures IsXmlChar(a[i])
      {
        assert (a + b)[i] == a[i];
      }
      forall i | 0 <= i < |b|
        ensures IsXmlChar(b[i])
      {
        assert (a + b)[|a| + i] == b[i];
      }
    }
  }

  /** The pieces of a replacement string with legal literals stand for
      legal text, unless they put an illegal match back. */
  lemma {:induction false} InstantiateLegal(ps: seq<Piece>, run: string)
    requires forall i :: 0 <= i < |ps| && ps[i].Literal? ==> IsXmlChar(ps[i].c)
    ensures AllXmlChars(Instantiate(ps, run)) <==> AllXmlChars(run) || Group(0) !in ps
    decreases |ps|
  {
    if ps != [] {
      assert ps == [ps[0]] + ps[1..];
      InstantiateLegal(ps[1..], run);
      AppendLegal(PieceText(ps[0], run), Instantiate(ps[1..], run));
    }
  }

  /** The pieces stand for no text against a non-empty match exactly when
      each refers to a group other than 0. */
  lemma {:induction false} InstantiateEmpty(ps: seq<Piece>, run: string)
    requires run != []
    ensures Instantiate(ps, run) == [] <==> forall i :: 0 <= i < |ps| ==> ps[i].Group? && ps[i].n != 0
    decreases |ps|
  {
    if ps != [] {
      InstantiateEmpty(ps[1..], run);
      assert forall i :: 1 <= i < |ps| ==> ps[i] == ps[1..][i - 1];
    }
  }

  /** With a legal replacement string, the text replacing a match is legal
      exactly when the match is, or when the replacement does not refer to
      it. */
  lemma ExpandLegal(replacement: string, run: string)
    requires AllXmlChars(replacement)
    ensures AllXmlChars(Expand(replacement, run)) <==> AllXmlChars(run) || !MentionsMatch(replacement)
  {
    var ps := Pieces(replacement);
    forall i | 0 <= i < |ps| && ps[i].Literal?
      ensures IsXmlChar(ps[i].c)
    {
      var j :| 0 <= j < |replacement| && replacement[j] == ps[i].c;
    }
    InstantiateLegal(ps, run);
  }

  /** A replacement string without `\` or `$` stands for itself. */
  lemma {:induction false} PlainReplacement(replacement: string, run: string)
    requires '\\' !in replacement && '$' !in replacement
    ensures Expand(replacement, run) == replacement
    decreases |replacement|
  {
    if replacement != [] {
      var rest := replacement[1..];
      assert replacement == [replacement[0]] + rest;
      PlainReplacement(rest, run);
      assert Pieces(replacement) == [Literal(replacement[0])] + Pieces(rest);
    }
  }

  /** makeNode's `_` is one literal: it stands for itself, and the filter
      with it always yields legal XML. */
  lemma DefaultFilterLegal(s: string)
    ensures Pieces(DefaultReplacement) == [Literal('_')]
    ensures Expand(DefaultReplacement, InvalidRun(s)) == DefaultReplacement
    ensures AllXmlChars(FilterInvalidXMLChars(s, DefaultReplacement))
  {
    DefaultReplacementPieces();
    PlainReplacement(DefaultReplacement, InvalidRun(s));
    FilterYieldsLegalText(s, DefaultReplacement);
  }

  lemma DefaultReplacementPieces()
    ensures Pieces(DefaultReplacement) == [Literal('_')]
    ensures AllXmlChars(DefaultReplacement)
    ensures !Silent(DefaultReplacement) && !MentionsMatch(DefaultReplacement)
  {
    var d := DefaultReplacement;
    assert d[0] == '_' && d[1..] == [];
    assert Pieces(d) == [Literal('_')] + Pieces([]);
    assert Pieces(d)[0].Literal?;
    assert forall i :: 0 <= i < |Pieces(d)| ==> Pieces(d)[i] == Literal('_');
  }

  /** The three spellings of a back-reference, with at most two digits; an
      unclosed brace is no reference. */
  lemma BackReferenceForms()
    ensures BackReference("$0") == Some((0, 2))
    ensures BackReference("\\0") == Some((0, 2))
    ensures BackReference("${12}") == Some((12, 5))
    ensures BackReference("$123") == Some((12, 3))
    ensures BackReference("${1") == None
    ensures BackReference("$x") == None
  {
  }

  /** A backslash makes the following `$` literal. */
  lemma EscapedDollarIsLiteral()
    ensures Pieces("\\$0") == [Literal('$'), Literal('0')]
    ensures !MentionsMatch("\\$0")
    ensures Expand("\\$0", "\U{1}") == "$0"
  {
    assert BackReference("\\$0") == None;
    assert Pieces("0") == [Literal('0')];
    assert Pieces("\\$0") == [Literal('$')] + Pieces("0");
  }

  /** Text that is already legal XML passes through unchanged. */
  lemma {:induction false} ReplaceKeepsLegalText(s: string, replacement: string)
    requires AllXmlChars(s)
    ensures ReplaceInvalidRuns(s, replacement) == s
    decreases |s|
  {
    if s != [] {
      assert IsXmlChar(s[0]);
      ReplaceKeepsLegalText(s[1..], replacement);
      assert s == [s[0]] + s[1..];
    }
  }

  lemma FilterKeepsLegalText(s: string, replacement: string)
    requires AllXmlChars(s)
    ensures FilterInvalidXMLChars(s, replacement) == s
  {
    ReplaceKeepsLegalText(s, replacement);
  }

  /** With a legal replacement string, the replace result is legal XML
      exactly when the input was, or when the replacement does not put the
      match back. */
  lemma {:induction false} ReplaceYieldsLegalText(s: string, replacement: string)
    requires AllXmlChars(replacement)
    ensures AllXmlChars(ReplaceInvalidRuns(s, replacement)) <==> AllXmlChars(s) || !MentionsMatch(replacement)
    decreases |s|
  {
    if s != [] {
      if IsXmlChar(s[0]) {
        ReplaceYieldsLegalText(s[1..], replacement);
        AppendLegal([s[0]], ReplaceInvalidRuns(s[1..], replacement));
        AppendLegal([s[0]], s[1..]);
        assert s == [s[0]] + s[1..];
      } else {
        var run := InvalidRun(s);
        assert run[0] == s[0];
        ReplaceYieldsLegalText(SkipInvalid(s[1..]), replacement);
        ExpandLegal(replacement, run);
        AppendLegal(Expand(replacement, run), ReplaceInvalidRuns(SkipInvalid(s[1..]), replacement));
      }
    }
  }

  /** The replace result is empty exactly for an empty input, or for a
      replacement string that stands for nothing on an input without a
      legal code point. */
  lemma {:induction false} ReplaceEmptyOnlyIf(s: string, replacement: string)
    ensures ReplaceInvalidRuns(s, replacement) == [] <==>
      s == [] || (Silent(replacement) && LegalCodePoints(s) == [])
    decreases |s|
  {
    if s != [] && !IsXmlChar(s[0]) {
      ReplaceEmptyOnlyIf(SkipInvalid(s[1..]), replacement);
      InstantiateEmpty(Pieces(replacement), InvalidRun(s));
      SkipInvalidKeepsLegal(s[1..]);
    }
  }

  /** With a legal replacement string the result is legal XML exactly when
      the input was or the replacement does not put the match back, except
      that an input without a legal code point comes back unfiltered when
      the replacement stands for nothing: the replace then yields `""`,
      which the loose `== NULL` takes for a failure. */
  lemma FilterYieldsLegalText(s: string, replacement: string)
    requires AllXmlChars(replacement)
    ensures !(Silent(replacement) && LegalCodePoints(s) == []) ==>
      (AllXmlChars(FilterInvalidXMLChars(s, replacement)) <==> AllXmlChars(s) || !MentionsMatch(replacement))
    ensures Silent(replacement) && LegalCodePoints(s) == [] ==> FilterInvalidXMLChars(s, replacement) == s
  {
    ReplaceYieldsLegalText(s, replacement);
    ReplaceEmptyOnlyIf(s, replacement);
  }

  /** Filtering twice with a legal replacement string that does not put
      the match back is the same as filtering once, the unfiltered
      pass-through included. */
  lemma FilterIdempotent(s: string, replacement: string)
    requires AllXmlChars(replacement)
    ensures AllXmlChars(s) || !MentionsMatch(replacement) ==>
      FilterInvalidXMLChars(FilterInvalidXMLChars(s, replacement), replacement)
      == FilterInvalidXMLChars(s, replacement)
  {
    FilterYieldsLegalText(s, replacement);
    if (AllXmlChars(s) || !MentionsMatch(replacement)) && !(Silent(replacement) && LegalCodePoints(s) == []) {
      FilterKeepsLegalText(FilterInvalidXMLChars(s, replacement), replacement);
    }
  }

  /** `$0` puts the matched run back, so a lone control character survives
      the filter. */
  lemma MatchReferenceKeepsRun()
    ensures AllXmlChars("$0") && MentionsMatch("$0")
    ensures FilterInvalidXMLChars("\U{1}", "$0") == "\U{1}"
  {
    var c := "\U{1}";
    assert !IsXmlChar(c[0]) && c[1..] == [];
    assert BackReference("$0") == Some((0, 2));
    assert Pieces("$0") == [Group(0)] + Pieces([]);
    assert Expand("$0", c) == c + Instantiate([], c);
    assert InvalidRun(c) == c;
    assert ReplaceInvalidRuns(c, "$0") == Expand("$0", c) + ReplaceInvalidRuns([], "$0");
  }

  /** `$1` names a group the pattern does not have: it stands for nothing,
      the replace yields `""`, and the input comes back unfiltered. */
  lemma MissingGroupIsSilent()
    ensures AllXmlChars("$1") && Silent("$1")
    ensures ReplaceInvalidRuns("\U{1}", "$1") == []
    ensures FilterInvalidXMLChars("\U{1}", "$1") == "\U{1}"
  {
    assert Pieces("$1") == [Group(1)];
    assert SkipInvalid("\U{1}"[1..]) == [];
  }

  /** With `x$0` every pass puts one more `x` before the control
      character. */
  lemma MatchReferenceNotIdempotent()
    ensures FilterInvalidXMLChars("\U{1}", "x$0") == "x\U{1}"
    ensures FilterInvalidXMLChars("x\U{1}", "x$0") == "xx\U{1}"
  {
    assert Pieces("$0") == [Group(0)];
    assert Pieces("x$0") == [Literal('x'), Group(0)];
    assert InvalidRun("\U{1}") == "\U{1}";
    assert SkipInvalid("\U{1}"[1..]) == [];
    assert ReplaceInvalidRuns("\U{1}", "x$0") == "x\U{1}";
    assert "x\U{1}"[1..] == "\U{1}";
    assert ReplaceInvalidRuns("x\U{1}", "x$0") == "x" + ReplaceInvalidRuns("\U{1}", "x$0");
  }

  /** Reference definition: the legal code points of `s`, in order. */
  function LegalCodePoints(s: string): string
    decreases |s|
  {
    if s == [] then []
    else (if IsXmlChar(s[0]) then [s[0]] else []) + LegalCodePoints(s[1..])
  }

  lemma {:induction false} SkipInvalidKeepsLegal(s: string)
    ensures LegalCodePoints(SkipInvalid(s)) == LegalCodePoints(s)
    decreases |s|
  {
    if s != [] && !IsXmlChar(s[0]) {
      SkipInvalidKeepsLegal(s[1..]);
    }
  }

  /** With an empty replacement string the replace deletes exactly the
      illegal code points and keeps every legal one, in order. */
  lemma {:induction false} ReplaceWithEmptyReplacement(s: string)
    ensures ReplaceInvalidRuns(s, "") == LegalCodePoints(s)
    decreases |s|
  {
    if s != [] {
      if IsXmlChar(s[0]) {
        ReplaceWithEmptyReplacement(s[1..]);
      } else {
        ReplaceWithEmptyReplacement(SkipInvalid(s[1..]));
        SkipInvalidKeepsLegal(s[1..]);
      }
    }
  }

  /** With an empty replacement the filter yields the legal code points of
      the input, in order; an input without any comes back unfiltered. */
  lemma FilterWithEmptyReplacement(s: string)
    ensures LegalCodePoints(s) != [] ==> FilterInvalidXMLChars(s, "") == LegalCodePoints(s)
    ensures LegalCodePoints(s) == [] ==> FilterInvalidXMLChars(s, "") == s
  {
    ReplaceWithEmptyReplacement(s);
  }

  /** A lone control character with an empty replacement is returned as
      it was. */
  lemma ControlCharPassesThrough()
    ensures FilterInvalidXMLChars("\U{1}", "") == "\U{1}"
  {
    assert !IsXmlChar('\U{1}');
    assert SkipInvalid("\U{1}"[1..]) == [];
    assert ReplaceInvalidRuns("\U{1}", "") == [];
  }
}

=== FILE: xmlnode.dfy ===
/** `Feed::makeNode`: the serialization of one tag, its attributes and its
    (possibly nested) content, shared by every rendering phase. */
module XmlNode {

  import opened Wrappers
  import opened Text
  import opened Model
  import opened XmlChars
  import opened Escaping
  import opened Cdata

  /** What the serializer reads from the feed: its format and the tag names
      whose text goes into CDATA sections. */
  datatype Dialect = Dialect(format: Format, cdataTags: seq<string>)

  predicate IsCdataTag(d: Dialect, tag: string) {
    tag in d.cdataTags
  }

  /** One ` key="value"` pair; only the value is filtered and escaped. */
  function AttributeText(key: string, value: string): string {
    " " + key + "=\"" + HtmlSpecialChars(FilterInvalidXMLChars(value, DefaultReplacement)) + "\""
  }

  function AttributeList(attrs: Attrs): string
    decreases |attrs|
  {
    if attrs == [] then "" else AttributeText(attrs[0].0, attrs[0].1) + AttributeList(attrs[1..])
  }

  /** The text between the tag name and `>` of the opening tag. */
  function OpeningAttributes(d: Dialect, tag: string, content: Content, attrs: Attrs): string {
    (if content.Children? && d.format == RSS1 then " rdf:parseType=\"Resource\"" else AttributeList(attrs))
    + (if IsCdataTag(d, tag) && d.format == ATOM then " type=\"html\"" else "")
  }

  function StartTag(d: Dialect, tag: string, content: Content, attrs: Attrs): string {
    "<" + tag + OpeningAttributes(d, tag, content, attrs) + ">"
  }

  function EndTag(tag: string, omitEnd: bool): string {
    if omitEnd then "" else "</" + tag + ">"
  }

  /** Scalar content: filtered, then either CDATA-sanitized or escaped. */
  function TextBody(d: Dialect, tag: string, s: string): string {
    var f := FilterInvalidXMLChars(s, DefaultReplacement);
    if IsCdataTag(d, tag) then SanitizeCDATA(f) else HtmlSpecialChars(f)
  }

  /** What precedes the body: the start tag and, for a listed tag, the
      CDATA opening marker. */
  function Open(d: Dialect, tag: string, content: Content, attrs: Attrs): string {
    StartTag(d, tag, content, attrs) + (if IsCdataTag(d, tag) then OpenMarker else "")
  }

  /** What follows the body: the CDATA closing marker for a listed tag, the
      end tag unless omitted, and a line break. */
  function Close(d: Dialect, tag: string, omitEnd: bool): string {
    (if IsCdataTag(d, tag) then CloseMarker else "") + EndTag(tag, omitEnd) + EOL
  }

  /** The node around an already serialized body. */
  function Wrap(d: Dialect, tag: string, content: Content, attrs: Attrs, omitEnd: bool, body: string): (out: string)
    ensures StartsWith(out, Open(d, tag, content, attrs))
    ensures EndsWith(out, Close(d, tag, omitEnd))
  {
    var open := Open(d, tag, content, attrs);
    var close := Close(d, tag, omitEnd);
    ConcatEnds(open, body, close);
    open + body + close
  }

  /** A tag holding scalar text. */
  function TextNode(d: Dialect, tag: string, s: string, attrs: Attrs, omitEnd: bool): string {
    Wrap(d, tag, Text(s), attrs, omitEnd, TextBody(d, tag, s))
  }

  /** `makeNode(tag, content, attrs, omitEnd)`. The only failure is the
      `RuntimeException` for a nested value that is neither a string nor an
      array. */
  function MakeNode(d: Dialect, tag: string, content: Content, attrs: Attrs, omitEnd: bool): (r: Result<string>)
    ensures r.Success? <==> WellShaped(content)
    ensures r.Success? ==> StartsWith(r.value, Open(d, tag, content, attrs))
    ensures r.Success? ==> EndsWith(r.value, Close(d, tag, omitEnd))
    decreases content
  {
    match content
    case Text(s) => Success(TextNode(d, tag, s, attrs, omitEnd))
    case Children(es) =>
      var body :- MakeEntries(d, es);
      Success(Wrap(d, tag, content, attrs, omitEnd, body))
  }

  /** The entries of a nested array, in order. */
  function MakeEntries(d: Dialect, es: seq<Entry>): (r: Result<string>)
    ensures r.Success? <==> EntriesWellShaped(es)
    decreases es
  {
    if es == [] then Success("")
    else
      var first :- MakeEntry(d, es[0]);
      var rest :- MakeEntries(d, es[1..]);
      Success(first + rest)
  }

  /** One `key => value` entry: a string becomes one node, an array becomes
      a line break followed by one node per member, all named `key`. */
  function MakeEntry(d: Dialect, e: Entry): (r: Result<string>)
    ensures r.Success? <==> ChildWellShaped(e)
    decreases e
  {
    match e.value
    case Leaf(s) => Success(TextNode(d, e.name, s, [], false))
    case List(vs) =>
      var nodes :- MakeList(d, e.name, vs);
      Success(EOL + nodes)
    case NonString => Failure("Unknown node-value type for " + e.name)
  }

  /** The members of a list entry, each written as a node named after the
      entry's key, in order. */
  function MakeList(d: Dialect, name: string, vs: seq<Content>): (r: Result<string>)
    ensures r.Success? <==> ListWellShaped(vs)
    ensures r.Success? && vs != [] ==> StartsWith(r.value, Open(d, name, vs[0], []))
    ensures r.Success? && vs == [] ==> r.value == ""
    decreases vs
  {
    if vs == [] then Success("")
    else
      var first :- MakeNode(d, name, vs[0], [], false);
      var rest :- MakeList(d, name, vs[1..]);
      ConcatEnds(first, rest, "");
      assert first + rest + "" == first + rest;
      StartsWithTrans(first + rest, first, Open(d, name, vs[0], []));
      Success(first + rest)
  }

  lemma ConcatAssoc(a: string, b: string, c: string)
    ensures a + (b + c) == (a + b) + c
  {
  }

  /** A non-empty list is its first member's node followed by the rest. */
  lemma MakeListCons(d: Dialect, name: string, x: Content, xs: seq<Content>)
    requires MakeNode(d, name, x, [], false).Success? && MakeList(d, name, xs).Success?
    ensures MakeList(d, name, [x] + xs)
      == Success(MakeNode(d, name, x, [], false).value + MakeList(d, name, xs).value)
  {
    assert ([x] + xs)[0] == x && ([x] + xs)[1..] == xs;
  }

  /** One more list member adds its node after the nodes of the others. */
  lemma {:induction false} MakeListAppend(d: Dialect, name: string, vs: seq<Content>, v: Content)
    requires MakeList(d, name, vs).Success? && MakeNode(d, name, v, [], false).Success?
    ensures MakeList(d, name, vs + [v]) == Success(MakeList(d, name, vs).value + MakeNode(d, name, v, [], false).value)
    decreases |vs|
  {
    var node := MakeNode(d, name, v, [], false).value;
    if vs == [] {
      assert vs + [v] == [v] + [];
      assert MakeList(d, name, vs) == Success("") && MakeList(d, name, []) == Success("");
      MakeListCons(d, name, v, []);
      assert node + "" == node && "" + node == node;
    } else {
      var x, xs := vs[0], vs[1..];
      assert vs == [x] + xs && vs + [v] == [x] + (xs + [v]);
      assert ListWellShaped(xs);
      MakeListAppend(d, name, xs, v);
      MakeListCons(d, name, x, xs);
      MakeListCons(d, name, x, xs + [v]);
      var first := MakeNode(d, name, x, [], false).value;
      AppendAfterHead(MakeList(d, name, vs), MakeList(d, name, vs + [v]),
                      first, MakeList(d, name, xs).value, node);
    }
  }

  /** The list step of `MakeListAppend`, on the strings alone. */
  lemma AppendAfterHead(before: Result<string>, after: Result<string>, first: string, rest: string, node: string)
    requires before == Success(first + rest) && after == Success(first + (rest + node))
    ensures after == Success(before.value + node)
  {
    ConcatAssoc(first, rest, node);
  }

  /** The opening-tag rules: under RSS 1.0 nested content replaces every
      caller attribute by `rdf:parseType="Resource"`; under ATOM a CDATA
      tag is marked `type="html"`; otherwise the caller's attributes are
      rendered in order. */
  lemma StartTagRules(d: Dialect, tag: string, content: Content, attrs: Attrs)
    ensures content.Children? && d.format == RSS1 ==>
      StartTag(d, tag, content, attrs) == "<" + tag + " rdf:parseType=\"Resource\">"
    ensures d.format == ATOM && IsCdataTag(d, tag) ==>
      StartTag(d, tag, content, attrs) == "<" + tag + AttributeList(attrs) + " type=\"html\">"
    ensures !(content.Children? && d.format == RSS1) && !(d.format == ATOM && IsCdataTag(d, tag)) ==>
      StartTag(d, tag, content, attrs) == "<" + tag + AttributeList(attrs) + ">"
  {
    var ops := OpeningAttributes(d, tag, content, attrs);
    if content.Children? && d.format == RSS1 {
      assert ops == " rdf:parseType=\"Resource\"" + "";
    } else if d.format == ATOM && IsCdataTag(d, tag) {
      assert ops == AttributeList(attrs) + " type=\"html\"";
      assert "<" + tag + ops + ">" == "<" + tag + AttributeList(attrs) + " type=\"html\">";
    } else {
      assert ops == AttributeList(attrs) + "";
    }
  }

  /** Text in a CDATA-listed tag is wrapped in one CDATA section that its
      content cannot terminate or reopen; text free of both markers (and of
      illegal code points) appears verbatim. */
  lemma CdataTextNode(d: Dialect, tag: string, s: string, attrs: Attrs, omitEnd: bool)
    requires IsCdataTag(d, tag)
    ensures Open(d, tag, Text(s), attrs) == StartTag(d, tag, Text(s), attrs) + OpenMarker
    ensures Close(d, tag, omitEnd) == CloseMarker + EndTag(tag, omitEnd) + EOL
    ensures var body := SanitizeCDATA(FilterInvalidXMLChars(s, DefaultReplacement));
      MakeNode(d, tag, Text(s), attrs, omitEnd) == Success(Open(d, tag, Text(s), attrs) + body + Close(d, tag, omitEnd))
      && !Contains(body, CloseMarker) && !Contains(body, OpenMarker)
    ensures AllXmlChars(s) && !Contains(s, CloseMarker) && !Contains(s, OpenMarker) ==>
      SanitizeCDATA(FilterInvalidXMLChars(s, DefaultReplacement)) == s
  {
    var f := FilterInvalidXMLChars(s, DefaultReplacement);
    TextNodeLayout(d, tag, s, attrs, omitEnd);
    assert TextBody(d, tag, s) == SanitizeCDATA(f);
    SanitizeCDATAIsSafe(f);
    if AllXmlChars(s) && !Contains(s, CloseMarker) && !Contains(s, OpenMarker) {
      FilterKeepsLegalText(s, DefaultReplacement);
      SanitizeCDATAKeepsCleanText(s);
    }
  }

  /** Text in any other tag is entity-escaped: the body holds no markup
      character, and decoding its entity references gives back the filtered
      text, which is the text itself when it is legal XML. */
  lemma EscapedTextNode(d: Dialect, tag: string, s: string, attrs: Attrs, omitEnd: bool)
    requires !IsCdataTag(d, tag)
    ensures Open(d, tag, Text(s), attrs) == StartTag(d, tag, Text(s), attrs)
    ensures Close(d, tag, omitEnd) == EndTag(tag, omitEnd) + EOL
    ensures var body := HtmlSpecialChars(FilterInvalidXMLChars(s, DefaultReplacement));
      MakeNode(d, tag, Text(s), attrs, omitEnd) == Success(Open(d, tag, Text(s), attrs) + body + Close(d, tag, omitEnd))
      && (forall i :: 0 <= i < |body| ==> !IsMarkupChar(body[i]))
      && AllXmlChars(DecodeEntities(body))
    ensures AllXmlChars(s) ==>
      DecodeEntities(HtmlSpecialChars(FilterInvalidXMLChars(s, DefaultReplacement))) == s
  {
    var f := FilterInvalidXMLChars(s, DefaultReplacement);
    TextNodeLayout(d, tag, s, attrs, omitEnd);
    assert TextBody(d, tag, s) == HtmlSpecialChars(f);
    EscapedBody(s);
  }

  lemma EscapedBody(s: string)
    ensures var body := HtmlSpecialChars(FilterInvalidXMLChars(s, DefaultReplacement));
      AllXmlChars(DecodeEntities(body))
      && (AllXmlChars(s) ==> DecodeEntities(body) == s)
  {
    var f := FilterInvalidXMLChars(s, DefaultReplacement);
    EscapeRoundTrip(f);
    DefaultFilterLegal(s);
    if AllXmlChars(s) {
      FilterKeepsLegalText(s, DefaultReplacement);
    }
  }

  /** A text node is its opening, its body and its closing. */
  lemma TextNodeLayout(d: Dialect, tag: string, s: string, attrs: Attrs, omitEnd: bool)
    ensures MakeNode(d, tag, Text(s), attrs, omitEnd)
      == Success(Open(d, tag, Text(s), attrs) + TextBody(d, tag, s) + Close(d, tag, omitEnd))
  {
  }

  /** The body a node wraps: the filtered and escaped text, or the
      serialized entries of a nested array. */
  function NodeBody(d: Dialect, tag: string, content: Content): Result<string> {
    match content
    case Text(s) => Success(TextBody(d, tag, s))
    case Children(es) => MakeEntries(d, es)
  }

  /** Every node is its body wrapped in the opening and closing text. */
  lemma MakeNodeWraps(d: Dialect, tag: string, content: Content, attrs: Attrs, omitEnd: bool)
    ensures MakeNode(d, tag, content, attrs, omitEnd).Success? == NodeBody(d, tag, content).Success?
    ensures NodeBody(d, tag, content).Success? ==>
      MakeNode(d, tag, content, attrs, omitEnd).value == Wrap(d, tag, content, attrs, omitEnd, NodeBody(d, tag, content).value)
  {
    if content.Text? {
      TextNodeLayout(d, tag, content.text, attrs, omitEnd);
    }
  }

  /** Omitting the end tag changes nothing but the end: the node without it
      is the full node with `</tag>` inserted before the final line break. */
  lemma OmitEndTagOnlyDropsEndTag(d: Dialect, tag: string, content: Content, attrs: Attrs)
    ensures MakeNode(d, tag, content, attrs, true).Success? == MakeNode(d, tag, content, attrs, false).Success?
    ensures MakeNode(d, tag, content, attrs, true).Success? ==>
      var open := MakeNode(d, tag, content, attrs, true).value;
      MakeNode(d, tag, content, attrs, false).value == open[..|open| - 1] + EndTag(tag, false) + EOL
  {
    MakeNodeWraps(d, tag, content, attrs, true);
    MakeNodeWraps(d, tag, content, attrs, false);
    var without := MakeNode(d, tag, content, attrs, true);
    var with := MakeNode(d, tag, content, attrs, false);
    WrappedWithoutEndTag(d, tag, content, attrs, NodeBody(d, tag, content), without, with);
  }

  /** The end-tag comparison for any two results wrapping the same body. */
  lemma WrappedWithoutEndTag(d: Dialect, tag: string, content: Content, attrs: Attrs,
                             body: Result<string>, without: Result<string>, with: Result<string>)
    requires without.Success? == body.Success? && with.Success? == body.Success?
    requires body.Success? ==> without.value == Wrap(d, tag, content, attrs, true, body.value)
    requires body.Success? ==> with.value == Wrap(d, tag, content, attrs, false, body.value)
    ensures without.Success? == with.Success?
    ensures without.Success? ==>
      with.value == without.value[..|without.value| - 1] + EndTag(tag, false) + EOL
  {
    if body.Success? {
      WrapWithoutEndTag(d, tag, content, attrs, body.value);
    }
  }

  lemma WrapWithoutEndTag(d: Dialect, tag: string, content: Content, attrs: Attrs, body: string)
    ensures var open := Wrap(d, tag, content, attrs, true, body);
      Wrap(d, tag, content, attrs, false, body) == open[..|open| - 1] + EndTag(tag, false) + EOL
  {
    var pre := Open(d, tag, content, attrs) + body;
    var c := if IsCdataTag(d, tag) then CloseMarker else "";
    LastLineSwap(Wrap(d, tag, content, attrs, true, body), Wrap(d, tag, content, attrs, false, body),
                 pre, c, EndTag(tag, true), EndTag(tag, false));
  }

  /** Two texts that differ only in what stands before their final line
      break. */
  lemma LastLineSwap(without: string, with: string, pre: string, c: string, none: string, e: string)
    requires none == ""
    requires without == pre + (c + none + EOL) && with == pre + (c + e + EOL)
    ensures with == without[..|without| - 1] + e + EOL
  {
    InsertBeforeLastLine(pre, c, none, e);
  }
}
